=== FILE: README.md ===
# Bundler core in Dafny

A model of the pure logic of a small JavaScript bundler. A project's index
file holds literal code and directive blocks. A directive block is a comment
opened by a marker line and holding `useLocal` / `useGlobal` instructions.
These name fragment files to splice in before the index, after it, at the
place of the directive, or at the top of the bundle. The bundler parses the
index into four ordered segment lists, fetches and cleans every referenced
fragment through a cache, and concatenates everything into one bundle. Two
generations live side by side in the repository, and both are modelled
without being merged:

- **Current generation**
  - `Directives` and `DirectiveFacts` cover `parseFile` and
    `parseInstruction` (MODULES/index.js). The index, already split into
    lines, goes through a two-state line machine that emits `Text` and `Ref`
    segments into `topOfFile`, `beforeIndex`, `indexContent` and `afterIndex`.
  - `Transform` covers the three-regex clean-up applied to a fragment.
  - `FragmentStore` covers `getAndCacheContent`, `updateBundle` and
    `fileWatcher` (bundler.js). The file system is a map from path to
    contents; a missing key is a failed read. The cache and watcher state is
    passed in and returned explicitly.
- **Superseded generation** (bundler_old.js)
  - `OldArrays` covers `areArraysTheSame` and `arraysDifference`.
  - `OldIndex` covers the directive loop of `initIndex`.
  - `OldBundle` covers the watcher reconciliation of `initIndex`, the
    watcher callbacks and `updateBundle`.
  - `OldClean` covers the whole-bundle clean-up.
- **Shared helpers**
  - `JsText` covers the JavaScript regex character classes (`\s`, `\w`,
    line terminators), `indexOf`, `includes` and `startsWith`.
  - `JsSplit` covers `split` on a character class and `split(/\s+/)`.

Every regular expression is written out as the scan the JavaScript engine
performs. That includes greedy whitespace runs, the multiline `^`/`$`, and
`.` stopping at the four line terminators.

Each operation is paired with an independent reference definition and a
lemma that connects them:

- The line machine's mode, text, block columns and references are compared
  with `ModeAfter`, `TextLines`, `OpenedAt` and `RefsTo`. Its index content,
  text and references together, is compared with `IndexRef`: one text
  segment per run of text lines between valid `@here` instructions.
- The assembled bundle is compared with `Render`, a pure view of the cache.
- The old whole-bundle clean-up is compared, up to whitespace, with the
  current generation's comment removal `Transform.StripComments`.
- The source-shaped loop `AssembleOld` is compared with `RawBundle`.
- The required lists are compared with `Dedup` of every request.
- The watcher listeners are compared with `Matches`: a group has exactly one
  listener for each listed file and none for any other file.
- The cached contents are compared with `ReadAgain`: the named entries hold
  the file or the placeholder, and every other entry is as it was.

## Model

| member | source | states |
|---|---|---|
| Directives.Step | MODULES/index.js:25-93 | Blank or `//`-only lines change nothing, even inside a block. Inside a block, the first other line holding `*/` closes it and emits nothing. Any other line inside a block emits the instruction it holds, if any, and otherwise changes nothing. Outside a block the segment lists never change, and a line that is not a marker is added to the pending text with a newline. A block opens only on a marker line, and the offset becomes the column of its comment opener, which equals the width of its leading whitespace. |
| Directives.MarkerColumn | MODULES/index.js:84-86 | On a marker line, `indexOf("/*")` equals the width of the leading whitespace. |
| Directives.MatchInstruction | MODULES/index.js:33-38 | A line is an instruction exactly when, after its leading whitespace, a non-empty run of word characters is followed by a whitespace character. The rule is that run. The arguments are the rest of the line after the following whitespace, up to the first line terminator, so they hold no line terminator and do not start with whitespace. |
| Directives.FirstAt | MODULES/index.js:114-116 | `findIndex`: either the index of the first `@` token, with no `@` token before it, or -1 when there is no `@` token at all. |
| Directives.Splice | MODULES/index.js:117 | `splice(start, 1)` removes at most one element. It removes nothing exactly when the list is empty or the start is past the end. A start of -1 removes the last element. |
| Directives.ParseInstruction | MODULES/index.js:106-142 | A `useLocal` is valid exactly when its first `@` token is `@here`, `@before` or `@after`. A valid one takes its placement from that token (`@here` is here, `@before` is before, `@after` is after) and loses only that token. It is "unset" exactly when it has no `@` token. `useGlobal` keeps every token, `@` tokens included. Any other rule is valid, has the "other" type, and routes nowhere. |
| Directives.ParseInstructionAsWritten | MODULES/index.js:106-142 | As written, a `useLocal` with no `@` token takes its last token as the placement, is illegal, and loses that token. In every other case it gives what the intended parser gives. |
| Directives.LastIsNoPlacement | MODULES/index.js:117-122 | When no token starts with `@`, the last token names no placement, so `splice(-1, 1)` picks an illegal one. |
| Directives.AsWrittenNeverUnset | MODULES/index.js:117-122 | As written, no instruction is ever "unset". |
| Directives.MissingPlacementExample | MODULES/index.js:114-122 | For `useLocal a`, the code as written reports "illegal" and loses `a`. The intended parser reports "unset" and keeps `a`. |
| Directives.AsWrittenAgrees | MODULES/index.js:106-142 | The parser as written and the corrected one agree on validity. On every valid instruction they agree completely. |
| Directives.Emit | MODULES/index.js:43-78 | An invalid or other-rule instruction changes nothing. Global references go only to `topOfFile`. Local ones go to `beforeIndex`, `afterIndex` or, after the pending text is flushed, `indexContent`, by placement. There is one reference per file, in order, at the current offset. |
| DirectiveFacts.EmitShape | MODULES/index.js:54-78 | Emitting keeps the lists well formed: only global references at the top, only local references before and after, and in the index content only local references and non-empty text. |
| DirectiveFacts.EmitText | MODULES/index.js:62-73 | Emitting never changes the emitted text followed by the pending text. The flush before `@here` only moves text. |
| DirectiveFacts.EmitOffsets | MODULES/index.js:45-53 | Every reference an instruction adds carries the current offset. |
| DirectiveFacts.RunMode | MODULES/index.js:25-87 | After any prefix of lines, the machine's mode equals the reference mode `ModeAfter`. |
| DirectiveFacts.OpenBlockColumn | MODULES/index.js:84-87 | While a block is open, the offset is the column of the comment opener on the marker line that opened the still-open block. |
| DirectiveFacts.StepText | MODULES/index.js:88-92 | One line adds itself and a newline to the text exactly when it is neither blank nor a comment, is read outside a block, and is not a marker line. |
| DirectiveFacts.RunText | MODULES/index.js:25-94 | After any prefix, the emitted text followed by the pending text equals the text lines read so far, each followed by `\n`. |
| DirectiveFacts.ParseLines | MODULES/index.js:25-104 | For any list of lines, the index content is exactly `IndexRef`: the text lines between two valid `@here` instructions (or before the first, or after the last) form one text segment, absent when there are none. Each such instruction's references stand in its place. So text and references interleave as the lines do. The text segments, concatenated, are exactly the text lines in order, each followed by `\n`. The output is well formed, with no empty text segment. Every reference carries the column of a block-opening marker line. `topOfFile`, `beforeIndex` and `afterIndex` are exactly, and the references in `indexContent` are exactly, the references `RefsTo` assigns to that list: one per file of each valid instruction read inside a block, routed by rule and placement, in line order, at the column of the block's opener. |
| DirectiveFacts.RunRefs | MODULES/index.js:25-87 | After any prefix of lines, each list of the machine holds exactly the references `RefsTo` assigns to it. |
| DirectiveFacts.StepRefs | MODULES/index.js:27-78 | One line adds to each list exactly the references of its own instruction that target that list. |
| DirectiveFacts.RunIndex | MODULES/index.js:25-94 | After any prefix of lines, the index content holds exactly the `IndexRef` segments up to the last valid `@here` instruction. The pending text is exactly the text lines read since then. |
| DirectiveFacts.StepCut | MODULES/index.js:62-74 | A valid `@here` instruction pushes the pending text as one segment, only when it is not empty, then its references. It empties the pending text. |
| DirectiveFacts.StepPlain | MODULES/index.js:25-92 | Any other line leaves the index content alone. It appends itself and a `\n` to the pending text exactly when it is a text line. |
| DirectiveFacts.FinishIndex | MODULES/index.js:95-100 | The final flush turns the machine's index content into exactly `IndexRef` of all the lines. |
| DirectiveFacts.EmitRefs | MODULES/index.js:43-78 | An instruction appends its references, at the current offset, to the one list it targets and to no other list. |
| DirectiveFacts.RunOffset | MODULES/index.js:84-87 | The machine's offset is always the opener column of the last block opened. |
| DirectiveFacts.ParseFile | MODULES/index.js:14-104 | Everything `ParseLines` states holds for the index split at every `\n` and `\r`: the interleaving `IndexRef`, text, shape, columns and the four reference lists. |
| JsSplit.SplitThenJoin | MODULES/index.js:25 | Splitting on a character class and joining with `c` is replacing every separator by `c`. |
| JsSplit.JoinThenSplit | MODULES/index.js:25 | Joining separator-free lines and splitting again gives the lines back. |
| JsSplit.SplitSpaceEmptyPieces | MODULES/index.js:110 | `split(/\s+/)` gives an empty first piece exactly when the input is empty or starts with whitespace, and an empty last piece exactly when it is empty or ends with whitespace. No other piece is empty. There is one piece exactly when there is no whitespace. |
| JsSplit.SplitSpaceConcat | MODULES/index.js:110 | The pieces of `split(/\s+/)`, concatenated, are the input without its whitespace. |
| JsSplit.SplitSpaceNoSpace | MODULES/index.js:110 | No piece of `split(/\s+/)` holds whitespace. |
| Transform.StripIdempotent | bundler.js:141 | Removing whole-line comments twice removes nothing more. |
| Transform.CollapseIndents | bundler.js:143 | After collapsing, every newline is followed by the indentation, and never by a second newline after it. The result is empty exactly when the input is. |
| Transform.TrimEndsClean | bundler.js:145 | After the final step, a newline followed only by whitespace is the last character, and only whitespace has been removed. |
| Transform.Process | bundler.js:139-145 | A processed fragment keeps every non-whitespace character that comment removal keeps, in order. Every newline except a final one is followed by at least `leftOffset` spaces. A newline followed only by whitespace is the last character. The fragment is empty exactly when comment removal leaves nothing, whatever the offset. |
| Transform.StripKeepsCodeLine | bundler.js:141 | A line that is neither blank nor a `//` comment survives comment removal unchanged. |
| FragmentStore.Get | bundler.js:120-172 | Only the entry and watcher of the requested file, in the cache of its type, can change. A hit is answered from the cache alone. A failed read returns the not-found note and leaves the state alone. Otherwise the file is processed at this offset, cached and watched. A whitespace-only result is never returned, and asking again changes nothing. |
| FragmentStore.ReadAndCache | bundler.js:132-171 | On the read path, the entry becomes the processed file and the name is added to the watchers once. The answer is what the new state shows. |
| FragmentStore.HitIgnoresDiskAndOffset | bundler.js:123-131 | On a cache hit, neither the file system nor the offset matters, and the state is unchanged. |
| FragmentStore.StableGet | bundler.js:120-172 | For a stable fragment (a hit, a missing file, or a watched empty entry whose file still processes to nothing), `get` returns the cache's view and changes nothing. |
| FragmentStore.GetIdempotent | bundler.js:120-172 | Asking for the same fragment twice is asking once. |
| FragmentStore.GetKeepsWatchersUnique | bundler.js:148-166 | A watcher is registered at most once per type and file name. |
| FragmentStore.GetKeepsOthers | bundler.js:146 | Fetching one fragment keeps every other stable fragment stable, with its entry and view unchanged. |
| FragmentStore.AssembleRenders | bundler.js:87-108 | After assembling, every referenced fragment is stable, and the text is the rendering of the final state. |
| FragmentStore.AssembleStable | bundler.js:87-108 | When every referenced fragment is stable, assembling reads nothing and changes nothing. |
| FragmentStore.UpdateBundle | bundler.js:80-109 | After a rebuild, every referenced fragment is stable. The bundle is `topOfFile`, `beforeIndex`, `indexContent` and `afterIndex`, each rendered from the final state, in that order. |
| FragmentStore.UpdateBundleIdempotent | bundler.js:80-109 | Rebuilding without a change on disk yields the same text and the same state. |
| FragmentStore.TextOnlyVerbatim | bundler.js:90-92 | Text segments are copied verbatim, with no read. |
| FragmentStore.FileWatcher | bundler.js:173-191 | After a change notification, the entry of the changed file is its new contents processed at the captured offset, or absent when it cannot be read. The result is what a rebuild of it gives, so rebuilding once more changes nothing. |
| OldArrays.Sort | bundler_old.js:40 | `slice().sort()` returns a sorted permutation. |
| OldArrays.SortEqual | bundler_old.js:40-42 | Two arrays sort to the same list exactly when they are permutations of each other. |
| OldArrays.AreArraysTheSame | bundler_old.js:39-43 | True exactly when every array is a permutation of the last one. |
| OldArrays.ArraysDifference | bundler_old.js:44-54 | `onlyFirstArray` holds the elements of A not in B, in A's order, with A's multiplicities. `onlyLastArray` is the same with A and B swapped. |
| OldArrays.DifferenceSelf | bundler_old.js:44-54 | An array differs from itself in nothing. |
| OldArrays.DifferenceSwap | bundler_old.js:44-54 | Swapping the arguments swaps the results. |
| OldArrays.DifferenceEmpty | bundler_old.js:44-54 | Both results are empty exactly when the arrays hold the same values. Arrays that are the same by `areArraysTheSame` always qualify. |
| OldIndex.InstructionOf | bundler_old.js:85-90 | A line is an instruction exactly when its first non-blank character is `*`. The instruction holds no line terminator and does not start with whitespace. |
| OldIndex.Requested | bundler_old.js:91-152 | A `useglobal` requests all of its arguments for the globals, and nothing else requests globals. A `uselocal` whose first `@` argument is `@before` (or `@after`) requests its other arguments for that group, and nothing else requests names for a local group. |
| OldIndex.RequestedRouting | bundler_old.js:101-152 | An instruction feeds at most one group. A `uselocal` with no `@` argument, or with any other `@` argument (`@here` included), feeds none. `useglobal` keeps `@` arguments as names. |
| OldIndex.CaseInsensitive | bundler_old.js:92 | Commands are matched whatever the case of their ASCII letters. |
| OldIndex.AddAllDedup | bundler_old.js:94-99 | Pushing names that are not yet present is de-duplicating every request, so the first declaration wins. |
| OldIndex.OldRunFacts | bundler_old.js:72-157 | The header mode equals the reference `HeaderAfter`. Each required list is the de-duplicated list of every request for its group, in order of first declaration. |
| OldIndex.ParseIndex | bundler_old.js:55-157 | The rebuilt required lists hold no name twice, and each is the de-duplicated list of every request for its group in the index split at `\n`. |
| OldClean.BlankMatch | bundler_old.js:285 | A match of `^\s*(\/\/.*)?$` ends at the end of the text or at a line terminator. |
| OldClean.Clean | bundler_old.js:284-286 | The cleaned bundle never holds two newlines in a row, and no line of it starts, after whitespace, with `//`. Up to whitespace, it is the input with exactly the comment part of every comment-only line removed, so every other line keeps all of its characters, `//` in the middle of a line included. Without `//` anywhere, only whitespace is lost. |
| OldClean.StripAgrees | bundler_old.js:285 | Up to whitespace, `replace(/^\s*(\/\/.*)?$/gm, "")` removes exactly what the comment removal `^\s*\/\/.*$` removes: blank lines and backed-off matches lose whitespace only. |
| OldClean.OldStripKeepsCodeLine | bundler_old.js:285 | A line holding code (a non-whitespace character, and no `//` right after the leading whitespace) passes the first replacement unchanged. |
| OldBundle.Read | bundler_old.js:223-235 | The entry becomes the file, or the placeholder when it cannot be read (`ReadAgain` with that one name). Nothing else changes. |
| OldBundle.AddOne | bundler_old.js:182-187 | One name gains one listener of the group and a place on its watcher list. Its entry is read and no other entry changes. Required and imported lists are unchanged. |
| OldBundle.AddEach | bundler_old.js:181-188 | Adding watchers adds one listener of the group being reconciled per occurrence of each name, so exactly one per name when the names are distinct. It appends the names to the group's watcher list. Each name's entry becomes the file, or the placeholder when it cannot be read, and every other entry is unchanged. Required and imported lists are unchanged. |
| OldBundle.RemoveEach | bundler_old.js:189-191 | A listener survives, with every copy of it, exactly when no cancelled name drops it, and otherwise no copy survives. Only the listeners change. |
| OldBundle.Keep | bundler_old.js:212-216 | Cancelling keeps exactly the listeners the cancellation does not drop. |
| OldBundle.ReconcileUnchanged | bundler_old.js:174 | When required and imported are permutations of each other, reconciliation changes nothing. |
| OldBundle.ReconcileChanged | bundler_old.js:173-193 | Otherwise a listener exists afterwards exactly when it existed or was added for a name only required, and no cancellation of a name only imported drops it. |
| OldBundle.ReconcileWatchers | bundler_old.js:177-188 | A reconciliation that changes something appends exactly the names only required to the watcher list. |
| OldBundle.ReconcileExact | bundler_old.js:173-193 | With cancellation limited to the group's own listener, a group whose listeners matched its imported list ends with listeners matching exactly its required list. Other groups' listeners are untouched. |
| OldBundle.ReconcileNoStale | bundler_old.js:173-193 | As written, no stale listener survives, and no other group gains one. |
| OldBundle.ReconcileContents | bundler_old.js:173-193 | Reconciling a group reads exactly the names it requires but has not imported: each becomes the file or the placeholder. Every other entry, and every other group's contents, stay as they were. |
| OldBundle.ReconcileAllContents | bundler_old.js:173-193 | Reconciling the three groups in turn reads, in each group, exactly the names it requires but has not imported. |
| OldBundle.OthersOnlyLose | bundler_old.js:189-191 | Reconciling one group can only remove listeners of the other groups. |
| OldBundle.ReconcileAllExact | bundler_old.js:158-193 | When every group's listeners match its imported list and no required list repeats a name, reconciling the three groups in turn leaves every group with exactly one listener per required file and none for any other file. |
| OldBundle.InitIndexAsWritten | bundler_old.js:55-197 | initIndex as written sets every required list to the de-duplicated parse of the new index, keeps the imported lists, and stores the index text. In every group, each name the new index requires and the group has not imported is read again, and every other entry is unchanged. |
| OldBundle.InitIndex | bundler_old.js:55-197 | With the corrected cancellation the same holds, including which entries are read. When the listeners matched the imported lists, they now match the new required lists exactly. |
| OldBundle.WatchesFollowIndex | bundler_old.js:158-197 | With the corrected cancellation, reconciling against any duplicate-free required lists turns listeners that matched the imported lists into listeners that match the required lists. |
| OldBundle.AppendGroup | bundler_old.js:255-262 | One group's loop appends each required name's contents, or the placeholder when they are missing or empty, and rebuilds the imported list as the required list. |
| OldBundle.AssembleOld | bundler_old.js:252-282 | The source's statement sequence yields globals, then `@before` locals, then the raw index text, then `@after` locals. Every imported list becomes its required list. |
| OldBundle.UpdateBundle | bundler_old.js:252-286 | Imported equals required afterwards. The listeners, the index and every group's contents are unchanged, so the final state assembles the same raw bundle. The written bundle never holds two newlines in a row, and no line of it starts, after whitespace, with `//`. Up to whitespace, it is the raw bundle with the comment part of its comment-only lines removed. Without `//`, only whitespace is lost. |
| OldBundle.BundleSyncs | bundler_old.js:255-282 | If the listeners match the required lists, they match the imported lists after a bundle. |
| OldBundle.ReloadAsWritten | bundler_old.js:338-343 | An index reload makes every imported list the de-duplicated parse of the new index, and stores the index text. It reads exactly the names newly required in each group. The text written is the clean-up of the bundle the final state assembles. |
| OldBundle.ReloadCorrected | bundler_old.js:338-343 | With the corrected cancellation the same holds, text and reads included. A reload keeps every imported file watched by exactly one listener per group, with no listener for any other file. |
| OldBundle.CancelDropsBoth | bundler_old.js:212-216 | As written, cancelling an `@after` name also drops the `@before` listener of the same file, because the two local groups share one directory. |
| OldBundle.AsWrittenLosesWatcher | bundler_old.js:173-216 | When a file moves from `@after` to `@before`, the code as written leaves it required but unwatched. The corrected cancellation keeps its watcher. |
| OldBundle.OldFileWatcher | bundler_old.js:217-235 | A change notification re-reads the file into its entry, or the placeholder when it cannot be read. No other entry of any group changes, and no listener is touched. The text written is the clean-up of the bundle the final state assembles. When every imported list already equals its required list, the watch invariant is kept. |

## Left out

- Console output (MODULES/console.js and the logging in bundler_old.js): no result depends on it.
- `readFile` (MODULES/index.js:5-13): it logs a failed read and returns null without touching `rawContent`, so bundler.js:65-66 parses the last index text read successfully (the empty string before any read). The index text is a parameter, and it stands for that last successful read.
- The fatal missing-index error of the superseded generation (bundler_old.js:62-66): the index text is a parameter.
- Writing the bundle file and its error path (bundler.js:110-118, bundler_old.js:288-300): the bundle text is the result.
- Start-up configuration from `dotenv`, `process.env` and `process.mainModule`: paths are parameters (`Cache.dir`, `Dirs`).
- Polling with `fs.watchFile`, and the `mtime !==` guard: the guard compares two `Date` objects by identity, so it always holds. A notification is modelled as a direct call of the callback.
- The try/catch around `fs.watchFile` (bundler.js:149-165): in the model, registration always succeeds.
- The index watcher of the current generation (bundler.js:63-69) is `ParseFile` followed by `UpdateBundle`. It has no separate member.
- Listener closures are abstracted to the group and file name they capture.
- FragmentStore: watchers are a list without duplicates rather than a set, because the source keeps an array and tests `includes`.
- Characters are UTF-16 code units in the source and Dafny `char` values here. Nothing depends on surrogate pairs.
- OldIndex.AsciiLower: `toLowerCase` is modelled on ASCII letters only. Comparisons with `useglobal` and `uselocal` are exact; other Unicode case mappings are not modelled.
- Neither generation ever purges a cache entry when a fragment is no longer referenced, and neither does the model.
- File names that are keys of `Object.prototype` (`toString`, `__proto__` and the like): the source looks them up in plain objects, so such a name finds an inherited member rather than a missing entry. The model's caches are maps, where every name not stored is missing.

## Findings

| source | as written | input that shows it | evidently intended | confidence | as-written member | corrected member |
|---|---|---|---|---|---|---|
| MODULES/index.js:114-122 | `findIndex` returns -1 when no argument starts with `@`. `splice(-1, 1)` then removes the last argument, so `position == null` never holds. A missing placement is reported as "illegal" and a file name is lost. | `useLocal a` | A missing placement is "unset", and no argument is removed. | not executed | Directives.ParseInstructionAsWritten, with Directives.MissingPlacementExample and Directives.AsWrittenNeverUnset | Directives.ParseInstruction, with Directives.AsWrittenAgrees |
| bundler_old.js:189-191, 212-216 | `fs.unwatchFile(path)` with no listener removes every listener on the path. `@before` and `@after` share the LOCALS directory and are reconciled in that order. | The index moves file `x` from `@after` to `@before`. The `@before` pass adds a listener for `x`, and the `@after` pass then removes every listener on `x`'s path. | Cancel only the listener of the group being reconciled, so `x` stays watched. | not executed | OldBundle.InitIndexAsWritten, with OldBundle.AsWrittenLosesWatcher and OldBundle.CancelDropsBoth | OldBundle.InitIndex, with OldBundle.ReloadCorrected and OldBundle.ReconcileAllExact |

=== FILE: arrays.dfy ===
/** The two array helpers of the superseded bundler (bundler_old.js:39-54):
    `areArraysTheSame`, which compares arrays after sorting each with the
    default string order, and `arraysDifference`, which splits two arrays
    into the elements found only in the first and only in the second. */
module OldArrays {

  /** The default `sort()` order on strings: lexicographic by character code,
      a proper prefix first. */
  predicate Below(a: string, b: string)
    decreases |a|
  {
    if |a| == 0 then |b| > 0
    else if |b| == 0 then false
    else if a[0] != b[0] then a[0] < b[0]
    else Below(a[1..], b[1..])
  }

  predicate AtMost(a: string, b: string) {
    a == b || Below(a, b)
  }

  lemma {:induction false} BelowAsymmetric(a: string, b: string)
    ensures !(Below(a, b) && Below(b, a))
    decreases |a|
  {
    if |a| > 0 && |b| > 0 && a[0] == b[0] {
      BelowAsymmetric(a[1..], b[1..]);
    }
  }

  lemma {:induction false} BelowTotal(a: string, b: string)
    ensures a == b || Below(a, b) || Below(b, a)
    decreases |a|
  {
    if |a| > 0 && |b| > 0 && a[0] == b[0] {
      BelowTotal(a[1..], b[1..]);
      if a[1..] == b[1..] {
        assert a == [a[0]] + a[1..] && b == [b[0]] + b[1..];
      }
    }
  }

  lemma {:induction false} BelowTransitive(a: string, b: string, c: string)
    requires Below(a, b) && Below(b, c)
    ensures Below(a, c)
    decreases |a|
  {
    if |a| > 0 && a[0] == b[0] && b[0] == c[0] {
      BelowTransitive(a[1..], b[1..], c[1..]);
    }
  }

  predicate Sorted(s: seq<string>) {
    forall i, j :: 0 <= i < j < |s| ==> AtMost(s[i], s[j])
  }

  /** What is at most the head of a sorted list is at most all of it. */
  lemma BelowHead(x: string, s: seq<string>)
    requires Sorted(s) && |s| > 0 && AtMost(x, s[0])
    ensures forall j :: 0 <= j < |s| ==> AtMost(x, s[j])
  {
    forall j | 0 <= j < |s| ensures AtMost(x, s[j]) {
      if x != s[0] && s[0] != s[j] { BelowTransitive(x, s[0], s[j]); }
    }
  }

  /** The head of a sorted list is at most every element of any list made of
      its tail and one element above it. */
  lemma HeadBelow(s: seq<string>, x: string, t: seq<string>)
    requires Sorted(s) && |s| > 0 && AtMost(s[0], x)
    requires multiset(t) == multiset(s[1..]) + multiset{x}
    ensures forall j :: 0 <= j < |t| ==> AtMost(s[0], t[j])
  {
    forall j | 0 <= j < |t| ensures AtMost(s[0], t[j]) {
      assert t[j] in multiset(t);
      if t[j] != x {
        assert t[j] in multiset(s[1..]);
        var k :| 0 <= k < |s[1..]| && s[1..][k] == t[j];
        assert s[k + 1] == t[j];
      }
    }
  }

  /** Inserts `x` into a sorted list, after every element below it. */
  function Insert(x: string, s: seq<string>): (r: seq<string>)
    requires Sorted(s)
    ensures Sorted(r)
    ensures multiset(r) == multiset(s) + multiset{x}
    decreases |s|
  {
    if |s| == 0 then [x]
    else if AtMost(x, s[0]) then
      BelowHead(x, s);
      [x] + s
    else
      BelowTotal(x, s[0]);
      var t := Insert(x, s[1..]);
      assert s == [s[0]] + s[1..];
      HeadBelow(s, x, t);
      [s[0]] + t
  }

  /** `array.slice().sort()`. */
  function Sort(s: seq<string>): (r: seq<string>)
    ensures Sorted(r)
    ensures multiset(r) == multiset(s)
  {
    if |s| == 0 then []
    else
      assert s == [s[0]] + s[1..];
      Insert(s[0], Sort(s[1..]))
  }

  /** Sorted lists with the same elements start with the same (least) one. */
  lemma SortedHeads(a: seq<string>, b: seq<string>)
    requires Sorted(a) && Sorted(b) && multiset(a) == multiset(b) && |a| > 0
    ensures |b| > 0 && a[0] == b[0]
  {
    assert a[0] in multiset(b);
    var i :| 0 <= i < |b| && b[i] == a[0];
    assert b[0] in multiset(a);
    var j :| 0 <= j < |a| && a[j] == b[0];
    assert AtMost(b[0], a[0]) && AtMost(a[0], b[0]);
    BelowAsymmetric(a[0], b[0]);
  }

  lemma SortedTail(a: seq<string>)
    requires Sorted(a) && |a| > 0
    ensures Sorted(a[1..])
    ensures multiset(a[1..]) == multiset(a) - multiset{a[0]}
  {
    assert a == [a[0]] + a[1..];
    assert forall i, j :: 0 <= i < j < |a[1..]| ==> a[1..][i] == a[i + 1] && a[1..][j] == a[j + 1];
  }

  /** A sorted list is determined by its elements. */
  lemma {:induction false} SortedUnique(a: seq<string>, b: seq<string>)
    requires Sorted(a) && Sorted(b) && multiset(a) == multiset(b)
    ensures a == b
    decreases |a|
  {
    assert |a| == |multiset(a)| == |b|;
    if |a| > 0 {
      SortedHeads(a, b);
      SortedTail(a);
      SortedTail(b);
      SortedUnique(a[1..], b[1..]);
      assert a == [a[0]] + a[1..] && b == [b[0]] + b[1..];
    }
  }

  /** Two arrays sort to the same list exactly when they hold the same
      elements with the same multiplicities. */
  lemma SortEqual(a: seq<string>, b: seq<string>)
    ensures Sort(a) == Sort(b) <==> multiset(a) == multiset(b)
  {
    if multiset(a) == multiset(b) {
      SortedUnique(Sort(a), Sort(b));
    }
  }

  /** areArraysTheSame: every array, sorted, equals the last one sorted.
      `JSON.stringify` of two lists of strings agree exactly when the lists do. */
  function AreArraysTheSame(arrays: seq<seq<string>>): (r: bool)
    ensures r <==> forall i :: 0 <= i < |arrays| - 1 ==>
                     multiset(arrays[i]) == multiset(arrays[|arrays| - 1])
  {
    if |arrays| == 0 then true
    else
      var reference := Sort(arrays[|arrays| - 1]);
      assert forall i :: 0 <= i < |arrays| - 1 ==>
        (Sort(arrays[i]) == reference <==> multiset(arrays[i]) == multiset(arrays[|arrays| - 1])) by {
        forall i | 0 <= i < |arrays| - 1 {
          SortEqual(arrays[i], arrays[|arrays| - 1]);
        }
      }
      forall i :: 0 <= i < |arrays| - 1 ==> Sort(arrays[i]) == reference
  }

  /** `r` can be obtained from `a` by deleting elements. */
  predicate Subsequence(r: seq<string>, a: seq<string>)
    decreases |a|
  {
    if |r| == 0 then true
    else if |a| == 0 then false
    else if r[0] == a[0] then Subsequence(r[1..], a[1..])
    else Subsequence(r, a[1..])
  }

  /** The elements of `a` that `b` does not include, in `a`'s order. */
  function OnlyIn(a: seq<string>, b: seq<string>): (r: seq<string>)
    ensures Subsequence(r, a)
    ensures forall x :: multiset(r)[x] == if x in b then 0 else multiset(a)[x]
    ensures forall x :: x in r <==> x in a && x !in b
    decreases |a|
  {
    if |a| == 0 then []
    else
      assert a == [a[0]] + a[1..];
      var t := OnlyIn(a[1..], b);
      if a[0] in b then
        assert |t| > 0 ==> t[0] in t;
        t
      else
        assert ([a[0]] + t)[1..] == t;
        [a[0]] + t
  }

  datatype Difference = Difference(onlyFirstArray: seq<string>, onlyLastArray: seq<string>)

  /** arraysDifference. */
  function ArraysDifference(a: seq<string>, b: seq<string>): (r: Difference)
    ensures Subsequence(r.onlyFirstArray, a) && Subsequence(r.onlyLastArray, b)
    ensures forall x :: x in r.onlyFirstArray <==> x in a && x !in b
    ensures forall x :: x in r.onlyLastArray <==> x in b && x !in a
    ensures forall x :: multiset(r.onlyFirstArray)[x] == if x in b then 0 else multiset(a)[x]
    ensures forall x :: multiset(r.onlyLastArray)[x] == if x in a then 0 else multiset(b)[x]
  {
    Difference(OnlyIn(a, b), OnlyIn(b, a))
  }

  /** An array differs from itself in nothing. */
  lemma DifferenceSelf(a: seq<string>)
    ensures ArraysDifference(a, a) == Difference([], [])
  {
    var r := ArraysDifference(a, a);
    assert multiset(r.onlyFirstArray) == multiset{};
    assert multiset(r.onlyLastArray) == multiset{};
  }

  /** Swapping the arguments swaps the two results. */
  lemma DifferenceSwap(a: seq<string>, b: seq<string>)
    ensures ArraysDifference(b, a) == Difference(ArraysDifference(a, b).onlyLastArray, ArraysDifference(a, b).onlyFirstArray)
  {
  }

  /** Both results are empty exactly when the arrays hold the same set of
      values; arrays that are the same up to order always qualify. */
  lemma DifferenceEmpty(a: seq<string>, b: seq<string>)
    ensures ArraysDifference(a, b) == Difference([], []) <==> forall x :: x in a <==> x in b
    ensures AreArraysTheSame([a, b]) ==> ArraysDifference(a, b) == Difference([], [])
  {
    var r := ArraysDifference(a, b);
    if forall x :: x in a <==> x in b {
      assert multiset(r.onlyFirstArray) == multiset{};
      assert multiset(r.onlyLastArray) == multiset{};
    }
    if AreArraysTheSame([a, b]) {
      assert [a, b][0] == a && [a, b][1] == b;
      assert multiset(a) == multiset(b);
      assert forall x :: x in a <==> x in multiset(a);
      assert forall x :: x in b <==> x in multiset(b);
    }
  }
}

=== FILE: directive_facts.dfy ===
/** parseFile as a whole, with its properties stated against small
    reference definitions that track one aspect of the line machine each: the
    reading mode, the literal text, and the block a reference comes from. */
module DirectiveFacts {
  import opened JsText
  import opened JsSplit
  import opened Directives

  /** Whether a directive block is open after `lines`: the mode alone. */
  function ModeAfter(lines: seq<string>): bool {
    if |lines| == 0 then false
    else
      var open := ModeAfter(lines[..|lines| - 1]);
      var line := lines[|lines| - 1];
      if IsBlankOrComment(line) then open
      else if open then !Contains(line, "*/")
      else IsOpeningMarker(line)
  }

  /** A line that becomes literal text: qualifying, read outside a block, and
      not itself an opening marker. */
  predicate IsTextLine(before: seq<string>, line: string) {
    !IsBlankOrComment(line) && !ModeAfter(before) && !IsOpeningMarker(line)
  }

  /** The literal text of the index: every text line followed by a newline. */
  function TextLines(lines: seq<string>): string {
    if |lines| == 0 then ""
    else
      var before := lines[..|lines| - 1];
      var line := lines[|lines| - 1];
      TextLines(before) + (if IsTextLine(before, line) then line + "\n" else "")
  }

  /** The concatenated contents of the text segments of a list. */
  function Texts(segments: seq<Segment>): string {
    if |segments| == 0 then ""
    else
      var last := segments[|segments| - 1];
      Texts(segments[..|segments| - 1]) + (if last.Text? then last.content else "")
  }

  lemma {:induction false} TextsAppend(a: seq<Segment>, b: seq<Segment>)
    ensures Texts(a + b) == Texts(a) + Texts(b)
    decreases |b|
  {
    if |b| == 0 {
      assert a + b == a;
    } else {
      assert (a + b)[..|a + b| - 1] == a + b[..|b| - 1];
      TextsAppend(a, b[..|b| - 1]);
    }
  }

  lemma {:induction false} TextsOfRefs(names: seq<string>, kind: FragmentType, offset: nat)
    ensures Texts(Individualize(names, kind, offset)) == ""
    decreases |names|
  {
    if |names| > 0 {
      var refs := Individualize(names, kind, offset);
      assert refs[..|refs| - 1] == Individualize(names[..|names| - 1], kind, offset);
      TextsOfRefs(names[..|names| - 1], kind, offset);
    }
  }

  predicate AllRefs(segments: seq<Segment>, kind: FragmentType) {
    forall i :: 0 <= i < |segments| ==> segments[i].Ref? && segments[i].kind == kind
  }

  /** The shape parseFile promises its callers: only global references at the
      top, only local ones before and after, and in the index content local
      references and non-empty text. */
  predicate WellFormed(pc: ProcessedContent) {
    && AllRefs(pc.topOfFile, Global)
    && AllRefs(pc.beforeIndex, Local)
    && AllRefs(pc.afterIndex, Local)
    && forall i :: 0 <= i < |pc.indexContent| ==>
         match pc.indexContent[i]
         case Text(content) => content != ""
         case Ref(kind, _, _) => kind == Local
  }

  /** Line `j` opened a directive block. */
  predicate OpenedAt(lines: seq<string>, j: int) {
    0 <= j < |lines| && !ModeAfter(lines[..j]) && !IsBlankOrComment(lines[j]) && IsOpeningMarker(lines[j])
  }

  /** Line `j` opened the block that is still open after `lines`. */
  predicate OpenSince(lines: seq<string>, j: int) {
    OpenedAt(lines, j) && forall k :: j < k <= |lines| ==> ModeAfter(lines[..k])
  }

  /** `offset` is the column of the comment opener on some block-opening line. */
  predicate IsBlockColumn(lines: seq<string>, offset: nat) {
    exists j :: 0 <= j < |lines| && OpenedAt(lines, j) && IndexOf(lines[j], "/*") == offset
  }

  function AllSegments(pc: ProcessedContent): seq<Segment> {
    pc.topOfFile + pc.beforeIndex + pc.indexContent + pc.afterIndex
  }

  predicate RefsAtBlockColumns(pc: ProcessedContent, lines: seq<string>) {
    forall i :: 0 <= i < |AllSegments(pc)| && AllSegments(pc)[i].Ref? ==>
      IsBlockColumn(lines, AllSegments(pc)[i].leftOffset)
  }

  lemma OpenedAtExtends(lines: seq<string>, j: int)
    requires |lines| > 0 && OpenedAt(lines[..|lines| - 1], j)
    ensures OpenedAt(lines, j)
  {
    assert lines[..|lines| - 1][..j] == lines[..j];
  }

  lemma BlockColumnExtends(lines: seq<string>, offset: nat)
    requires |lines| > 0 && IsBlockColumn(lines[..|lines| - 1], offset)
    ensures IsBlockColumn(lines, offset)
  {
    var j :| OpenedAt(lines[..|lines| - 1], j) && IndexOf(lines[..|lines| - 1][j], "/*") == offset;
    OpenedAtExtends(lines, j);
  }

  /** Appending references of offset `offset` keeps every reference at a block column. */
  lemma RefsAtBlockColumnsExtend(pc: ProcessedContent, pc': ProcessedContent, lines: seq<string>, offset: nat)
    requires |lines| > 0 && RefsAtBlockColumns(pc, lines[..|lines| - 1])
    requires IsBlockColumn(lines, offset)
    requires forall s :: s in AllSegments(pc') && s.Ref? ==> s in AllSegments(pc) || s.leftOffset == offset
    ensures RefsAtBlockColumns(pc', lines)
  {
    forall i | 0 <= i < |AllSegments(pc')| && AllSegments(pc')[i].Ref?
      ensures IsBlockColumn(lines, AllSegments(pc')[i].leftOffset)
    {
      var s := AllSegments(pc')[i];
      if s in AllSegments(pc) {
        var k :| 0 <= k < |AllSegments(pc)| && AllSegments(pc)[k] == s;
        BlockColumnExtends(lines, s.leftOffset);
      }
    }
  }

  lemma OpenSinceExtends(lines: seq<string>, j: int)
    requires |lines| > 0 && OpenSince(lines[..|lines| - 1], j) && ModeAfter(lines)
    ensures OpenSince(lines, j)
  {
    var before := lines[..|lines| - 1];
    OpenedAtExtends(lines, j);
    forall k | j < k <= |lines|
      ensures ModeAfter(lines[..k])
    {
      if k < |lines| {
        assert ModeAfter(before[..k]);
        PrefixOfInit(lines, k);
      } else {
        assert lines[..k] == lines;
      }
    }
  }

  lemma PrefixOfInit(lines: seq<string>, k: nat)
    requires k < |lines|
    ensures lines[..|lines| - 1][..k] == lines[..k]
  {
  }

  /** The machine's mode is the mode of the reference machine. */
  lemma {:induction false} RunMode(lines: seq<string>)
    ensures Run(lines).readingRules == ModeAfter(lines)
    decreases |lines|
  {
    if |lines| > 0 {
      RunMode(lines[..|lines| - 1]);
    }
  }

  /** While a block is open, the machine's offset is the column of the comment
      opener on the line that opened that block, and every line since has kept
      it open. */
  lemma {:induction false} OpenBlockColumn(lines: seq<string>)
    ensures Run(lines).readingRules ==>
      exists j :: 0 <= j < |lines| && OpenSince(lines, j) && IndexOf(lines[j], "/*") == Run(lines).leftOffset
    decreases |lines|
  {
    if |lines| == 0 {
      return;
    }
    var before := lines[..|lines| - 1];
    var line := lines[|lines| - 1];
    var st := Run(before);
    var st' := Run(lines);
    RunMode(before);
    RunMode(lines);
    OpenBlockColumn(before);
    if !st'.readingRules {
      return;
    }
    if st.readingRules {
      var j :| 0 <= j < |before| && OpenSince(before, j) && IndexOf(before[j], "/*") == st.leftOffset;
      StillOpen(lines, j);
    } else {
      var j := |lines| - 1;
      assert lines[..j] == before;
      assert OpenSince(lines, j) by {
        assert lines[..|lines|] == lines;
      }
    }
  }

  /** A block open before the last line and still open after it keeps its opener. */
  lemma StillOpen(lines: seq<string>, j: nat)
    requires 0 <= j < |lines| - 1
    requires var before := lines[..|lines| - 1];
      && OpenSince(before, j) && IndexOf(before[j], "/*") == Run(before).leftOffset
      && Run(before).readingRules && Run(lines).readingRules
    ensures OpenSince(lines, j) && IndexOf(lines[j], "/*") == Run(lines).leftOffset
  {
    RunMode(lines);
    OpenSinceExtends(lines, j);
    assert lines[j] == lines[..|lines| - 1][j];
  }

  /** The lists keep their shape under a parsed instruction. */
  lemma EmitShape(st: ParserState, ins: Instruction)
    requires ins.valid && ins.ruleType == LocalRule ==> ins.position in {Here, Before, After}
    requires WellFormed(st.content)
    ensures WellFormed(Emit(st, ins).content)
  {
    var st' := Emit(st, ins);
    var c := st.content;
    if ins.valid && ins.ruleType != OtherRule {
      var kind := if ins.ruleType == GlobalRule then Global else Local;
      var refs := Individualize(ins.arguments, kind, st.leftOffset);
      if ins.ruleType == LocalRule && ins.position == Here {
        var flushed := Flush(c.indexContent, st.linesStack);
        assert st'.content.indexContent == flushed + refs;
        assert forall i :: 0 <= i < |flushed| ==> flushed[i] == Text(st.linesStack) || flushed[i] == c.indexContent[i];
      }
    }
  }

  /** The text, pending or emitted, is unchanged by a parsed instruction. */
  lemma EmitText(st: ParserState, ins: Instruction)
    ensures var st' := Emit(st, ins);
      Texts(st'.content.indexContent) + st'.linesStack == Texts(st.content.indexContent) + st.linesStack
  {
    var c := st.content;
    if ins.valid && ins.ruleType == LocalRule && ins.position == Here {
      var refs := Individualize(ins.arguments, Local, st.leftOffset);
      var flushed := Flush(c.indexContent, st.linesStack);
      TextsAppend(flushed, refs);
      TextsOfRefs(ins.arguments, Local, st.leftOffset);
      if st.linesStack != "" {
        TextsAppend(c.indexContent, [Text(st.linesStack)]);
        assert Texts([Text(st.linesStack)]) == st.linesStack;
      }
    }
  }

  /** Every reference a parsed instruction adds is stamped with the state's offset. */
  lemma EmitOffsets(st: ParserState, ins: Instruction)
    ensures var st' := Emit(st, ins);
      forall s :: s in AllSegments(st'.content) && s.Ref? ==>
        s in AllSegments(st.content) || s.leftOffset == st.leftOffset
  {
    var st' := Emit(st, ins);
    var c := st.content;
    if ins.valid && ins.ruleType != OtherRule {
      var kind := if ins.ruleType == GlobalRule then Global else Local;
      var refs := Individualize(ins.arguments, kind, st.leftOffset);
      assert forall s :: s in AllSegments(st'.content) ==>
        s in AllSegments(c) || s in refs || s == Text(st.linesStack);
    }
  }

  /** The three facts above together. */
  lemma EmitFacts(st: ParserState, ins: Instruction)
    requires ins.valid && ins.ruleType == LocalRule ==> ins.position in {Here, Before, After}
    requires WellFormed(st.content)
    ensures var st' := Emit(st, ins);
      && WellFormed(st'.content)
      && Texts(st'.content.indexContent) + st'.linesStack == Texts(st.content.indexContent) + st.linesStack
      && forall s :: s in AllSegments(st'.content) && s.Ref? ==>
           s in AllSegments(st.content) || s.leftOffset == st.leftOffset
  {
    EmitShape(st, ins);
    EmitText(st, ins);
    EmitOffsets(st, ins);
  }

  /** The shape of the machine's segment lists after any prefix. */
  lemma {:induction false} RunShape(lines: seq<string>)
    ensures WellFormed(Run(lines).content)
    decreases |lines|
  {
    if |lines| > 0 {
      var before := lines[..|lines| - 1];
      var line := lines[|lines| - 1];
      RunShape(before);
      var st := Run(before);
      if !IsBlankOrComment(line) && st.readingRules && !Contains(line, "*/") && MatchInstruction(line).Some? {
        var m := MatchInstruction(line).value;
        EmitShape(st, ParseInstruction(m.rule, m.arguments));
      }
    }
  }

  /** One step adds the line and a newline to the text exactly when the line
      is text: not blank or a comment, outside a block, and not a marker. */
  lemma StepText(st: ParserState, line: string)
    ensures var st' := Step(st, line);
      var textLine := !IsBlankOrComment(line) && !st.readingRules && !IsOpeningMarker(line);
      Texts(st'.content.indexContent) + st'.linesStack ==
        Texts(st.content.indexContent) + st.linesStack + (if textLine then line + "\n" else "")
  {
    var st' := Step(st, line);
    if !IsBlankOrComment(line) && st.readingRules && !Contains(line, "*/") && MatchInstruction(line).Some? {
      var m := MatchInstruction(line).value;
      EmitText(st, ParseInstruction(m.rule, m.arguments));
    } else if !IsBlankOrComment(line) && !st.readingRules && !IsOpeningMarker(line) {
      assert st' == st.(linesStack := st.linesStack + line + "\n");
    } else {
      assert st'.content == st.content && st'.linesStack == st.linesStack;
    }
  }

  /** The text of the machine, emitted and pending, after any prefix. */
  lemma {:induction false} RunText(lines: seq<string>)
    ensures Texts(Run(lines).content.indexContent) + Run(lines).linesStack == TextLines(lines)
    decreases |lines|
  {
    if |lines| == 0 {
      return;
    }
    var before := lines[..|lines| - 1];
    var line := lines[|lines| - 1];
    RunText(before);
    RunMode(before);
    StepText(Run(before), line);
    assert Run(lines) == Step(Run(before), line);
  }

  /** Every reference the machine has emitted carries a block column. */
  lemma {:induction false} RunColumns(lines: seq<string>)
    ensures RefsAtBlockColumns(Run(lines).content, lines)
    decreases |lines|
  {
    if |lines| == 0 {
      return;
    }
    var before := lines[..|lines| - 1];
    var line := lines[|lines| - 1];
    RunColumns(before);
    RunShape(before);
    var st := Run(before);
    var st' := Run(lines);
    if !IsBlankOrComment(line) && st.readingRules && !Contains(line, "*/") && MatchInstruction(line).Some? {
      var m := MatchInstruction(line).value;
      EmitOffsets(st, ParseInstruction(m.rule, m.arguments));
      OpenBlockColumn(before);
      var j :| 0 <= j < |before| && OpenSince(before, j) && IndexOf(before[j], "/*") == st.leftOffset;
      OpenedAtExtends(lines, j);
      assert lines[j] == before[j];
      RefsAtBlockColumnsExtend(st.content, st'.content, lines, st.leftOffset);
    } else {
      assert st'.content == st.content;
      forall i | 0 <= i < |AllSegments(st'.content)| && AllSegments(st'.content)[i].Ref?
        ensures IsBlockColumn(lines, AllSegments(st'.content)[i].leftOffset)
      {
        BlockColumnExtends(lines, AllSegments(st'.content)[i].leftOffset);
      }
    }
  }

  lemma FinishText(st: ParserState)
    requires WellFormed(st.content)
    ensures var pc := st.content.(indexContent := Flush(st.content.indexContent, st.linesStack));
      WellFormed(pc) && Texts(pc.indexContent) == Texts(st.content.indexContent) + st.linesStack
  {
    if st.linesStack != "" {
      TextsAppend(st.content.indexContent, [Text(st.linesStack)]);
      assert Texts([Text(st.linesStack)]) == st.linesStack;
    }
  }

  lemma FinishColumns(st: ParserState, lines: seq<string>)
    requires RefsAtBlockColumns(st.content, lines)
    ensures RefsAtBlockColumns(st.content.(indexContent := Flush(st.content.indexContent, st.linesStack)), lines)
  {
    var pc := st.content.(indexContent := Flush(st.content.indexContent, st.linesStack));
    assert forall s :: s in AllSegments(pc) ==> s in AllSegments(st.content) || s == Text(st.linesStack);
    forall i | 0 <= i < |AllSegments(pc)| && AllSegments(pc)[i].Ref?
      ensures IsBlockColumn(lines, AllSegments(pc)[i].leftOffset)
    {
      var s := AllSegments(pc)[i];
      assert s in AllSegments(pc);
      assert s in AllSegments(st.content);
      var k :| 0 <= k < |AllSegments(st.content)| && AllSegments(st.content)[k] == s;
    }
  }

  /** The four lists a reference can land in. */
  datatype Place = TopOfFile | BeforeIndex | IndexContent | AfterIndex

  /** Where a parsed instruction sends its files: a valid `useGlobal` to the
      top of the file, a valid `useLocal` by its placement, anything else
      nowhere. */
  function Target(ins: Instruction): Option<Place> {
    if !ins.valid then None
    else if ins.ruleType == GlobalRule then Some(TopOfFile)
    else if ins.ruleType == OtherRule then None
    else if ins.position == Here then Some(IndexContent)
    else if ins.position == Before then Some(BeforeIndex)
    else if ins.position == After then Some(AfterIndex)
    else None
  }

  /** Global references go to the top, every other list holds local ones. */
  function KindAt(p: Place): FragmentType {
    if p == TopOfFile then Global else Local
  }

  /** The references among `segments`, in order. */
  function RefsOf(segments: seq<Segment>): seq<Segment> {
    if |segments| == 0 then []
    else
      var last := segments[|segments| - 1];
      RefsOf(segments[..|segments| - 1]) + (if last.Ref? then [last] else [])
  }

  /** The references list `p` holds: the whole list for the three reference
      lists, the references among the text for the index content. */
  function RefsIn(pc: ProcessedContent, p: Place): seq<Segment> {
    match p
    case TopOfFile => pc.topOfFile
    case BeforeIndex => pc.beforeIndex
    case IndexContent => RefsOf(pc.indexContent)
    case AfterIndex => pc.afterIndex
  }

  /** The instruction on `line`, when it is read inside a block after `before`. */
  function InstructionAt(before: seq<string>, line: string): Option<Instruction> {
    if !IsBlankOrComment(line) && ModeAfter(before) && !Contains(line, "*/") then
      match MatchInstruction(line)
      case None => None
      case Some(m) => Some(ParseInstruction(m.rule, m.arguments))
    else None
  }

  /** The column of the comment opener on the last line that opened a block. */
  function OpenColumn(lines: seq<string>): nat {
    if |lines| == 0 then 0
    else
      var before := lines[..|lines| - 1];
      var line := lines[|lines| - 1];
      if OpenedAt(lines, |lines| - 1) then
        MarkerColumn(line);
        IndexOf(line, "/*")
      else OpenColumn(before)
  }

  /** The references `line`, read after `before`, sends to list `p`: one per
      file of its instruction, at the column of the block it sits in. */
  function RefsFromLine(before: seq<string>, line: string, p: Place): seq<Segment> {
    match InstructionAt(before, line)
    case None => []
    case Some(ins) =>
      if Target(ins) == Some(p) then Individualize(ins.arguments, KindAt(p), OpenColumn(before)) else []
  }

  /** Every reference the index sends to list `p`, line by line, in order. */
  function RefsTo(lines: seq<string>, p: Place): seq<Segment> {
    if |lines| == 0 then []
    else
      var before := lines[..|lines| - 1];
      RefsTo(before, p) + RefsFromLine(before, lines[|lines| - 1], p)
  }

  lemma {:induction false} RefsOfAppend(a: seq<Segment>, b: seq<Segment>)
    ensures RefsOf(a + b) == RefsOf(a) + RefsOf(b)
    decreases |b|
  {
    if |b| == 0 {
      assert a + b == a;
    } else {
      assert (a + b)[..|a + b| - 1] == a + b[..|b| - 1];
      RefsOfAppend(a, b[..|b| - 1]);
    }
  }

  lemma {:induction false} RefsOfRefs(names: seq<string>, kind: FragmentType, offset: nat)
    ensures RefsOf(Individualize(names, kind, offset)) == Individualize(names, kind, offset)
    decreases |names|
  {
    if |names| > 0 {
      var refs := Individualize(names, kind, offset);
      assert refs[..|refs| - 1] == Individualize(names[..|names| - 1], kind, offset);
      RefsOfRefs(names[..|names| - 1], kind, offset);
    }
  }

  /** Flushing the pending text adds no reference. */
  lemma FlushRefs(segments: seq<Segment>, stack: string)
    ensures RefsOf(Flush(segments, stack)) == RefsOf(segments)
  {
    if stack != "" {
      assert Flush(segments, stack)[..|segments|] == segments;
    }
  }

  /** A parsed instruction appends its references to the list it targets,
      at the current offset, and to no other list. */
  lemma EmitRefs(st: ParserState, ins: Instruction, p: Place)
    ensures RefsIn(Emit(st, ins).content, p) ==
      RefsIn(st.content, p)
      + (if Target(ins) == Some(p) then Individualize(ins.arguments, KindAt(p), st.leftOffset) else [])
  {
    if ins.valid && ins.ruleType == LocalRule && ins.position == Here && p == IndexContent {
      var refs := Individualize(ins.arguments, Local, st.leftOffset);
      var flushed := Flush(st.content.indexContent, st.linesStack);
      RefsOfAppend(flushed, refs);
      FlushRefs(st.content.indexContent, st.linesStack);
      RefsOfRefs(ins.arguments, Local, st.leftOffset);
    }
  }

  /** The offset of the machine is the opener column of the last block. */
  lemma {:induction false} RunOffset(lines: seq<string>)
    ensures Run(lines).leftOffset == OpenColumn(lines)
    decreases |lines|
  {
    if |lines| > 0 {
      var before := lines[..|lines| - 1];
      RunOffset(before);
      RunMode(before);
      assert lines[..|lines| - 1] == before;
    }
  }

  /** One line adds to each list exactly the references the reference
      definition assigns to it. */
  lemma StepRefs(st: ParserState, before: seq<string>, line: string, p: Place)
    requires st.readingRules == ModeAfter(before) && st.leftOffset == OpenColumn(before)
    ensures RefsIn(Step(st, line).content, p) == RefsIn(st.content, p) + RefsFromLine(before, line, p)
  {
    if !IsBlankOrComment(line) && st.readingRules && !Contains(line, "*/") && MatchInstruction(line).Some? {
      var m := MatchInstruction(line).value;
      EmitRefs(st, ParseInstruction(m.rule, m.arguments), p);
    } else {
      assert Step(st, line).content == st.content;
    }
  }

  /** After any prefix, each list holds exactly the references the lines
      send to it, in order. */
  lemma {:induction false} RunRefs(lines: seq<string>, p: Place)
    ensures RefsIn(Run(lines).content, p) == RefsTo(lines, p)
    decreases |lines|
  {
    if |lines| > 0 {
      var before := lines[..|lines| - 1];
      RunRefs(before, p);
      RunMode(before);
      RunOffset(before);
      StepRefs(Run(before), before, lines[|lines| - 1], p);
    }
  }

  /** The end of parseFile: the pending text becomes the last segment. */
  function Finish(st: ParserState): ProcessedContent {
    st.content.(indexContent := Flush(st.content.indexContent, st.linesStack))
  }

  /** The final flush keeps every list's references. */
  lemma FinishRefs(lines: seq<string>, p: Place)
    ensures RefsIn(Finish(Run(lines)), p) == RefsTo(lines, p)
  {
    var st := Run(lines);
    RunRefs(lines, p);
    FlushRefs(st.content.indexContent, st.linesStack);
  }

  /** Line `line`, read after `before`, is a valid `@here` instruction: the
      pending text is closed there, whether or not it names any file. */
  predicate IsCut(before: seq<string>, line: string) {
    match InstructionAt(before, line)
    case None => false
    case Some(ins) => Target(ins) == Some(IndexContent)
  }

  /** The position of the last valid `@here` instruction, or -1 when there is none. */
  function LastCut(lines: seq<string>): (k: int)
    ensures -1 <= k < |lines|
  {
    if |lines| == 0 then -1
    else
      var before := lines[..|lines| - 1];
      if IsCut(before, lines[|lines| - 1]) then |lines| - 1 else LastCut(before)
  }

  /** The text lines among `lines[i..]`, each followed by a newline, judged
      in the context of every line before them. */
  function TextFrom(lines: seq<string>, i: nat): string
    requires i <= |lines|
    decreases |lines|
  {
    if |lines| == i then ""
    else
      var before := lines[..|lines| - 1];
      var line := lines[|lines| - 1];
      TextFrom(before, i) + (if IsTextLine(before, line) then line + "\n" else "")
  }

  /** One text segment for non-empty text, none for empty text. */
  function TextOf(s: string): seq<Segment> {
    if s == "" then [] else [Text(s)]
  }

  /** The index content the lines call for: the text lines between two valid
      `@here` instructions (or before the first, or after the last) make up
      one text segment, absent when there are none; each `@here` instruction
      contributes its references in its place. */
  function IndexRef(lines: seq<string>): seq<Segment>
    decreases |lines|, 1
  {
    ClosedIndex(lines) + TextOf(TextFrom(lines, LastCut(lines) + 1))
  }

  /** The part of `IndexRef` up to and including the last `@here` instruction. */
  function ClosedIndex(lines: seq<string>): seq<Segment>
    decreases |lines|, 0
  {
    var k := LastCut(lines);
    if k < 0 then [] else IndexRef(lines[..k]) + RefsFromLine(lines[..k], lines[k], IndexContent)
  }

  /** A valid `@here` instruction closes the pending text and appends its
      references. */
  lemma StepCut(st: ParserState, before: seq<string>, line: string)
    requires st.readingRules == ModeAfter(before) && st.leftOffset == OpenColumn(before)
    requires IsCut(before, line)
    ensures Step(st, line).content.indexContent ==
      Flush(st.content.indexContent, st.linesStack) + RefsFromLine(before, line, IndexContent)
    ensures Step(st, line).linesStack == ""
  {
    var m := MatchInstruction(line).value;
    assert InstructionAt(before, line) == Some(ParseInstruction(m.rule, m.arguments));
  }

  /** Any other line leaves the index content alone and adds a text line to
      the pending text. */
  lemma StepPlain(st: ParserState, before: seq<string>, line: string)
    requires st.readingRules == ModeAfter(before)
    requires !IsCut(before, line)
    ensures Step(st, line).content.indexContent == st.content.indexContent
    ensures Step(st, line).linesStack == st.linesStack + (if IsTextLine(before, line) then line + "\n" else "")
  {
    if !IsBlankOrComment(line) && st.readingRules {
      PlainInBlock(st, before, line);
    }
  }

  /** Inside a block, a line other than a valid `@here` instruction touches
      neither the index content nor the pending text. */
  lemma PlainInBlock(st: ParserState, before: seq<string>, line: string)
    requires st.readingRules && ModeAfter(before) && !IsBlankOrComment(line)
    requires !IsCut(before, line)
    ensures Step(st, line).content.indexContent == st.content.indexContent
    ensures Step(st, line).linesStack == st.linesStack
  {
    if !Contains(line, "*/") && MatchInstruction(line).Some? {
      var m := MatchInstruction(line).value;
      var ins := ParseInstruction(m.rule, m.arguments);
      assert InstructionAt(before, line) == Some(ins);
      EmitKeepsIndex(st, ins);
    }
  }

  /** An instruction aimed elsewhere leaves the index content and the
      pending text alone. */
  lemma EmitKeepsIndex(st: ParserState, ins: Instruction)
    requires Target(ins) != Some(IndexContent)
    ensures Emit(st, ins).content.indexContent == st.content.indexContent
    ensures Emit(st, ins).linesStack == st.linesStack
  {
  }

  /** After any prefix, the closed index content and the pending text are
      those the reference definition assigns to it. */
  lemma {:induction false} RunIndex(lines: seq<string>)
    ensures Run(lines).content.indexContent == ClosedIndex(lines)
    ensures Run(lines).linesStack == TextFrom(lines, LastCut(lines) + 1)
    decreases |lines|
  {
    if |lines| > 0 {
      var before := lines[..|lines| - 1];
      var line := lines[|lines| - 1];
      assert lines == before + [line];
      RunIndex(before);
      RunMode(before);
      RunOffset(before);
      if IsCut(before, line) {
        StepCut(Run(before), before, line);
        CutIsLast(before, line);
        CutLine(before, line);
      } else {
        StepPlain(Run(before), before, line);
        PlainLine(before, line);
      }
    }
  }

  /** The reference definition after a valid `@here` instruction. */
  lemma CutLine(before: seq<string>, line: string)
    requires LastCut(before + [line]) == |before|
    ensures var lines := before + [line];
      && ClosedIndex(lines) == Flush(ClosedIndex(before), TextFrom(before, LastCut(before) + 1))
                               + RefsFromLine(before, line, IndexContent)
      && TextFrom(lines, LastCut(lines) + 1) == ""
  {
    CutClosed(before, line);
    IndexRefFlush(before);
  }

  lemma CutClosed(before: seq<string>, line: string)
    requires LastCut(before + [line]) == |before|
    ensures ClosedIndex(before + [line]) == IndexRef(before) + RefsFromLine(before, line, IndexContent)
  {
    var lines := before + [line];
    ClosedAt(lines, |before|);
    assert lines[..|before|] == before && lines[|before|] == line;
  }

  /** The reference index content is the closed part with the pending text flushed. */
  lemma IndexRefFlush(lines: seq<string>)
    ensures IndexRef(lines) == Flush(ClosedIndex(lines), TextFrom(lines, LastCut(lines) + 1))
  {
    FlushTextOf(ClosedIndex(lines), TextFrom(lines, LastCut(lines) + 1));
  }

  lemma CutIsLast(before: seq<string>, line: string)
    requires IsCut(before, line)
    ensures LastCut(before + [line]) == |before|
  {
    var lines := before + [line];
    assert lines[..|lines| - 1] == before && lines[|lines| - 1] == line;
  }

  /** `ClosedIndex` when the last `@here` instruction is line `k`. */
  lemma ClosedAt(lines: seq<string>, k: nat)
    requires k == LastCut(lines)
    ensures ClosedIndex(lines) == IndexRef(lines[..k]) + RefsFromLine(lines[..k], lines[k], IndexContent)
  {
  }

  /** Flushing appends the text segment of the pending text, if any. */
  lemma FlushTextOf(segments: seq<Segment>, stack: string)
    ensures Flush(segments, stack) == segments + TextOf(stack)
  {
    if stack == "" {
      assert segments + [] == segments;
    }
  }

  /** The reference definition after any other line. */
  lemma PlainLine(before: seq<string>, line: string)
    requires !IsCut(before, line)
    ensures var lines := before + [line];
      && LastCut(lines) == LastCut(before)
      && ClosedIndex(lines) == ClosedIndex(before)
      && TextFrom(lines, LastCut(lines) + 1) ==
           TextFrom(before, LastCut(before) + 1) + (if IsTextLine(before, line) then line + "\n" else "")
  {
    var lines := before + [line];
    assert lines[..|lines| - 1] == before && lines[|lines| - 1] == line;
    PlainClosed(before, line, LastCut(before));
  }

  lemma PlainClosed(before: seq<string>, line: string, k: int)
    requires k == LastCut(before) && LastCut(before + [line]) == k
    ensures ClosedIndex(before + [line]) == ClosedIndex(before)
  {
    var lines := before + [line];
    if k >= 0 {
      ClosedAt(lines, k);
      ClosedAt(before, k);
      assert lines[..k] == before[..k] && lines[k] == before[k];
    }
  }

  /** The final flush completes the reference index content. */
  lemma FinishIndex(lines: seq<string>)
    ensures Finish(Run(lines)).indexContent == IndexRef(lines)
  {
    RunIndex(lines);
    IndexRefFlush(lines);
  }

  /** parseFile on an index already split into lines: run the machine, then
      emit the pending text. The text segments of the index content, joined,
      are exactly the qualifying lines read outside every block, each
      followed by a newline, in their original order; no text segment is
      empty; global references sit only at the top and local ones only
      before, in and after the index content; and every reference carries
      the column of the comment opener on a line that opened a directive
      block. Text and references interleave as the lines do: the text lines
      between two valid `@here` instructions make up one text segment, and
      each such instruction's references stand in its place. */
  function ParseLines(lines: seq<string>): (pc: ProcessedContent)
    ensures pc.indexContent == IndexRef(lines)
    ensures Texts(pc.indexContent) == TextLines(lines)
    ensures WellFormed(pc)
    ensures RefsAtBlockColumns(pc, lines)
    ensures pc.topOfFile == RefsTo(lines, TopOfFile)
    ensures pc.beforeIndex == RefsTo(lines, BeforeIndex)
    ensures RefsOf(pc.indexContent) == RefsTo(lines, IndexContent)
    ensures pc.afterIndex == RefsTo(lines, AfterIndex)
  {
    FinishIndex(lines);
    FinishShape(lines);
    FinishLists(lines);
    Finish(Run(lines))
  }

  lemma FinishShape(lines: seq<string>)
    ensures var pc := Finish(Run(lines));
      Texts(pc.indexContent) == TextLines(lines) && WellFormed(pc) && RefsAtBlockColumns(pc, lines)
  {
    var st := Run(lines);
    RunText(lines);
    RunShape(lines);
    RunColumns(lines);
    FinishText(st);
    FinishColumns(st, lines);
  }

  lemma FinishLists(lines: seq<string>)
    ensures var pc := Finish(Run(lines));
      && pc.topOfFile == RefsTo(lines, TopOfFile)
      && pc.beforeIndex == RefsTo(lines, BeforeIndex)
      && RefsOf(pc.indexContent) == RefsTo(lines, IndexContent)
      && pc.afterIndex == RefsTo(lines, AfterIndex)
  {
    FinishRefs(lines, TopOfFile);
    FinishRefs(lines, BeforeIndex);
    FinishRefs(lines, IndexContent);
    FinishRefs(lines, AfterIndex);
  }

  /** parseFile on the raw index text, split on every single `\n` or `\r`. */
  function ParseFile(rawContent: string): (pc: ProcessedContent)
    ensures pc.indexContent == IndexRef(SplitOnChars(rawContent, {'\n', '\r'}))
    ensures var lines := SplitOnChars(rawContent, {'\n', '\r'});
      && Texts(pc.indexContent) == TextLines(lines)
      && WellFormed(pc)
      && RefsAtBlockColumns(pc, lines)
    ensures var lines := SplitOnChars(rawContent, {'\n', '\r'});
      && pc.topOfFile == RefsTo(lines, TopOfFile)
      && pc.beforeIndex == RefsTo(lines, BeforeIndex)
      && RefsOf(pc.indexContent) == RefsTo(lines, IndexContent)
      && pc.afterIndex == RefsTo(lines, AfterIndex)
  {
    ParseLines(SplitOnChars(rawContent, {'\n', '\r'}))
  }
}

=== FILE: directives.dfy ===
/** The directive parser of the current bundler (MODULES/index.js). The index
    is read line by line by a two-state machine: outside a directive block,
    qualifying lines are collected as literal text; a block opens on a
    marker line (comment opener, then `AUAUST`) and closes on the first line holding a comment
    terminator; inside it, `useGlobal`/`useLocal` instructions become fragment
    references routed to one of four ordered segment lists. `ParseFile`,
    which runs the machine over a whole index, is in `DirectiveFacts`. */
module Directives {
  import opened JsText
  import opened JsSplit

  datatype FragmentType = Local | Global

  /** One entry of a segment list: literal index text, or a reference to a
      fragment with the column its directive block was opened at. */
  datatype Segment =
    | Text(content: string)
    | Ref(kind: FragmentType, fileName: string, leftOffset: nat)

  /** The four ordered lists the bundle is assembled from. */
  datatype ProcessedContent = ProcessedContent(
    topOfFile: seq<Segment>,
    beforeIndex: seq<Segment>,
    indexContent: seq<Segment>,
    afterIndex: seq<Segment>)

  /** The `type` of a parsed instruction: "local", "global" or "" for any other rule. */
  datatype RuleType = LocalRule | GlobalRule | OtherRule

  /** The `position` of a parsed instruction: "" unless the rule is `useLocal`. */
  datatype Position = NoPosition | Unset | Illegal | Here | Before | After

  datatype Instruction = Instruction(valid: bool, ruleType: RuleType, position: Position, arguments: seq<string>)

  /** The `rule` and `arguments` groups of an instruction line. */
  datatype InstructionMatch = InstructionMatch(rule: string, arguments: string)

  /** `readingRules`, `leftOffset`, the segment lists and `linesStack`, the
      pending text not yet emitted. */
  datatype ParserState = ParserState(
    readingRules: bool,
    leftOffset: nat,
    content: ProcessedContent,
    linesStack: string)

  const Empty := ProcessedContent([], [], [], [])
  const Initial := ParserState(false, 0, Empty, "")

  /** `/^\s*(\/\/.*)?$/`: a blank line, or one whose first non-blank characters
      are `//` (without the multiline flag, `.*` must then reach the end). */
  predicate IsBlankOrComment(line: string) {
    var n := LeadingSpace(line);
    n == |line| || (StartsWith(line[n..], "//") && NoLineTerminator(line[n + 2..]))
  }

  /** `/^\s*\/\*(\s)*AUAUST(\s)*$/`: the line that opens a directive block. */
  predicate IsOpeningMarker(line: string) {
    var n := LeadingSpace(line);
    StartsWith(line[n..], "/*")
    && var rest := line[n + 2..];
    var m := LeadingSpace(rest);
    StartsWith(rest[m..], "AUAUST") && AllSpace(rest[m + 6..])
  }

  /** On a marker line, the position of the comment opener is the width of its leading whitespace. */
  lemma MarkerColumn(line: string)
    requires IsOpeningMarker(line)
    ensures IndexOf(line, "/*") == LeadingSpace(line)
  {
    var n := LeadingSpace(line);
    ContainsAt(line, "/*", n);
    var k := IndexOf(line, "/*");
    assert line[k] == line[k..][..2][0] == '/';
    assert forall j :: 0 <= j < n ==> IsSpace(line[j]) by {
      forall j | 0 <= j < n ensures IsSpace(line[j]) {
        assert line[j] == line[..n][j];
      }
    }
    assert !IsSpace('/');
  }

  /** Where the rule starts: after the leading whitespace, an optional
      asterisk and the whitespace after it (`^\s*\*?\s*`, all greedy). */
  function RuleStart(line: string): (b: nat)
    ensures b <= |line|
    ensures b < |line| ==> !IsSpace(line[b])
  {
    var a := LeadingSpace(line);
    if a < |line| && line[a] == '*' then
      var b := a + 1 + LeadingSpace(line[a + 1..]);
      assert b < |line| ==> line[b] == line[a + 1..][b - a - 1];
      b
    else a
  }

  /** `/^\s*\*?\s*(?<rule>\w+)\s+(?<arguments>.*)/`. The leading whitespace, the
      optional star and the following whitespace are consumed greedily; the
      rule is the maximal run of word characters after them and must be
      followed by whitespace, all of which is skipped; the arguments run to the
      end of the line or to the first line terminator. No backtracking can
      produce another match: the whitespace runs, the star and the word
      characters are disjoint classes. */
  function MatchInstruction(line: string): (r: Option<InstructionMatch>)
    // a match exactly when a non-empty word run follows the prefix and whitespace follows it
    ensures var b := RuleStart(line); var c := b + LeadingWord(line[b..]);
      r.Some? <==> b < c < |line| && IsSpace(line[c])
    // the rule is that word run, the arguments follow the whitespace after it
    ensures r.Some? ==> MatchedAt(line, RuleStart(line), r.value)
  {
    MatchFrom(line, RuleStart(line))
  }

  /** The match once the prefix is consumed: the rule starts at `b`. */
  function MatchFrom(line: string, b: nat): (r: Option<InstructionMatch>)
    requires b <= |line|
    ensures var c := b + LeadingWord(line[b..]);
      r.Some? <==> b < c < |line| && IsSpace(line[c])
    ensures r.Some? ==> MatchedAt(line, b, r.value)
  {
    var c := b + LeadingWord(line[b..]);
    if c == b || c == |line| || !IsSpace(line[c]) then None
    else
      var d := c + LeadingSpace(line[c..]);
      var e := d + LineLength(line[d..]);
      MatchParts(line, b, c, d, e);
      Some(InstructionMatch(line[b..c], line[d..e]))
  }

  /** `m` is what the expression captures when the rule starts at `b`: the
      rule is the non-empty word run there, and the arguments are everything
      after the whitespace that follows it, up to the end of the line; they
      hold no line terminator and do not start with whitespace. */
  predicate MatchedAt(line: string, b: int, m: InstructionMatch) {
    0 <= b <= |line| &&
    var c := b + LeadingWord(line[b..]);
    && m.rule == line[b..c] && |m.rule| > 0 && AllWord(m.rule)
    && ArgumentsAt(line, c, m.arguments)
    && NoLineTerminator(m.arguments)
    && (|m.arguments| > 0 ==> !IsSpace(m.arguments[0]))
  }

  /** After position `c`, whitespace and then `args`, which is everything
      up to the end of the line or the first line terminator. */
  predicate ArgumentsAt(line: string, c: int, args: string) {
    0 <= c <= |line| &&
    var d := c + LeadingSpace(line[c..]);
    args == line[d..d + LineLength(line[d..])]
  }

  /** The rule and the arguments of a match, as slices of the line. */
  lemma MatchParts(line: string, b: nat, c: nat, d: nat, e: nat)
    requires b <= |line| && c == b + LeadingWord(line[b..]) && b < c < |line| && IsSpace(line[c])
    requires d == c + LeadingSpace(line[c..]) && e == d + LineLength(line[d..])
    ensures MatchedAt(line, b, InstructionMatch(line[b..c], line[d..e]))
  {
    WordSlice(line, b, c);
    ArgumentsSlice(line, c, d, e);
    LineSlice(line, c, d, e);
  }

  lemma ArgumentsSlice(line: string, c: nat, d: nat, e: nat)
    requires c <= |line| && d == c + LeadingSpace(line[c..]) && e == d + LineLength(line[d..])
    ensures ArgumentsAt(line, c, line[d..e])
  {
  }

  lemma WordSlice(line: string, b: nat, c: nat)
    requires b <= |line| && c == b + LeadingWord(line[b..])
    ensures AllWord(line[b..c])
  {
    assert line[b..c] == line[b..][..c - b];
  }

  lemma LineSlice(line: string, c: nat, d: nat, e: nat)
    requires c <= |line| && d == c + LeadingSpace(line[c..]) && e == d + LineLength(line[d..])
    ensures NoLineTerminator(line[d..e])
    ensures |line[d..e]| > 0 ==> !IsSpace(line[d..e][0])
  {
    assert line[d..e] == line[d..][..e - d];
    if d < e {
      assert line[d..e][0] == line[c..][d - c];
    }
  }

  datatype Option<T> = None | Some(value: T)

  predicate IsPositionToken(t: string) {
    StartsWith(t, "@")
  }

  /** `findIndex(argument => argument.startsWith("@"))`. */
  function FirstAt(tokens: seq<string>): (k: int)
    ensures -1 <= k < |tokens|
    ensures k >= 0 ==> IsPositionToken(tokens[k])
    ensures k >= 0 ==> forall j :: 0 <= j < k ==> !IsPositionToken(tokens[j])
    ensures k < 0 ==> forall j :: 0 <= j < |tokens| ==> !IsPositionToken(tokens[j])
  {
    if |tokens| == 0 then -1
    else if IsPositionToken(tokens[0]) then 0
    else
      var k := FirstAt(tokens[1..]);
      assert forall j :: 1 <= j < |tokens| ==> tokens[j] == tokens[1..][j - 1];
      if k < 0 then -1 else k + 1
  }

  /** The result of `xs.splice(start, 1)`: the removed elements and what is left. */
  datatype Spliced = Spliced(removed: seq<string>, rest: seq<string>)

  /** `xs.splice(start, 1)`: a negative start counts from the end, so -1 removes
      the last element. */
  function Splice(xs: seq<string>, start: int): (r: Spliced)
    ensures |r.removed| <= 1
    ensures r.removed == [] <==> |xs| == 0 || start >= |xs|
    ensures 0 <= start < |xs| ==> r.removed == [xs[start]] && r.rest == xs[..start] + xs[start + 1..]
    ensures start == -1 && |xs| > 0 ==> r.removed == [xs[|xs| - 1]] && r.rest == xs[..|xs| - 1]
  {
    var k := if start < 0 then (if |xs| + start < 0 then 0 else |xs| + start)
             else (if start > |xs| then |xs| else start);
    if k < |xs| then Spliced([xs[k]], xs[..k] + xs[k + 1..]) else Spliced([], xs)
  }

  function PositionOf(token: string): Position {
    if token == "@here" then Here
    else if token == "@before" then Before
    else if token == "@after" then After
    else Illegal
  }

  /** parseInstruction as written. When no argument starts with `@`,
      `findIndex` returns -1 and `splice(-1, 1)` removes the LAST argument, so
      the removed element is never missing: the "unset" branch cannot be taken
      and a missing placement is reported as "illegal". */
  function ParseInstructionAsWritten(rule: string, arguments: string): (r: Instruction)
    // without an `@`-argument, the last argument is taken as the placement and is illegal
    ensures var tokens := SplitSpace(arguments);
      rule == "useLocal" && FirstAt(tokens) < 0 ==>
        r == Instruction(false, LocalRule, Illegal, tokens[..|tokens| - 1])
    // in every other case it is the intended parser
    ensures var tokens := SplitSpace(arguments);
      rule != "useLocal" || FirstAt(tokens) >= 0 ==> r == ParseInstruction(rule, arguments)
  {
    LastIsNoPlacement(SplitSpace(arguments));
    var tokens := SplitSpace(arguments);
    if rule == "useLocal" then
      var spliced := Splice(tokens, FirstAt(tokens));
      if spliced.removed == [] then Instruction(false, LocalRule, Unset, spliced.rest)
      else
        var position := PositionOf(spliced.removed[0]);
        Instruction(position != Illegal, LocalRule, position, spliced.rest)
    else if rule == "useGlobal" then Instruction(true, GlobalRule, NoPosition, tokens)
    else Instruction(true, OtherRule, NoPosition, tokens)
  }

  /** When no argument starts with `@`, the last one names no placement. */
  lemma LastIsNoPlacement(tokens: seq<string>)
    requires |tokens| > 0
    ensures FirstAt(tokens) < 0 ==> PositionOf(tokens[|tokens| - 1]) == Illegal
  {
    if FirstAt(tokens) < 0 {
      assert IsPositionToken("@") by { assert "@"[..1] == "@"; }
      assert !IsPositionToken(tokens[|tokens| - 1]);
    }
  }

  /** parseInstruction as its comments intend: a `useLocal` without any
      `@`-argument is reported as "unset" and loses no argument. */
  function ParseInstruction(rule: string, arguments: string): (r: Instruction)
    ensures var tokens := SplitSpace(arguments);
      && (rule == "useLocal" ==>
            && r.ruleType == LocalRule
            && (r.position == Unset <==> FirstAt(tokens) < 0)
            && (r.valid <==> FirstAt(tokens) >= 0
                             && tokens[FirstAt(tokens)] in {"@here", "@before", "@after"})
            && (r.valid ==>
                  && r.position == (if tokens[FirstAt(tokens)] == "@here" then Here
                                    else if tokens[FirstAt(tokens)] == "@before" then Before
                                    else After)
                  && r.arguments == tokens[..FirstAt(tokens)] + tokens[FirstAt(tokens) + 1..]))
      && (rule == "useGlobal" ==> r == Instruction(true, GlobalRule, NoPosition, tokens))
      && (rule != "useLocal" && rule != "useGlobal" ==> r.valid && r.ruleType == OtherRule)
  {
    var tokens := SplitSpace(arguments);
    if rule == "useLocal" then
      var k := FirstAt(tokens);
      if k < 0 then Instruction(false, LocalRule, Unset, tokens)
      else
        var spliced := Splice(tokens, k);
        var position := PositionOf(spliced.removed[0]);
        Instruction(position != Illegal, LocalRule, position, spliced.rest)
    else if rule == "useGlobal" then Instruction(true, GlobalRule, NoPosition, tokens)
    else Instruction(true, OtherRule, NoPosition, tokens)
  }

  /** The dead branch: as written, no instruction is ever "unset". */
  lemma AsWrittenNeverUnset(rule: string, arguments: string)
    ensures ParseInstructionAsWritten(rule, arguments).position != Unset
  {
  }

  /** "useLocal a": the intended parser reports the missing placement as
      "unset" and keeps "a"; the parser as written reports "illegal" and has
      dropped "a". */
  lemma MissingPlacementExample()
    ensures ParseInstructionAsWritten("useLocal", "a") == Instruction(false, LocalRule, Illegal, [])
    ensures ParseInstruction("useLocal", "a") == Instruction(false, LocalRule, Unset, ["a"])
  {
    var a := "a";
    assert !IsSpace(a[0]);
    assert a[1..] == "";
    assert SplitSpace(a[1..]) == [""];
    assert SplitSpace(a) == [[a[0]] + ""] + [""][1..];
    assert [a[0]] + "" == a;
  }

  /** The two versions agree on everything the line machine looks at: whether
      the instruction is valid, and, when it is, its type, position and files. */
  lemma AsWrittenAgrees(rule: string, arguments: string)
    ensures var w := ParseInstructionAsWritten(rule, arguments);
      var c := ParseInstruction(rule, arguments);
      w.valid == c.valid && (c.valid ==> w == c)
  {
  }

  /** One reference per file name, in order, all of one type and offset. */
  function Individualize(names: seq<string>, kind: FragmentType, leftOffset: nat): (r: seq<Segment>)
    ensures |r| == |names|
    ensures forall i :: 0 <= i < |r| ==> r[i] == Ref(kind, names[i], leftOffset)
  {
    seq(|names|, i requires 0 <= i < |names| => Ref(kind, names[i], leftOffset))
  }

  /** Emits the pending text, if any, as one text segment. */
  function Flush(segments: seq<Segment>, stack: string): seq<Segment> {
    if stack != "" then segments + [Text(stack)] else segments
  }

  /** What a parsed instruction adds to the state, at the current offset. */
  function Emit(st: ParserState, ins: Instruction): (r: ParserState)
    ensures r.readingRules == st.readingRules && r.leftOffset == st.leftOffset
    ensures !ins.valid || ins.ruleType == OtherRule ==> r == st
    ensures ins.valid && ins.ruleType == GlobalRule ==>
      r == st.(content := st.content.(topOfFile :=
                 st.content.topOfFile + Individualize(ins.arguments, Global, st.leftOffset)))
    ensures ins.valid && ins.ruleType == LocalRule && ins.position == Before ==>
      r == st.(content := st.content.(beforeIndex :=
                 st.content.beforeIndex + Individualize(ins.arguments, Local, st.leftOffset)))
    ensures ins.valid && ins.ruleType == LocalRule && ins.position == After ==>
      r == st.(content := st.content.(afterIndex :=
                 st.content.afterIndex + Individualize(ins.arguments, Local, st.leftOffset)))
    ensures ins.valid && ins.ruleType == LocalRule && ins.position == Here ==>
      r == st.(content := st.content.(indexContent :=
                 Flush(st.content.indexContent, st.linesStack)
                 + Individualize(ins.arguments, Local, st.leftOffset)),
               linesStack := "")
  {
    if !ins.valid then st
    else
      var c := st.content;
      match ins.ruleType
      case LocalRule =>
        var refs := Individualize(ins.arguments, Local, st.leftOffset);
        (match ins.position
         case Before => st.(content := c.(beforeIndex := c.beforeIndex + refs))
         case After => st.(content := c.(afterIndex := c.afterIndex + refs))
         case Here => st.(content := c.(indexContent := Flush(c.indexContent, st.linesStack) + refs),
                          linesStack := "")
         case _ => st)
      case GlobalRule =>
        st.(content := c.(topOfFile := c.topOfFile + Individualize(ins.arguments, Global, st.leftOffset)))
      case OtherRule => st
  }

  /** The body of the `forEach` over the lines in parseFile. Instructions go
      through the corrected `ParseInstruction`; by `AsWrittenAgrees` the
      parser as written gives the same validity and, on every valid
      instruction, the same result, and `Emit` ignores invalid ones, so the
      state is the same with either. */
  function Step(st: ParserState, line: string): (r: ParserState)
    ensures IsBlankOrComment(line) ==> r == st
    ensures !IsBlankOrComment(line) && st.readingRules && Contains(line, "*/") ==>
      r == st.(readingRules := false)
    ensures !st.readingRules ==> r.content == st.content
    ensures !st.readingRules && r.readingRules ==>
      IsOpeningMarker(line) && r.leftOffset == IndexOf(line, "/*") == LeadingSpace(line)
    ensures st.readingRules ==> r.leftOffset == st.leftOffset
    ensures st.readingRules ==> r.linesStack == st.linesStack || r.linesStack == ""
    // inside a block, any other line is an instruction or nothing
    ensures !IsBlankOrComment(line) && st.readingRules && !Contains(line, "*/") ==>
      r == (match MatchInstruction(line)
            case None => st
            case Some(m) => Emit(st, ParseInstruction(m.rule, m.arguments)))
    // outside a block, any other line is pending text
    ensures !IsBlankOrComment(line) && !st.readingRules && !IsOpeningMarker(line) ==>
      r == st.(linesStack := st.linesStack + line + "\n")
  {
    if IsBlankOrComment(line) then st
    else if st.readingRules then
      if Contains(line, "*/") then st.(readingRules := false)
      else
        match MatchInstruction(line)
        case None => st
        case Some(m) => Emit(st, ParseInstruction(m.rule, m.arguments))
    else if IsOpeningMarker(line) then
      MarkerColumn(line);
      st.(readingRules := true, leftOffset := IndexOf(line, "/*"))
    else st.(linesStack := st.linesStack + line + "\n")
  }

  /** The state after the machine has read `lines`, in order. */
  function Run(lines: seq<string>): ParserState {
    if |lines| == 0 then Initial else Step(Run(lines[..|lines| - 1]), lines[|lines| - 1])
  }
}

=== FILE: old_bundle.dfy ===
/** The state, watch reconciliation and assembler of the superseded bundler
    (bundler_old.js:158-300). Each group (`@before` locals, `@after` locals,
    globals) keeps the names the index requires, the names the last bundle
    imported, the names a watcher was added for and the raw contents read.
    The two local groups share one directory. File watchers are kept as a
    list of listeners, each remembering the group it reports to; the
    operating system knows them only by path. */
module OldBundle {
  import opened JsText
  import opened JsSplit
  import opened OldArrays
  import opened OldIndex
  import OldClean
  import Transform

  type FileSystem = map<string, string>

  datatype GroupState = GroupState(
    required: seq<string>,
    imported: seq<string>,
    watchers: seq<string>,
    contents: map<string, string>)

  /** A callback registered with `fs.watchFile` by addFileWatcher. */
  datatype Listener = Listener(group: Group, fileName: string)

  /** `LOCALS.path` and `GLOBALS.path`. */
  datatype Dirs = Dirs(locals: string, globals: string)

  datatype OldStore = OldStore(
    dirs: Dirs,
    before: GroupState,
    after: GroupState,
    globals: GroupState,
    listeners: seq<Listener>,
    index: string)

  /** How a watcher is cancelled: `fs.unwatchFile(path)` with no listener
      argument drops every listener on the path; the corrected form drops
      only the listener of the group being reconciled. */
  datatype Removal = ByPath | ByListener

  datatype OldBundled = OldBundled(text: string, store: OldStore)

  function GroupOf(st: OldStore, g: Group): GroupState {
    match g
    case Before => st.before
    case After => st.after
    case Globals => st.globals
  }

  function WithGroup(st: OldStore, g: Group, gs: GroupState): (r: OldStore)
    ensures GroupOf(r, g) == gs
    ensures forall h :: h != g ==> GroupOf(r, h) == GroupOf(st, h)
    ensures r.dirs == st.dirs && r.listeners == st.listeners && r.index == st.index
  {
    match g
    case Before => st.(before := gs)
    case After => st.(after := gs)
    case Globals => st.(globals := gs)
  }

  function DirOf(dirs: Dirs, g: Group): string {
    if g == Globals then dirs.globals else dirs.locals
  }

  function PathOf(dirs: Dirs, g: Group, name: string): string {
    DirOf(dirs, g) + name + ".js"
  }

  function Placeholder(name: string): string {
    "/* File " + name + " is empty or doesn't exist. */\n"
  }

  /** What getAndCacheContent stores for `name` of group `g`: the raw file,
      or the placeholder when it cannot be read. */
  function Fetched(dirs: Dirs, fs: FileSystem, g: Group, name: string): string {
    var path := PathOf(dirs, g, name);
    if path in fs then fs[path] else Placeholder(name)
  }

  /** The names of `required` missing from `imported`. */
  function Fresh(required: seq<string>, imported: seq<string>): set<string> {
    set n | n in required && n !in imported
  }

  /** `c1` is the contents map `c0` of group `g` with every name of `names`
      read again from `fs`, and every other entry as it was. */
  predicate ReadAgain(c0: map<string, string>, c1: map<string, string>, dirs: Dirs, fs: FileSystem,
                      g: Group, names: set<string>) {
    && (forall n :: n in names ==> n in c1 && c1[n] == Fetched(dirs, fs, g, n))
    && (forall n :: n in c0 && n !in names ==> n in c1 && c1[n] == c0[n])
    && (forall n :: n in c1 ==> n in c0 || n in names)
  }

  /** Reading `a`, then `b`, reads `a` and `b`. */
  lemma ReadAgainThen(c0: map<string, string>, c1: map<string, string>, c2: map<string, string>,
                      dirs: Dirs, fs: FileSystem, g: Group, a: set<string>, b: set<string>)
    requires ReadAgain(c0, c1, dirs, fs, g, a) && ReadAgain(c1, c2, dirs, fs, g, b)
    ensures ReadAgain(c0, c2, dirs, fs, g, a + b)
  {
  }

  /** getAndCacheContent: the raw file, or the placeholder when it cannot be read. */
  function Read(st: OldStore, fs: FileSystem, g: Group, name: string): (r: OldStore)
    ensures var c := GroupOf(r, g).contents; var path := PathOf(st.dirs, g, name);
      name in c && c[name] == (if path in fs then fs[path] else Placeholder(name))
    ensures ReadAgain(GroupOf(st, g).contents, GroupOf(r, g).contents, st.dirs, fs, g, {name})
    ensures GroupOf(r, g) == GroupOf(st, g).(contents := GroupOf(r, g).contents)
    ensures forall h :: h != g ==> GroupOf(r, h) == GroupOf(st, h)
    ensures r.dirs == st.dirs && r.listeners == st.listeners && r.index == st.index
  {
    var gs := GroupOf(st, g);
    var path := PathOf(st.dirs, g, name);
    WithGroup(st, g, gs.(contents := gs.contents[name := if path in fs then fs[path] else Placeholder(name)]))
  }

  /** addFileWatcher, then getAndCacheContent, for one name. */
  function AddOne(st: OldStore, fs: FileSystem, g: Group, name: string): (r: OldStore)
    ensures r.listeners == st.listeners + [Listener(g, name)]
    ensures forall h :: GroupOf(r, h).required == GroupOf(st, h).required
    ensures forall h :: GroupOf(r, h).imported == GroupOf(st, h).imported
    ensures forall h :: h != g ==> GroupOf(r, h) == GroupOf(st, h)
    ensures GroupOf(r, g).watchers == GroupOf(st, g).watchers + [name]
    ensures ReadAgain(GroupOf(st, g).contents, GroupOf(r, g).contents, st.dirs, fs, g, {name})
    ensures r.dirs == st.dirs && r.index == st.index
  {
    var gs := GroupOf(st, g);
    var watched := WithGroup(st, g, gs.(watchers := gs.watchers + [name]))
                     .(listeners := st.listeners + [Listener(g, name)]);
    Read(watched, fs, g, name)
  }

  /** addFileWatcher, then getAndCacheContent, for each name in turn. */
  function AddEach(st: OldStore, fs: FileSystem, g: Group, names: seq<string>): (r: OldStore)
    ensures forall l :: l in r.listeners <==> l in st.listeners || (l.group == g && l.fileName in names)
    ensures forall l ::
      multiset(r.listeners)[l] ==
      multiset(st.listeners)[l] + (if l.group == g then multiset(names)[l.fileName] else 0)
    ensures forall h :: GroupOf(r, h).required == GroupOf(st, h).required
    ensures forall h :: GroupOf(r, h).imported == GroupOf(st, h).imported
    ensures forall h :: h != g ==> GroupOf(r, h) == GroupOf(st, h)
    ensures GroupOf(r, g).watchers == GroupOf(st, g).watchers + names
    // each name of `names` is read; every other entry is as it was
    ensures ReadAgain(GroupOf(st, g).contents, GroupOf(r, g).contents, st.dirs, fs, g, set n | n in names)
    ensures r.dirs == st.dirs && r.index == st.index
    decreases |names|
  {
    if |names| == 0 then st
    else
      var once := AddOne(st, fs, g, names[0]);
      assert GroupOf(st, g).watchers + names == GroupOf(once, g).watchers + names[1..];
      var rest := AddEach(once, fs, g, names[1..]);
      AddStep(st.listeners, once.listeners, rest.listeners, g, names);
      assert ReadAgain(GroupOf(st, g).contents, GroupOf(rest, g).contents, st.dirs, fs, g, set n | n in names) by {
        ReadEach(GroupOf(st, g).contents, GroupOf(once, g).contents, GroupOf(rest, g).contents, st.dirs, fs, g, names);
      }
      rest
  }

  /** Reading the first name, then the others, reads every name. */
  lemma ReadEach(c0: map<string, string>, c1: map<string, string>, c2: map<string, string>,
                 dirs: Dirs, fs: FileSystem, g: Group, names: seq<string>)
    requires |names| > 0
    requires ReadAgain(c0, c1, dirs, fs, g, {names[0]})
    requires ReadAgain(c1, c2, dirs, fs, g, set n | n in names[1..])
    ensures ReadAgain(c0, c2, dirs, fs, g, set n | n in names)
  {
    ReadAgainThen(c0, c1, c2, dirs, fs, g, {names[0]}, set n | n in names[1..]);
    assert names == [names[0]] + names[1..];
    assert (set n | n in names) == {names[0]} + set n | n in names[1..];
  }

  /** One listener more for the first name, and the others still to come. */
  lemma AddStep(ls: seq<Listener>, once: seq<Listener>, r: seq<Listener>, g: Group, names: seq<string>)
    requires |names| > 0 && once == ls + [Listener(g, names[0])]
    requires forall l :: l in r <==> l in once || (l.group == g && l.fileName in names[1..])
    requires forall l ::
      multiset(r)[l] == multiset(once)[l] + (if l.group == g then multiset(names[1..])[l.fileName] else 0)
    ensures forall l :: l in r <==> l in ls || (l.group == g && l.fileName in names)
    ensures forall l ::
      multiset(r)[l] == multiset(ls)[l] + (if l.group == g then multiset(names)[l.fileName] else 0)
  {
    assert names == [names[0]] + names[1..];
    assert multiset(names) == multiset{names[0]} + multiset(names[1..]);
  }

  /** Whether cancelling the watcher of `name` in group `g` drops listener `l`. */
  predicate Drops(dirs: Dirs, l: Listener, g: Group, name: string, how: Removal) {
    match how
    case ByPath => PathOf(dirs, l.group, l.fileName) == PathOf(dirs, g, name)
    case ByListener => l == Listener(g, name)
  }

  function Keep(dirs: Dirs, ls: seq<Listener>, g: Group, name: string, how: Removal): (r: seq<Listener>)
    ensures forall l :: l in r <==> l in ls && !Drops(dirs, l, g, name, how)
    ensures forall l :: multiset(r)[l] == if Drops(dirs, l, g, name, how) then 0 else multiset(ls)[l]
  {
    if |ls| == 0 then []
    else
      assert ls == [ls[0]] + ls[1..];
      assert multiset(ls) == multiset{ls[0]} + multiset(ls[1..]);
      (if Drops(dirs, ls[0], g, name, how) then [] else [ls[0]]) + Keep(dirs, ls[1..], g, name, how)
  }

  /** removeFileWatcher for each name in turn. */
  function RemoveEach(st: OldStore, g: Group, names: seq<string>, how: Removal): (r: OldStore)
    ensures forall l :: l in r.listeners <==>
      l in st.listeners && forall n :: n in names ==> !Drops(st.dirs, l, g, n, how)
    ensures forall l ::
      multiset(r.listeners)[l] ==
      if forall n :: n in names ==> !Drops(st.dirs, l, g, n, how) then multiset(st.listeners)[l] else 0
    ensures r == st.(listeners := r.listeners)
    decreases |names|
  {
    if |names| == 0 then st
    else RemoveEach(st.(listeners := Keep(st.dirs, st.listeners, g, names[0], how)), g, names[1..], how)
  }

  /** One iteration of the reconciliation `forEach`: nothing happens when
      `required` and `imported` are the same up to order; otherwise the
      names only required get a watcher and a read, and the names only
      imported lose their watcher. */
  function Reconcile(st: OldStore, fs: FileSystem, g: Group, how: Removal): OldStore {
    var gs := GroupOf(st, g);
    if AreArraysTheSame([gs.required, gs.imported]) then st
    else
      var d := ArraysDifference(gs.required, gs.imported);
      RemoveEach(AddEach(st, fs, g, d.onlyFirstArray), g, d.onlyLastArray, how)
  }

  function WithRequired(st: OldStore, req: Required): (r: OldStore)
    ensures forall h :: GroupOf(r, h).required == ListOf(req, h)
    ensures forall h :: GroupOf(r, h).imported == GroupOf(st, h).imported
    ensures forall h :: GroupOf(r, h).contents == GroupOf(st, h).contents
    ensures r.listeners == st.listeners && r.dirs == st.dirs
  {
    st.(before := st.before.(required := req.before),
        after := st.after.(required := req.after),
        globals := st.globals.(required := req.globals))
  }

  /** initIndex on the index text `raw`: rebuild the required lists, then
      reconcile the groups in the order `@before`, `@after`, globals. */
  function InitIndexWith(st: OldStore, fs: FileSystem, raw: string, how: Removal): (r: OldStore)
    ensures forall h :: GroupOf(r, h).required == ListOf(ParseIndex(raw), h) && NoDup(GroupOf(r, h).required)
    ensures forall h :: GroupOf(r, h).imported == GroupOf(st, h).imported
    ensures r.index == raw && r.dirs == st.dirs
    // the names newly required are read; every other entry is as it was
    ensures forall h :: ReadAgain(GroupOf(st, h).contents, GroupOf(r, h).contents, st.dirs, fs, h,
                                  Fresh(ListOf(ParseIndex(raw), h), GroupOf(st, h).imported))
  {
    var req := ParseIndex(raw);
    RequiredFrame(st, fs, req, raw, how);
    RequiredContents(st, fs, req, raw, how);
    ReconcileAll(WithRequired(st, req).(index := raw), fs, how)
  }

  lemma RequiredFrame(st: OldStore, fs: FileSystem, req: Required, raw: string, how: Removal)
    ensures var r := ReconcileAll(WithRequired(st, req).(index := raw), fs, how);
      && (forall h :: GroupOf(r, h).required == ListOf(req, h))
      && (forall h :: GroupOf(r, h).imported == GroupOf(st, h).imported)
      && r.index == raw && r.dirs == st.dirs
  {
    var st1 := WithRequired(st, req).(index := raw);
    assert forall h :: GroupOf(st1, h).required == ListOf(req, h) && GroupOf(st1, h).imported == GroupOf(st, h).imported;
    ReconcileAllFrame(st1, fs, how);
  }

  /** The contents reconciliation leaves after the required lists are rebuilt. */
  lemma RequiredContents(st: OldStore, fs: FileSystem, req: Required, raw: string, how: Removal)
    ensures var r := ReconcileAll(WithRequired(st, req).(index := raw), fs, how);
      forall h :: ReadAgain(GroupOf(st, h).contents, GroupOf(r, h).contents, st.dirs, fs, h,
                            Fresh(ListOf(req, h), GroupOf(st, h).imported))
  {
    var st1 := WithRequired(st, req).(index := raw);
    assert forall h :: && GroupOf(st1, h).required == ListOf(req, h)
                       && GroupOf(st1, h).imported == GroupOf(st, h).imported
                       && GroupOf(st1, h).contents == GroupOf(st, h).contents;
    ReconcileAllContents(st1, fs, how);
  }

  /** The reconciliation `forEach` over the groups `@before`, `@after`, globals. */
  function ReconcileAll(st: OldStore, fs: FileSystem, how: Removal): OldStore {
    Reconcile(Reconcile(Reconcile(st, fs, Before, how), fs, After, how), fs, Globals, how)
  }

  /** initIndex as written: watchers are cancelled by path. Every required
      list becomes the index's, without repeats; the imported lists wait for
      the next rebuild. */
  function InitIndexAsWritten(st: OldStore, fs: FileSystem, raw: string): (r: OldStore)
    ensures forall h :: GroupOf(r, h).required == ListOf(ParseIndex(raw), h) && NoDup(GroupOf(r, h).required)
    ensures forall h :: GroupOf(r, h).imported == GroupOf(st, h).imported
    ensures r.index == raw
    // the names newly required are read; every other entry is as it was
    ensures forall h :: ReadAgain(GroupOf(st, h).contents, GroupOf(r, h).contents, st.dirs, fs, h,
                                  Fresh(ListOf(ParseIndex(raw), h), GroupOf(st, h).imported))
  {
    InitIndexWith(st, fs, raw, ByPath)
  }

  /** initIndex with each cancellation limited to its own group's listener:
      besides the required lists, when every group watched exactly what it
      imported, every group now watches exactly what it requires. */
  function InitIndex(st: OldStore, fs: FileSystem, raw: string): (r: OldStore)
    ensures forall h :: GroupOf(r, h).required == ListOf(ParseIndex(raw), h) && NoDup(GroupOf(r, h).required)
    ensures forall h :: GroupOf(r, h).imported == GroupOf(st, h).imported
    ensures r.index == raw
    ensures WatchInv(st) ==> forall h :: Matches(r, h, GroupOf(r, h).required)
    // the names newly required are read; every other entry is as it was
    ensures forall h :: ReadAgain(GroupOf(st, h).contents, GroupOf(r, h).contents, st.dirs, fs, h,
                                  Fresh(ListOf(ParseIndex(raw), h), GroupOf(st, h).imported))
  {
    WatchesFollowIndex(st, fs, ParseIndex(raw), raw);
    InitIndexWith(st, fs, raw, ByListener)
  }

  /** What a required name contributes to the bundle: its contents, or the
      placeholder when there are none or they are empty. */
  function ContentOr(gs: GroupState, name: string): (r: string)
    ensures r != ""
  {
    if name in gs.contents && gs.contents[name] != "" then gs.contents[name] else Placeholder(name)
  }

  function Pieces(gs: GroupState): (r: seq<string>)
    ensures |r| == |gs.required|
    ensures forall i :: 0 <= i < |r| ==> r[i] == ContentOr(gs, gs.required[i])
  {
    seq(|gs.required|, i requires 0 <= i < |gs.required| => ContentOr(gs, gs.required[i]))
  }

  /** The bundle before clean-up: globals, `@before` locals, the index text
      unchanged, `@after` locals. */
  function RawBundle(st: OldStore): string {
    Concat(Pieces(st.globals)) + Concat(Pieces(st.before)) + st.index + Concat(Pieces(st.after))
  }

  /** updateBundle: assemble, record every required list as imported, clean up. */
  function UpdateBundle(st: OldStore): (r: OldBundled)
    ensures forall h :: GroupOf(r.store, h).imported == GroupOf(r.store, h).required == GroupOf(st, h).required
    ensures r.store.listeners == st.listeners && r.store.index == st.index && r.store.dirs == st.dirs
    ensures forall h :: GroupOf(r.store, h).contents == GroupOf(st, h).contents
    // recording the imports does not change what would be assembled
    ensures RawBundle(r.store) == RawBundle(st)
    // the written bundle never holds two newlines in a row, nor a comment line
    ensures OldClean.NoDoubleNewline(r.text) && OldClean.NoCommentLine(r.text)
    // without `//` anywhere, only whitespace is lost
    ensures !Contains(RawBundle(st), "//") ==> DropSpace(r.text) == DropSpace(RawBundle(st))
    // up to whitespace, the written bundle is the raw bundle less the comment
    // part of its comment-only lines
    ensures DropSpace(r.text) == DropSpace(Transform.StripComments(RawBundle(st), true))
  {
    var raw := RawBundle(st);
    ImportedPieces(st.globals);
    ImportedPieces(st.before);
    ImportedPieces(st.after);
    OldBundled(OldClean.Clean(raw), Imported(st))
  }

  /** What a group contributes does not depend on its imported list. */
  lemma ImportedPieces(gs: GroupState)
    ensures Pieces(gs.(imported := gs.required)) == Pieces(gs)
  {
  }

  /** Every group's imported list becomes its required list. */
  function Imported(st: OldStore): (r: OldStore)
    ensures forall h :: GroupOf(r, h) == GroupOf(st, h).(imported := GroupOf(st, h).required)
    ensures r.dirs == st.dirs && r.listeners == st.listeners && r.index == st.index
  {
    st.(before := st.before.(imported := st.before.required),
        after := st.after.(imported := st.after.required),
        globals := st.globals.(imported := st.globals.required))
  }

  /** One group's loop of updateBundle, in the source's shape: each required
      name appends its contents (or the placeholder) and is pushed onto the
      emptied imported list. */
  method AppendGroup(acc: string, gs: GroupState) returns (out: string, imported: seq<string>)
    ensures out == acc + Concat(Pieces(gs))
    ensures imported == gs.required
  {
    var pieces := Pieces(gs);
    var added := "";
    imported := [];
    var i := 0;
    while i < |gs.required|
      invariant 0 <= i <= |gs.required|
      invariant added == Concat(pieces[..i])
      invariant imported == gs.required[..i]
    {
      ConcatSnoc(pieces, i);
      PrefixSnoc(gs.required, i);
      added := added + ContentOr(gs, gs.required[i]);
      imported := imported + [gs.required[i]];
      i := i + 1;
    }
    out := acc + added;
    assert pieces[..i] == pieces;
    assert gs.required[..i] == gs.required;
  }

  lemma PrefixSnoc(xs: seq<string>, i: nat)
    requires i < |xs|
    ensures xs[..i + 1] == xs[..i] + [xs[i]]
  {
  }

  lemma ConcatSnoc(ps: seq<string>, i: nat)
    requires i < |ps|
    ensures Concat(ps[..i + 1]) == Concat(ps[..i]) + ps[i]
  {
    assert ps[..i + 1] == ps[..i] + [ps[i]];
    ConcatAppend(ps[..i], [ps[i]]);
    assert Concat([ps[i]]) == ps[i] + Concat([]);
  }

  /** The assembly of updateBundle as the source performs it, statement by
      statement: globals, `@before` locals, the index text, `@after` locals,
      each group's imported list rebuilt on the way. It builds exactly the
      bundle and the state the declarative definitions describe. */
  method AssembleOld(st: OldStore) returns (raw: string, r: OldStore)
    ensures raw == RawBundle(st)
    ensures r == Imported(st)
  {
    var g, b, a: string;
    var gi, bi, ai: seq<string>;
    g, gi := AppendGroup("", st.globals);
    b, bi := AppendGroup(g, st.before);
    a, ai := AppendGroup(b + st.index, st.after);
    assert "" + Concat(Pieces(st.globals)) == Concat(Pieces(st.globals));
    raw := a;
    r := st.(globals := st.globals.(imported := gi), before := st.before.(imported := bi),
             after := st.after.(imported := ai));
  }

  /** The index watcher's callback as written: initIndex (cancelling by
      path), then updateBundle. The imported lists become the index's. */
  function ReloadAsWritten(st: OldStore, fs: FileSystem, raw: string): (r: OldBundled)
    ensures forall h :: GroupOf(r.store, h).imported == ListOf(ParseIndex(raw), h)
    ensures r.store.index == raw
    // the text written is the clean-up of the bundle the final state assembles
    ensures r.text == OldClean.Clean(RawBundle(r.store))
    ensures forall h :: ReadAgain(GroupOf(st, h).contents, GroupOf(r.store, h).contents, st.dirs, fs, h,
                                  Fresh(ListOf(ParseIndex(raw), h), GroupOf(st, h).imported))
  {
    UpdateBundle(InitIndexAsWritten(st, fs, raw))
  }

  /** The index watcher's callback with cancellations limited to their own
      group: the imported lists become the index's, and when every group
      watched each file it imported exactly once and nothing else, it still
      does afterwards. */
  function ReloadCorrected(st: OldStore, fs: FileSystem, raw: string): (r: OldBundled)
    ensures forall h :: GroupOf(r.store, h).imported == ListOf(ParseIndex(raw), h)
    ensures r.store.index == raw
    ensures WatchInv(st) ==> WatchInv(r.store)
    // the text written is the clean-up of the bundle the final state assembles
    ensures r.text == OldClean.Clean(RawBundle(r.store))
    ensures forall h :: ReadAgain(GroupOf(st, h).contents, GroupOf(r.store, h).contents, st.dirs, fs, h,
                                  Fresh(ListOf(ParseIndex(raw), h), GroupOf(st, h).imported))
  {
    var st4 := InitIndex(st, fs, raw);
    BundleSyncs(st4);
    UpdateBundle(st4)
  }

  /** The fragment watcher's callback: read the file again, then rebuild.
      The entry holds the file's current contents, or the placeholder when
      it cannot be read; no listener is registered or cancelled; and once a
      rebuild has made every imported list its required list, the watch
      invariant survives. */
  function OldFileWatcher(st: OldStore, fs: FileSystem, g: Group, name: string): (r: OldBundled)
    ensures var path := PathOf(st.dirs, g, name);
      && name in GroupOf(r.store, g).contents
      && GroupOf(r.store, g).contents[name] == (if path in fs then fs[path] else Placeholder(name))
    ensures r.store.listeners == st.listeners
    ensures WatchInv(st) && (forall h :: GroupOf(st, h).imported == GroupOf(st, h).required) ==>
      WatchInv(r.store)
    // no other entry of any group changes
    ensures forall h :: ReadAgain(GroupOf(st, h).contents, GroupOf(r.store, h).contents, st.dirs, fs, h,
                                  if h == g then {name} else {})
    ensures r.text == OldClean.Clean(RawBundle(r.store))
  {
    var read := Read(st, fs, g, name);
    assert forall h :: GroupOf(read, h).required == GroupOf(st, h).required && GroupOf(read, h).imported == GroupOf(st, h).imported;
    ReadOnly(st, fs, g, name);
    UpdateBundle(read)
  }

  /** A read touches one entry of one group. */
  lemma ReadOnly(st: OldStore, fs: FileSystem, g: Group, name: string)
    ensures var r := Read(st, fs, g, name);
      forall h :: ReadAgain(GroupOf(st, h).contents, GroupOf(r, h).contents, st.dirs, fs, h,
                            if h == g then {name} else {})
  {
  }

  /** Group `g` has exactly one listener for each file of `names` and none
      for any other file. */
  ghost predicate Matches(st: OldStore, g: Group, names: seq<string>) {
    forall n :: multiset(st.listeners)[Listener(g, n)] == if n in names then 1 else 0
  }

  /** Every group has exactly one listener per imported file, and no
      other listener exists. */
  ghost predicate WatchInv(st: OldStore) {
    forall h :: Matches(st, h, GroupOf(st, h).imported)
  }

  lemma MatchesListed(st: OldStore, g: Group, names: seq<string>)
    requires Matches(st, g, names)
    ensures forall n :: Listener(g, n) in st.listeners <==> n in names
  {
    forall n ensures Listener(g, n) in st.listeners <==> n in names {
      assert Listener(g, n) in st.listeners <==> Listener(g, n) in multiset(st.listeners);
    }
  }

  /** A list without repeats holds each of its elements once. */
  lemma {:induction false} NoDupCount<T>(xs: seq<T>, x: T)
    requires NoDup(xs)
    ensures multiset(xs)[x] == if x in xs then 1 else 0
  {
    if |xs| > 0 {
      assert xs == [xs[0]] + xs[1..];
      assert multiset(xs) == multiset{xs[0]} + multiset(xs[1..]);
      assert NoDup(xs[1..]) by {
        forall i, j | 0 <= i < j < |xs[1..]| ensures xs[1..][i] != xs[1..][j] {
          assert xs[1..][i] == xs[i + 1] && xs[1..][j] == xs[j + 1];
        }
      }
      NoDupCount(xs[1..], x);
      if x == xs[0] {
        assert x !in xs[1..] by {
          forall j | 0 <= j < |xs[1..]| ensures xs[1..][j] != x {
            assert xs[1..][j] == xs[j + 1];
          }
        }
      }
    }
  }

  /** Adding and cancelling watchers touches nothing but the listeners. */
  lemma AddRemoveFrame(st: OldStore, fs: FileSystem, g: Group, add: seq<string>, drop: seq<string>, how: Removal)
    ensures var r := RemoveEach(AddEach(st, fs, g, add), g, drop, how);
      && r.dirs == st.dirs && r.index == st.index
      && (forall h :: GroupOf(r, h).required == GroupOf(st, h).required)
      && (forall h :: GroupOf(r, h).imported == GroupOf(st, h).imported)
  {
    var st1 := AddEach(st, fs, g, add);
    ListenersOnly(st1, RemoveEach(st1, g, drop, how));
  }

  lemma ListenersOnly(st: OldStore, r: OldStore)
    requires r == st.(listeners := r.listeners)
    ensures forall h :: GroupOf(r, h) == GroupOf(st, h)
    ensures r.dirs == st.dirs && r.index == st.index
  {
  }

  /** Reconciling touches nothing but the listeners. */
  lemma ReconcileFrame(st: OldStore, fs: FileSystem, g: Group, how: Removal)
    ensures var r := Reconcile(st, fs, g, how);
      && r.dirs == st.dirs && r.index == st.index
      && (forall h :: GroupOf(r, h).required == GroupOf(st, h).required)
      && (forall h :: GroupOf(r, h).imported == GroupOf(st, h).imported)
  {
    var gs := GroupOf(st, g);
    var d := ArraysDifference(gs.required, gs.imported);
    AddRemoveFrame(st, fs, g, d.onlyFirstArray, d.onlyLastArray, how);
  }

  /** Reconciling group `g` reads exactly the names it requires but has not
      imported, and leaves every other group's contents alone. */
  lemma ReconcileContents(st: OldStore, fs: FileSystem, g: Group, how: Removal)
    ensures var r := Reconcile(st, fs, g, how);
      && ReadAgain(GroupOf(st, g).contents, GroupOf(r, g).contents, st.dirs, fs, g,
                   Fresh(GroupOf(st, g).required, GroupOf(st, g).imported))
      && forall h :: h != g ==> GroupOf(r, h).contents == GroupOf(st, h).contents
  {
    var gs := GroupOf(st, g);
    if AreArraysTheSame([gs.required, gs.imported]) {
      SameIsNotFresh(gs.required, gs.imported);
    } else {
      var d := ArraysDifference(gs.required, gs.imported);
      assert (set n | n in d.onlyFirstArray) == Fresh(gs.required, gs.imported);
      AddRemoveContents(st, fs, g, d.onlyFirstArray, d.onlyLastArray, how);
    }
  }

  /** Adding watchers reads the names added; removing them reads nothing. */
  lemma AddRemoveContents(st: OldStore, fs: FileSystem, g: Group, added: seq<string>, gone: seq<string>, how: Removal)
    ensures var r := RemoveEach(AddEach(st, fs, g, added), g, gone, how);
      && ReadAgain(GroupOf(st, g).contents, GroupOf(r, g).contents, st.dirs, fs, g, set n | n in added)
      && forall h :: h != g ==> GroupOf(r, h).contents == GroupOf(st, h).contents
  {
    var a := AddEach(st, fs, g, added);
    ListenersOnly(a, RemoveEach(a, g, gone, how));
  }

  /** Lists the same up to order have no fresh name. */
  lemma SameIsNotFresh(required: seq<string>, imported: seq<string>)
    requires AreArraysTheSame([required, imported])
    ensures Fresh(required, imported) == {}
  {
    DifferenceEmpty(required, imported);
  }

  /** Reconciling every group reads, in each, the names it requires but has
      not imported, and no other. */
  lemma ReconcileAllContents(st: OldStore, fs: FileSystem, how: Removal)
    ensures var r := ReconcileAll(st, fs, how);
      forall h :: ReadAgain(GroupOf(st, h).contents, GroupOf(r, h).contents, st.dirs, fs, h,
                            Fresh(GroupOf(st, h).required, GroupOf(st, h).imported))
  {
    var st2 := Reconcile(st, fs, Before, how);
    var st3 := Reconcile(st2, fs, After, how);
    ReconcileFrame(st, fs, Before, how);
    ReconcileContents(st, fs, Before, how);
    ReconcileFrame(st2, fs, After, how);
    ReconcileContents(st2, fs, After, how);
    ReconcileFrame(st3, fs, Globals, how);
    ReconcileContents(st3, fs, Globals, how);
  }

  /** When `required` and `imported` hold the same names the same number of
      times, reconciling changes nothing. */
  lemma ReconcileUnchanged(st: OldStore, fs: FileSystem, g: Group, how: Removal)
    requires multiset(GroupOf(st, g).required) == multiset(GroupOf(st, g).imported)
    ensures Reconcile(st, fs, g, how) == st
  {
    var gs := GroupOf(st, g);
    assert [gs.required, gs.imported][0] == gs.required && [gs.required, gs.imported][1] == gs.imported;
    assert AreArraysTheSame([gs.required, gs.imported]);
  }

  /** Otherwise the listeners are the old ones and one per name only
      required, less every one a cancellation of a name only imported drops. */
  lemma ReconcileChanged(st: OldStore, fs: FileSystem, g: Group, how: Removal, l: Listener)
    requires multiset(GroupOf(st, g).required) != multiset(GroupOf(st, g).imported)
    ensures var gs := GroupOf(st, g); var d := ArraysDifference(gs.required, gs.imported);
      l in Reconcile(st, fs, g, how).listeners <==>
        && (l in st.listeners || (l.group == g && l.fileName in d.onlyFirstArray))
        && forall n :: n in d.onlyLastArray ==> !Drops(st.dirs, l, g, n, how)
  {
    var gs := GroupOf(st, g);
    assert [gs.required, gs.imported][0] == gs.required && [gs.required, gs.imported][1] == gs.imported;
    assert !AreArraysTheSame([gs.required, gs.imported]);
    var d := ArraysDifference(gs.required, gs.imported);
    var st1 := AddEach(st, fs, g, d.onlyFirstArray);
    assert st1.dirs == st.dirs;
    assert Reconcile(st, fs, g, how) == RemoveEach(st1, g, d.onlyLastArray, how);
  }

  /** The same, counting: each listener is kept as often as it was, plus
      once per occurrence of its name among those only required, unless a
      cancellation drops it. */
  lemma ReconcileCounts(st: OldStore, fs: FileSystem, g: Group, how: Removal, l: Listener)
    requires multiset(GroupOf(st, g).required) != multiset(GroupOf(st, g).imported)
    ensures var gs := GroupOf(st, g); var d := ArraysDifference(gs.required, gs.imported);
      multiset(Reconcile(st, fs, g, how).listeners)[l] ==
        if forall n :: n in d.onlyLastArray ==> !Drops(st.dirs, l, g, n, how)
        then multiset(st.listeners)[l] + (if l.group == g then multiset(d.onlyFirstArray)[l.fileName] else 0)
        else 0
  {
    var gs := GroupOf(st, g);
    assert [gs.required, gs.imported][0] == gs.required && [gs.required, gs.imported][1] == gs.imported;
    assert !AreArraysTheSame([gs.required, gs.imported]);
    var d := ArraysDifference(gs.required, gs.imported);
    var st1 := AddEach(st, fs, g, d.onlyFirstArray);
    assert st1.dirs == st.dirs;
    assert Reconcile(st, fs, g, how) == RemoveEach(st1, g, d.onlyLastArray, how);
  }

  /** One reconciliation step, both cases. */
  lemma ReconcileListeners(st: OldStore, fs: FileSystem, g: Group, how: Removal, l: Listener)
    ensures var gs := GroupOf(st, g);
      multiset(gs.required) == multiset(gs.imported) ==> Reconcile(st, fs, g, how) == st
    ensures var gs := GroupOf(st, g); var d := ArraysDifference(gs.required, gs.imported);
      multiset(gs.required) != multiset(gs.imported) ==>
        (l in Reconcile(st, fs, g, how).listeners <==>
          && (l in st.listeners || (l.group == g && l.fileName in d.onlyFirstArray))
          && forall n :: n in d.onlyLastArray ==> !Drops(st.dirs, l, g, n, how))
  {
    var gs := GroupOf(st, g);
    if multiset(gs.required) == multiset(gs.imported) {
      ReconcileUnchanged(st, fs, g, how);
    } else {
      ReconcileChanged(st, fs, g, how, l);
    }
  }

  /** A reconciliation that changes something registers one watcher per
      name only required, in order, and cancels none in the watcher list. */
  lemma ReconcileWatchers(st: OldStore, fs: FileSystem, g: Group, how: Removal)
    requires multiset(GroupOf(st, g).required) != multiset(GroupOf(st, g).imported)
    ensures var gs := GroupOf(st, g);
      GroupOf(Reconcile(st, fs, g, how), g).watchers == gs.watchers + ArraysDifference(gs.required, gs.imported).onlyFirstArray
  {
    var gs := GroupOf(st, g);
    assert [gs.required, gs.imported][0] == gs.required && [gs.required, gs.imported][1] == gs.imported;
    var d := ArraysDifference(gs.required, gs.imported);
    var st1 := AddEach(st, fs, g, d.onlyFirstArray);
    var r := RemoveEach(st1, g, d.onlyLastArray, how);
    assert r.before == st1.before && r.after == st1.after && r.globals == st1.globals;
  }

  /** Lists that are the same up to order hold the same names. */
  lemma SameNames(a: seq<string>, b: seq<string>, n: string)
    requires multiset(a) == multiset(b)
    ensures n in a <==> n in b
  {
    assert n in a <==> n in multiset(a);
    assert n in b <==> n in multiset(b);
  }

  /** One listener, with cancellations limited to the group being reconciled. */
  lemma ExactFor(st: OldStore, fs: FileSystem, g: Group, l: Listener)
    requires Matches(st, g, GroupOf(st, g).imported) && NoDup(GroupOf(st, g).required)
    ensures l.group == g ==>
      multiset(Reconcile(st, fs, g, ByListener).listeners)[l] == if l.fileName in GroupOf(st, g).required then 1 else 0
    ensures l.group != g ==> multiset(Reconcile(st, fs, g, ByListener).listeners)[l] == multiset(st.listeners)[l]
  {
    var gs := GroupOf(st, g);
    assert l.group == g ==> l == Listener(g, l.fileName);
    if multiset(gs.required) == multiset(gs.imported) {
      ReconcileUnchanged(st, fs, g, ByListener);
      SameNames(gs.required, gs.imported, l.fileName);
    } else {
      ReconcileCounts(st, fs, g, ByListener, l);
      NoDupCount(gs.required, l.fileName);
      var d := ArraysDifference(gs.required, gs.imported);
      assert (forall m :: m in d.onlyLastArray ==> !Drops(st.dirs, l, g, m, ByListener)) <==>
        (l.group != g || l.fileName !in d.onlyLastArray);
    }
  }

  /** Reconciling a group with cancellations limited to its own listeners
      leaves that group with exactly one listener per required file and
      leaves every other group's listeners alone. */
  lemma ReconcileExact(st: OldStore, fs: FileSystem, g: Group)
    requires Matches(st, g, GroupOf(st, g).imported) && NoDup(GroupOf(st, g).required)
    ensures var r := Reconcile(st, fs, g, ByListener);
      && Matches(r, g, GroupOf(st, g).required)
      && (forall l: Listener :: l.group != g ==> multiset(r.listeners)[l] == multiset(st.listeners)[l])
  {
    var r := Reconcile(st, fs, g, ByListener);
    forall n ensures multiset(r.listeners)[Listener(g, n)] == if n in GroupOf(st, g).required then 1 else 0 {
      ExactFor(st, fs, g, Listener(g, n));
    }
    forall l: Listener | l.group != g ensures multiset(r.listeners)[l] == multiset(st.listeners)[l] {
      ExactFor(st, fs, g, l);
    }
  }

  /** One listener, with cancellations by path. */
  lemma NoStaleFor(st: OldStore, fs: FileSystem, g: Group, l: Listener)
    requires Matches(st, g, GroupOf(st, g).imported)
    ensures l.group == g && l in Reconcile(st, fs, g, ByPath).listeners ==> l.fileName in GroupOf(st, g).required
    ensures l.group != g && l in Reconcile(st, fs, g, ByPath).listeners ==> l in st.listeners
  {
    var gs := GroupOf(st, g);
    MatchesListed(st, g, gs.imported);
    ReconcileListeners(st, fs, g, ByPath, l);
    if multiset(gs.required) == multiset(gs.imported) {
      SameNames(gs.required, gs.imported, l.fileName);
      assert l.group == g ==> (l in st.listeners <==> l.fileName in gs.imported);
    } else if l.group == g && l.fileName !in gs.required {
      var d := ArraysDifference(gs.required, gs.imported);
      if l in st.listeners {
        assert l.fileName in gs.imported;
        assert l.fileName in d.onlyLastArray;
        assert Drops(st.dirs, l, g, l.fileName, ByPath);
      }
    }
  }

  /** As written, reconciling a group still never leaves a listener of that
      group on a file it does not require, and only ever takes listeners
      away from the other groups. */
  lemma ReconcileNoStale(st: OldStore, fs: FileSystem, g: Group)
    requires Matches(st, g, GroupOf(st, g).imported)
    ensures var r := Reconcile(st, fs, g, ByPath);
      && (forall n :: Listener(g, n) in r.listeners ==> n in GroupOf(st, g).required)
      && (forall h, n :: h != g && Listener(h, n) in r.listeners ==> Listener(h, n) in st.listeners)
  {
    forall n | Listener(g, n) in Reconcile(st, fs, g, ByPath).listeners ensures n in GroupOf(st, g).required {
      NoStaleFor(st, fs, g, Listener(g, n));
    }
    forall h, n | h != g && Listener(h, n) in Reconcile(st, fs, g, ByPath).listeners
      ensures Listener(h, n) in st.listeners
    {
      NoStaleFor(st, fs, g, Listener(h, n));
    }
  }

  /** A group's listeners that reconciling another group leaves alone. */
  lemma OtherGroupKept(st: OldStore, fs: FileSystem, g: Group, h: Group, names: seq<string>)
    requires h != g && Matches(st, h, names)
    ensures Matches(Reconcile(st, fs, g, ByListener), h, names)
  {
    var gs := GroupOf(st, g);
    if multiset(gs.required) == multiset(gs.imported) {
      ReconcileUnchanged(st, fs, g, ByListener);
    } else {
      forall n ensures multiset(Reconcile(st, fs, g, ByListener).listeners)[Listener(h, n)] == if n in names then 1 else 0 {
        ReconcileCounts(st, fs, g, ByListener, Listener(h, n));
      }
    }
  }

  /** Reconciling group `g` when it watches its imported files. */
  lemma ReconcileStep(st: OldStore, fs: FileSystem, g: Group)
    requires Matches(st, g, GroupOf(st, g).imported) && NoDup(GroupOf(st, g).required)
    ensures var r := Reconcile(st, fs, g, ByListener);
      && Matches(r, g, GroupOf(st, g).required)
      && (forall h :: GroupOf(r, h).required == GroupOf(st, h).required)
      && (forall h :: GroupOf(r, h).imported == GroupOf(st, h).imported)
  {
    ReconcileExact(st, fs, g);
    ReconcileFrame(st, fs, g, ByListener);
  }

  /** Once every group watches exactly its required files, a rebuild makes
      those the imported files and so establishes the watch invariant. */
  lemma BundleSyncs(st: OldStore)
    ensures (forall h :: Matches(st, h, GroupOf(st, h).required)) ==> WatchInv(UpdateBundle(st).store)
  {
    var r := UpdateBundle(st).store;
    if forall h :: Matches(st, h, GroupOf(st, h).required) {
      forall h ensures Matches(r, h, GroupOf(r, h).imported) {
        assert GroupOf(r, h).imported == GroupOf(st, h).required;
      }
    }
  }

  /** With cancellations limited to their own group, reconciling every
      group in turn leaves each with exactly one listener per required file. */
  lemma ReconcileAllExact(st: OldStore, fs: FileSystem)
    requires WatchInv(st) && forall h :: NoDup(GroupOf(st, h).required)
    ensures var r := ReconcileAll(st, fs, ByListener);
      forall h :: GroupOf(r, h).required == GroupOf(st, h).required && Matches(r, h, GroupOf(st, h).required)
  {
    ReconcileStep(st, fs, Before);
    var st2 := Reconcile(st, fs, Before, ByListener);
    OtherGroupKept(st, fs, Before, After, GroupOf(st, After).imported);
    OtherGroupKept(st, fs, Before, Globals, GroupOf(st, Globals).imported);
    assert NoDup(GroupOf(st2, After).required) by { assert GroupOf(st2, After).required == GroupOf(st, After).required; }
    ReconcileStep(st2, fs, After);
    var st3 := Reconcile(st2, fs, After, ByListener);
    OtherGroupKept(st2, fs, After, Before, GroupOf(st, Before).required);
    OtherGroupKept(st2, fs, After, Globals, GroupOf(st, Globals).imported);
    assert NoDup(GroupOf(st3, Globals).required) by { assert GroupOf(st3, Globals).required == GroupOf(st, Globals).required; }
    ReconcileStep(st3, fs, Globals);
    var st4 := Reconcile(st3, fs, Globals, ByListener);
    OtherGroupKept(st3, fs, Globals, Before, GroupOf(st, Before).required);
    OtherGroupKept(st3, fs, Globals, After, GroupOf(st, After).required);
    assert st4 == ReconcileAll(st, fs, ByListener);
    forall h ensures GroupOf(st4, h).required == GroupOf(st, h).required {
      assert GroupOf(st3, h).required == GroupOf(st2, h).required == GroupOf(st, h).required;
    }
    forall h ensures Matches(st4, h, GroupOf(st, h).required) {
      match h
      case Before =>
      case After =>
      case Globals =>
    }
  }

  /** Rebuilding the required lists from the index keeps the watch
      invariant's listeners, so the reconciliation above applies. */
  lemma WatchesFollowIndex(st: OldStore, fs: FileSystem, req: Required, raw: string)
    requires forall h :: NoDup(ListOf(req, h))
    ensures WatchInv(st) ==> var r := ReconcileAll(WithRequired(st, req).(index := raw), fs, ByListener);
      forall h :: Matches(r, h, ListOf(req, h))
  {
    if WatchInv(st) {
      var st1 := WithRequired(st, req).(index := raw);
      assert forall h :: GroupOf(st1, h).required == ListOf(req, h) && GroupOf(st1, h).imported == GroupOf(st, h).imported;
      assert WatchInv(st1);
      ReconcileAllExact(st1, fs);
    }
  }

  /** Reconciling every group touches nothing but the listeners. */
  lemma ReconcileAllFrame(st: OldStore, fs: FileSystem, how: Removal)
    ensures var r := ReconcileAll(st, fs, how);
      && r.dirs == st.dirs && r.index == st.index
      && forall h :: GroupOf(r, h).required == GroupOf(st, h).required && GroupOf(r, h).imported == GroupOf(st, h).imported
  {
    ReconcileFrame(st, fs, Before, how);
    var st2 := Reconcile(st, fs, Before, how);
    ReconcileFrame(st2, fs, After, how);
    var st3 := Reconcile(st2, fs, After, how);
    ReconcileFrame(st3, fs, Globals, how);
  }

  /** Reconciling a group never adds a listener to another group. */
  lemma OthersOnlyLose(st: OldStore, fs: FileSystem, g: Group, how: Removal, l: Listener)
    requires l.group != g
    ensures l in Reconcile(st, fs, g, how).listeners ==> l in st.listeners
  {
    var gs := GroupOf(st, g);
    if !AreArraysTheSame([gs.required, gs.imported]) {
      ReconcileListeners(st, fs, g, how, l);
    }
  }

  /** As written, cancelling the `@after` watcher of a file the `@after`
      group no longer requires drops the `@before` listener on it as well. */
  lemma CancelDropsBoth(st: OldStore, fs: FileSystem, x: string)
    requires x in GroupOf(st, After).imported && x !in GroupOf(st, After).required
    ensures Listener(Before, x) !in Reconcile(st, fs, After, ByPath).listeners
  {
    var ga := GroupOf(st, After);
    assert multiset(ga.required) != multiset(ga.imported) by {
      if multiset(ga.required) == multiset(ga.imported) {
        SameNames(ga.required, ga.imported, x);
        assert false;
      }
    }
    ReconcileListeners(st, fs, After, ByPath, Listener(Before, x));
    assert x in ArraysDifference(ga.required, ga.imported).onlyLastArray;
    assert Drops(st.dirs, Listener(Before, x), After, x, ByPath);
  }

  /** As written, a file moved from `@after` to `@before` is left with no
      watcher at all: its new `@before` listener is added first, then
      cancelling the `@after` watcher by path drops both listeners, since
      the two local groups share a directory. The corrected form keeps it. */
  lemma AsWrittenLosesWatcher(st: OldStore, fs: FileSystem, raw: string, x: string)
    requires WatchInv(st)
    requires x in GroupOf(st, After).imported && x !in GroupOf(st, Before).imported
    requires x in ListOf(ParseIndex(raw), Before) && x !in ListOf(ParseIndex(raw), After)
    ensures x in GroupOf(InitIndexAsWritten(st, fs, raw), Before).required
    ensures Listener(Before, x) !in InitIndexAsWritten(st, fs, raw).listeners
    ensures Listener(Before, x) in InitIndex(st, fs, raw).listeners
  {
    var req := ParseIndex(raw);
    var st1 := WithRequired(st, req).(index := raw);
    assert forall h :: GroupOf(st1, h).required == ListOf(req, h) && GroupOf(st1, h).imported == GroupOf(st, h).imported;
    // as written
    ReconcileAllFrame(st1, fs, ByPath);
    ReconcileFrame(st1, fs, Before, ByPath);
    var a2 := Reconcile(st1, fs, Before, ByPath);
    CancelDropsBoth(a2, fs, x);
    var a3 := Reconcile(a2, fs, After, ByPath);
    OthersOnlyLose(a3, fs, Globals, ByPath, Listener(Before, x));
    assert Reconcile(a3, fs, Globals, ByPath) == InitIndexAsWritten(st, fs, raw);
    // corrected
    MatchesListed(InitIndex(st, fs, raw), Before, ListOf(req, Before));
  }
}

=== FILE: old_clean.dfy ===
/** The whole-bundle clean-up of the superseded bundler
    (bundler_old.js:284-286): blank lines and whole-line comments are
    removed by `replace(/^\s*(\/\/.*)?$/gm, "")`, then every run of newlines
    becomes a single newline. */
module OldClean {
  import opened JsText
  import opened JsSplit
  import Transform

  /** Position of the last line terminator of `s`, or -1. */
  function LastTerminator(s: string): (j: int)
    ensures -1 <= j < |s|
    ensures j >= 0 ==> IsLineTerminator(s[j])
    ensures forall k :: j < k < |s| ==> !IsLineTerminator(s[k])
  {
    if |s| == 0 then -1
    else if IsLineTerminator(s[|s| - 1]) then |s| - 1
    else LastTerminator(s[..|s| - 1])
  }

  /** Length of the match of `\s*(\/\/.*)?$` (multiline) at the head of `s`,
      or -1 when there is none. The greedy whitespace run is kept when it
      reaches the end or a `//` follows it; otherwise the engine backs off to
      the last line terminator inside the run, where `$` holds. */
  function BlankMatch(s: string): (n: int)
    ensures -1 <= n <= |s|
    ensures n >= 0 ==> n == |s| || IsLineTerminator(s[n])
  {
    var q := LeadingSpace(s);
    if q == |s| then q
    else if StartsWith(s[q..], "//") then
      var n := q + 2 + LineLength(s[q + 2..]);
      assert n < |s| ==> s[n] == s[q + 2..][n - q - 2];
      n
    else
      var j := LastTerminator(s[..q]);
      assert j >= 0 ==> s[j] == s[..q][j];
      j
  }

  /** Step 1 of the bundle clean-up, `replace(/^\s*(\/\/.*)?$/gm, "")`.
      `atLineStart` says whether `^` holds at the head of `s`. After a
      non-empty match the scan resumes where it ended, which is a line start
      exactly when the last removed character is a line terminator; an empty
      match removes nothing. */
  function OldStrip(s: string, atLineStart: bool): string
    decreases |s|
  {
    if |s| == 0 then ""
    else if atLineStart && BlankMatch(s) > 0 then
      var n := BlankMatch(s);
      OldStrip(s[n..], IsLineTerminator(s[n - 1]))
    else [s[0]] + OldStrip(s[1..], IsLineTerminator(s[0]))
  }

  /** No two newlines in a row. */
  predicate NoDoubleNewline(s: string) {
    forall i :: 0 <= i < |s| - 1 ==> !(s[i] == '\n' && s[i + 1] == '\n')
  }

  /** Collapsing newline runs keeps the first character. */
  lemma CollapseHead(s: string)
    requires |s| > 0
    ensures var r := Transform.CollapseNewlines(s, ""); |r| > 0 && r[0] == s[0]
  {
  }

  lemma {:induction false} CollapseNoDouble(s: string)
    ensures NoDoubleNewline(Transform.CollapseNewlines(s, ""))
    decreases |s|
  {
    var r := Transform.CollapseNewlines(s, "");
    if |s| > 0 {
      if s[0] == '\n' {
        var t := s[Transform.NewlineRun(s)..];
        var rest := Transform.CollapseNewlines(t, "");
        CollapseNoDouble(t);
        assert r == "\n" + rest;
        if |t| > 0 {
          CollapseHead(t);
        }
        forall i | 0 <= i < |r| - 1 ensures !(r[i] == '\n' && r[i + 1] == '\n') {
          if i > 0 {
            assert r[i] == rest[i - 1] && r[i + 1] == rest[i];
          }
        }
      } else {
        var rest := Transform.CollapseNewlines(s[1..], "");
        CollapseNoDouble(s[1..]);
        assert r == [s[0]] + rest;
        forall i | 0 <= i < |r| - 1 ensures !(r[i] == '\n' && r[i + 1] == '\n') {
          if i > 0 {
            assert r[i] == rest[i - 1] && r[i + 1] == rest[i];
          }
        }
      }
    }
  }

  lemma ContainsSuffix(s: string, n: nat, t: string)
    requires n <= |s| && Contains(s[n..], t)
    ensures Contains(s, t)
  {
    var k := IndexOf(s[n..], t);
    assert s[n..][k..] == s[n + k..];
    ContainsAt(s, t, n + k);
  }

  /** Without `//` anywhere, step 1 removes whitespace only. */
  lemma {:induction false} StripKeepsCode(s: string, atLineStart: bool)
    requires !Contains(s, "//")
    ensures DropSpace(OldStrip(s, atLineStart)) == DropSpace(s)
    decreases |s|
  {
    if |s| == 0 {
    } else if atLineStart && BlankMatch(s) > 0 {
      var n := BlankMatch(s);
      var q := LeadingSpace(s);
      if q < |s| && StartsWith(s[q..], "//") {
        ContainsAt(s, "//", q);
        assert false;
      }
      assert AllSpace(s[..n]) by {
        forall i | 0 <= i < n ensures IsSpace(s[..n][i]) {
          assert s[..n][i] == s[..q][i];
        }
      }
      DropSpacePrefix(s, n);
      if Contains(s[n..], "//") {
        ContainsSuffix(s, n, "//");
      }
      StripKeepsCode(s[n..], IsLineTerminator(s[n - 1]));
    } else {
      StripKeepsCode(s[1..], IsLineTerminator(s[0]));
      assert OldStrip(s, atLineStart) == [s[0]] + OldStrip(s[1..], IsLineTerminator(s[0]));
      assert ([s[0]] + OldStrip(s[1..], IsLineTerminator(s[0])))[1..] == OldStrip(s[1..], IsLineTerminator(s[0]));
    }
  }

  /** Where a line starts, whitespace followed by `//`: what the clean-up
      leaves no trace of. */
  predicate CommentLineAt(r: string, i: nat)
    requires i <= |r|
  {
    StartsWith(r[i..][LeadingSpace(r[i..])..], "//")
  }

  lemma MatchIsLine(s: string)
    ensures Transform.CommentMatch(s) > 0 <==> CommentLineAt(s, 0)
  {
    assert s[0..] == s;
  }

  /** No line of `r` is whitespace followed by `//`. */
  predicate NoCommentLine(r: string) {
    forall i :: 0 <= i < |r| && (i == 0 || IsLineTerminator(r[i - 1])) ==> !CommentLineAt(r, i)
  }

  /** A whitespace prefix does not change whether a comment match starts. */
  lemma {:induction false} SpacePrefixMatch(t: string, n: nat)
    requires n <= |t| && AllSpace(t[..n])
    ensures Transform.CommentMatch(t) > 0 <==> Transform.CommentMatch(t[n..]) > 0
    decreases n
  {
    if n > 0 {
      assert IsSpace(t[..n][0]);
      assert t == [t[0]] + t[1..];
      Transform.CommentMatchShift(t[0], t[1..]);
      assert t[1..][..n - 1] == t[1..n];
      SpacePrefixMatch(t[1..], n - 1);
      assert t[1..][n - 1..] == t[n..];
    }
  }

  /** Step 1 copies the head character when no match starts there. */
  lemma StripCopies(s: string, a: bool)
    requires |s| > 0 && !(a && BlankMatch(s) > 0)
    ensures OldStrip(s, a) == [s[0]] + OldStrip(s[1..], IsLineTerminator(s[0]))
  {
  }

  /** Where step 1 finds nothing to remove at the head of a line, no
      comment match starts there either. */
  lemma NoBlankNoComment(s: string)
    requires |s| > 0 && BlankMatch(s) <= 0
    ensures Transform.CommentMatch(s) == 0
  {
  }

  /** A backed-off match leaves a line terminator at the head, with no
      comment after the whitespace. */
  lemma BackedOff(s: string)
    requires Transform.CommentMatch(s) == 0 && 0 < BlankMatch(s) < |s|
    ensures Transform.CommentMatch(s[BlankMatch(s)..]) == 0
  {
    var n := BlankMatch(s);
    var q := LeadingSpace(s);
    assert q < |s| && n < q;
    assert AllSpace(s[..n]) by {
      forall i | 0 <= i < n ensures IsSpace(s[..n][i]) {
        assert s[..n][i] == s[..q][i];
      }
    }
    SpacePrefixMatch(s, n);
  }

  /** A head character that is not whitespace keeps a comment from starting
      after it, unless it is a slash followed by one. */
  lemma HeadNotSpace(c: char, x: string)
    requires !IsSpace(c) && !(c == '/' && |x| > 0 && x[0] == '/')
    ensures Transform.CommentMatch([c] + x) == 0
  {
    var s := [c] + x;
    assert LeadingSpace(s) == 0;
    assert s[0..] == s;
    assert |s| >= 2 ==> s[..2] == [c, x[0]];
  }

  /** Step 1 never creates a comment match at the head of a string that had none. */
  lemma {:induction false} StripNoNewMatch(t: string, b: bool)
    requires Transform.CommentMatch(t) == 0
    ensures Transform.CommentMatch(OldStrip(t, b)) == 0
    decreases |t|
  {
    if |t| == 0 {
      return;
    }
    if b && BlankMatch(t) > 0 {
      var n := BlankMatch(t);
      if n < |t| {
        BackedOff(t);
        StripNoNewMatch(t[n..], IsLineTerminator(t[n - 1]));
      }
      return;
    }
    StripCopies(t, b);
    var x := OldStrip(t[1..], IsLineTerminator(t[0]));
    if IsSpace(t[0]) {
      assert t == [t[0]] + t[1..];
      Transform.CommentMatchShift(t[0], t[1..]);
      StripNoNewMatch(t[1..], IsLineTerminator(t[0]));
      Transform.CommentMatchShift(t[0], x);
    } else {
      if t[0] == '/' && |t| > 1 {
        HeadNotSpace(t[0], t[1..]);
        assert t == [t[0]] + t[1..];
        SlashHead(t);
        StripCopies(t[1..], false);
      }
      HeadNotSpace(t[0], x);
    }
  }

  /** The output of step 1, read from a given line state, holds no comment
      line. */
  lemma {:induction false} StripCommentFree(s: string, a: bool)
    ensures Transform.CommentFree(OldStrip(s, a), a)
    decreases |s|
  {
    if |s| == 0 {
      return;
    }
    if a && BlankMatch(s) > 0 {
      var n := BlankMatch(s);
      var u := s[n..];
      if |u| > 0 && !IsLineTerminator(s[n - 1]) {
        StripCommentFree(u[1..], true);
        FreeAfterComment(u);
      } else {
        StripCommentFree(u, IsLineTerminator(s[n - 1]));
      }
      return;
    }
    StripCommentFree(s[1..], IsLineTerminator(s[0]));
    FreeOnCopy(s, a);
  }

  /** After a match that stopped short of a line terminator, the terminator
      is copied and a comment-free rest follows it. */
  lemma FreeAfterComment(u: string)
    requires |u| > 0 && IsLineTerminator(u[0])
    requires Transform.CommentFree(OldStrip(u[1..], true), true)
    ensures Transform.CommentFree(OldStrip(u, false), true)
  {
    StripCopies(u, false);
    var x := OldStrip(u[1..], true);
    Transform.CommentMatchShift(u[0], x);
    FreeFromHead(u[0], x, true);
  }

  /** A copied head character keeps the output comment free. */
  lemma FreeOnCopy(s: string, a: bool)
    requires |s| > 0 && !(a && BlankMatch(s) > 0)
    requires Transform.CommentFree(OldStrip(s[1..], IsLineTerminator(s[0])), IsLineTerminator(s[0]))
    ensures Transform.CommentFree(OldStrip(s, a), a)
  {
    StripCopies(s, a);
    var x := OldStrip(s[1..], IsLineTerminator(s[0]));
    if a {
      NoBlankNoComment(s);
      StripNoNewMatch(s, false);
      StripCopies(s, false);
    }
    FreeFromHead(s[0], x, a);
  }

  /** A character ahead of a comment-free rest keeps it comment free, when
      no match starts at it. */
  lemma FreeFromHead(c: char, x: string, a: bool)
    requires (a ==> Transform.CommentMatch([c] + x) == 0) && Transform.CommentFree(x, IsLineTerminator(c))
    ensures Transform.CommentFree([c] + x, a)
  {
    assert ([c] + x)[1..] == x;
  }

  /** Two slashes at the head start a comment match. */
  lemma SlashHead(t: string)
    requires |t| > 1
    ensures t[0] == '/' && t[1] == '/' ==> Transform.CommentMatch(t) > 0
  {
    if t[0] == '/' && t[1] == '/' {
      assert LeadingSpace(t) == 0;
      assert t[0..][..2] == "//";
    }
  }

  /** Collapsing newline runs never creates a comment match at the head. */
  lemma {:induction false} CollapseNoNewMatch(t: string)
    requires Transform.CommentMatch(t) == 0
    ensures Transform.CommentMatch(Transform.CollapseNewlines(t, "")) == 0
    decreases |t|
  {
    if |t| == 0 {
    } else if t[0] == '\n' {
      var n := Transform.NewlineRun(t);
      NewlinesAreSpace(t);
      SpacePrefixMatch(t, n);
      CollapseNoNewMatch(t[n..]);
      CollapseNewlineHead(t);
    } else if IsSpace(t[0]) {
      Transform.CommentMatchShift(t[0], t[1..]);
      assert t == [t[0]] + t[1..];
      CollapseNoNewMatch(t[1..]);
      CollapseOtherHead(t);
    } else {
      if |t| > 1 {
        SlashHead(t);
        CollapseHead(t[1..]);
      }
      CollapseOtherHead(t);
    }
  }

  lemma NewlinesAreSpace(t: string)
    ensures AllSpace(t[..Transform.NewlineRun(t)])
  {
    var n := Transform.NewlineRun(t);
    forall i | 0 <= i < n ensures IsSpace(t[..n][i]) {
      assert t[..n][i] == t[i];
    }
  }

  /** A newline run at the head becomes a single newline. */
  lemma CollapseNewlineHead(t: string)
    requires |t| > 0 && t[0] == '\n'
    requires Transform.CommentMatch(Transform.CollapseNewlines(t[Transform.NewlineRun(t)..], "")) == 0
    ensures Transform.CommentMatch(Transform.CollapseNewlines(t, "")) == 0
  {
    var rest := Transform.CollapseNewlines(t[Transform.NewlineRun(t)..], "");
    assert Transform.CollapseNewlines(t, "") == ['\n'] + rest;
    Transform.CommentMatchShift('\n', rest);
  }

  /** Any other head character is copied. */
  lemma CollapseOtherHead(t: string)
    requires |t| > 0 && t[0] != '\n'
    requires IsSpace(t[0]) ==> Transform.CommentMatch(Transform.CollapseNewlines(t[1..], "")) == 0
    requires !IsSpace(t[0]) ==> !(t[0] == '/' && |t| > 1 && t[1] == '/')
    requires !IsSpace(t[0]) && |t| > 1 ==> Transform.CollapseNewlines(t[1..], "")[0] == t[1]
    ensures Transform.CommentMatch(Transform.CollapseNewlines(t, "")) == 0
  {
    var rest := Transform.CollapseNewlines(t[1..], "");
    assert Transform.CollapseNewlines(t, "") == [t[0]] + rest;
    if IsSpace(t[0]) {
      Transform.CommentMatchShift(t[0], rest);
    } else {
      HeadNotSpace(t[0], rest);
    }
  }

  /** Line starts are kept through a run of newlines. */
  lemma {:induction false} FreeAfterNewlines(s: string, a: bool, k: nat)
    requires 1 <= k <= |s| && Transform.CommentFree(s, a)
    requires forall i :: 0 <= i < k ==> s[i] == '\n'
    ensures Transform.CommentFree(s[k..], true)
    decreases k
  {
    if k > 1 {
      FreeAfterNewlines(s[1..], true, k - 1);
      assert s[1..][k - 1..] == s[k..];
    }
  }

  /** Collapsing newline runs keeps a text free of comment lines. */
  lemma {:induction false} CollapseCommentFree(s: string, a: bool)
    requires Transform.CommentFree(s, a)
    ensures Transform.CommentFree(Transform.CollapseNewlines(s, ""), a)
    decreases |s|
  {
    if |s| == 0 {
      return;
    }
    var r := Transform.CollapseNewlines(s, "");
    if a {
      CollapseNoNewMatch(s);
    }
    if s[0] == '\n' {
      var n := Transform.NewlineRun(s);
      FreeAfterNewlines(s, a, n);
      CollapseCommentFree(s[n..], true);
      assert r[1..] == Transform.CollapseNewlines(s[n..], "");
    } else {
      CollapseCommentFree(s[1..], IsLineTerminator(s[0]));
      assert r[1..] == Transform.CollapseNewlines(s[1..], "");
    }
  }

  /** The recursive form of comment freedom says no line is a comment line. */
  lemma {:induction false} CommentFreeLines(s: string, a: bool)
    requires Transform.CommentFree(s, a)
    ensures forall i :: 0 <= i < |s| && (if i == 0 then a else IsLineTerminator(s[i - 1])) ==> !CommentLineAt(s, i)
    decreases |s|
  {
    if |s| > 0 {
      CommentFreeLines(s[1..], IsLineTerminator(s[0]));
      forall i | 0 <= i < |s| && (if i == 0 then a else IsLineTerminator(s[i - 1]))
        ensures !CommentLineAt(s, i)
      {
        if i == 0 {
          MatchIsLine(s);
        } else {
          assert s[i..] == s[1..][i - 1..];
          assert i > 1 ==> s[i - 1] == s[1..][i - 2];
          assert !CommentLineAt(s[1..], i - 1);
        }
      }
    }
  }

  /** Over a whitespace run that is not followed by `//`, the current
      generation's comment removal copies every character. */
  lemma {:induction false} StripSpaceRun(s: string, j: nat, a: bool)
    requires j <= LeadingSpace(s) && !StartsWith(s[LeadingSpace(s)..], "//")
    ensures Transform.StripComments(s, a) ==
      s[..j] + Transform.StripComments(s[j..], if j == 0 then a else IsLineTerminator(s[j - 1]))
    decreases j
  {
    if j > 0 {
      var q := LeadingSpace(s);
      assert s[1..][q - 1..] == s[q..];
      assert Transform.CommentMatch(s) == 0;
      Transform.StripCopiesHead(s, a);
      StripSpaceRun(s[1..], j - 1, IsLineTerminator(s[0]));
      assert s[1..][j - 1..] == s[j..];
      assert j > 1 ==> s[1..][j - 2] == s[j - 1];
      assert [s[0]] + s[1..][..j - 1] == s[..j];
    }
  }

  /** A comment match ends on a character of its own line. */
  lemma CommentEndsInLine(s: string)
    requires Transform.CommentMatch(s) > 0
    ensures !IsLineTerminator(s[Transform.CommentMatch(s) - 1])
  {
    var q := LeadingSpace(s);
    var n := Transform.CommentMatch(s);
    assert s[q..][..2] == "//";
    if n > q + 2 {
      assert s[n - 1] == s[q + 2..][n - 1 - (q + 2)];
    }
  }

  /** Up to whitespace, step 1 removes exactly what the current generation's
      `replace(/^\s*\/\/.*$/gm, "")` removes: the comment part of every
      comment-only line. Blank lines and backed-off matches lose whitespace
      only. */
  lemma {:induction false} StripAgrees(s: string, a: bool)
    ensures DropSpace(OldStrip(s, a)) == DropSpace(Transform.StripComments(s, a))
    decreases |s|
  {
    if |s| == 0 {
      return;
    }
    var q := LeadingSpace(s);
    if a && BlankMatch(s) > 0 {
      var n := BlankMatch(s);
      if q == |s| {
        AgreeOnBlank(s, a);
      } else if StartsWith(s[q..], "//") {
        StripAgrees(s[n..], false);
        AgreeOnComment(s, a);
      } else {
        StripAgrees(s[n..], IsLineTerminator(s[n - 1]));
        AgreeOnBackOff(s, a);
      }
    } else {
      StripAgrees(s[1..], IsLineTerminator(s[0]));
      AgreeOnCopy(s, a);
    }
  }

  /** A whitespace-only text leaves no character either way. */
  lemma AgreeOnBlank(s: string, a: bool)
    requires LeadingSpace(s) == |s|
    ensures DropSpace(OldStrip(s, a)) == DropSpace(Transform.StripComments(s, a))
  {
    if |s| > 0 {
      StripSpaceRun(s, |s|, a);
      assert s[..|s|] == s && s[|s|..] == "";
      assert AllSpace(s);
      Transform.DropAllSpace(s);
      Transform.DropSpaceAppend(s, "");
    }
  }

  /** A comment-only line is one match for both scans. */
  lemma AgreeOnComment(s: string, a: bool)
    requires a && LeadingSpace(s) < |s| && StartsWith(s[LeadingSpace(s)..], "//")
    requires var n := BlankMatch(s);
      0 < n <= |s| && DropSpace(OldStrip(s[n..], false)) == DropSpace(Transform.StripComments(s[n..], false))
    ensures DropSpace(OldStrip(s, a)) == DropSpace(Transform.StripComments(s, a))
  {
    assert Transform.CommentMatch(s) == BlankMatch(s);
    CommentEndsInLine(s);
  }

  /** A backed-off match removes whitespace the current scan copies. */
  lemma AgreeOnBackOff(s: string, a: bool)
    requires a && 0 < BlankMatch(s) && LeadingSpace(s) < |s| && !StartsWith(s[LeadingSpace(s)..], "//")
    requires var n := BlankMatch(s);
      DropSpace(OldStrip(s[n..], IsLineTerminator(s[n - 1])))
      == DropSpace(Transform.StripComments(s[n..], IsLineTerminator(s[n - 1])))
    ensures DropSpace(OldStrip(s, a)) == DropSpace(Transform.StripComments(s, a))
  {
    var n := BlankMatch(s);
    var q := LeadingSpace(s);
    assert AllSpace(s[..n]) by {
      forall i | 0 <= i < n ensures IsSpace(s[..n][i]) {
        assert s[..n][i] == s[..q][i];
      }
    }
    StripSpaceRun(s, n, a);
    Transform.DropAllSpace(s[..n]);
    Transform.DropSpaceAppend(s[..n], Transform.StripComments(s[n..], IsLineTerminator(s[n - 1])));
  }

  /** Where neither scan matches, both copy the head character. */
  lemma AgreeOnCopy(s: string, a: bool)
    requires |s| > 0 && !(a && BlankMatch(s) > 0)
    requires DropSpace(OldStrip(s[1..], IsLineTerminator(s[0])))
      == DropSpace(Transform.StripComments(s[1..], IsLineTerminator(s[0])))
    ensures DropSpace(OldStrip(s, a)) == DropSpace(Transform.StripComments(s, a))
  {
    if a {
      NoBlankNoComment(s);
    }
    StripCopies(s, a);
    Transform.StripCopiesHead(s, a);
    Transform.DropSpaceAppend([s[0]], OldStrip(s[1..], IsLineTerminator(s[0])));
    Transform.DropSpaceAppend([s[0]], Transform.StripComments(s[1..], IsLineTerminator(s[0])));
  }

  /** Inside a line, step 1 copies characters up to the line's end. */
  lemma {:induction false} OldStripWithinLine(line: string, rest: string)
    requires NoLineTerminator(line)
    ensures OldStrip(line + rest, false) == line + OldStrip(rest, false)
    decreases |line|
  {
    if |line| == 0 {
      assert line + rest == rest;
    } else {
      var s := line + rest;
      assert s[0] == line[0] && s[1..] == line[1..] + rest;
      OldStripWithinLine(line[1..], rest);
      assert [line[0]] + line[1..] == line;
    }
  }

  /** When step 1 reaches the start of a line holding code (a character
      that is not whitespace, and no `//` right after the leading
      whitespace), it copies that line whole. */
  lemma OldStripKeepsCodeLine(line: string, rest: string)
    requires NoLineTerminator(line) && LeadingSpace(line) < |line|
    requires !StartsWith(line[LeadingSpace(line)..], "//")
    requires |rest| == 0 || IsLineTerminator(rest[0])
    ensures OldStrip(line + rest, true) == line + OldStrip(rest, false)
  {
    NoBlankAtCode(line, rest);
    OldStripLineHead(line, rest);
    OldStripWithinLine(line[1..], rest);
    Transform.ConsLine(line, OldStrip(rest, false));
  }

  /** No match of step 1 starts at the head of a line holding code. */
  lemma NoBlankAtCode(line: string, rest: string)
    requires NoLineTerminator(line) && LeadingSpace(line) < |line|
    requires !StartsWith(line[LeadingSpace(line)..], "//")
    requires |rest| == 0 || IsLineTerminator(rest[0])
    ensures BlankMatch(line + rest) == -1
  {
    var s := line + rest;
    var q := LeadingSpace(line);
    Transform.LeadingSpaceAppend(line, rest);
    Transform.NotSlashes(line, rest, q);
    assert s[..q] == line[..q];
    NoTerminatorIn(line, q);
  }

  lemma OldStripLineHead(line: string, rest: string)
    requires |line| > 0 && !IsLineTerminator(line[0]) && BlankMatch(line + rest) == -1
    ensures OldStrip(line + rest, true) == [line[0]] + OldStrip(line[1..] + rest, false)
  {
    StripCopies(line + rest, true);
    assert (line + rest)[1..] == line[1..] + rest;
  }

  lemma NoTerminatorIn(line: string, q: nat)
    requires NoLineTerminator(line) && q <= |line|
    ensures LastTerminator(line[..q]) == -1
  {
    assert NoLineTerminator(line[..q]) by {
      forall k | 0 <= k < q ensures !IsLineTerminator(line[..q][k]) {
        assert line[..q][k] == line[k];
      }
    }
  }

  /** The whole-bundle clean-up: step 1, then every run of newlines becomes
      one. The result never holds two newlines in a row and no line of it is
      whitespace followed by `//`; a bundle with no `//` anywhere keeps every
      non-whitespace character, in order. */
  function Clean(s: string): (r: string)
    ensures NoDoubleNewline(r)
    ensures NoCommentLine(r)
    ensures !Contains(s, "//") ==> DropSpace(r) == DropSpace(s)
    // up to whitespace, exactly the comment part of every comment-only line goes
    ensures DropSpace(r) == DropSpace(Transform.StripComments(s, true))
  {
    var stripped := OldStrip(s, true);
    var r := Transform.CollapseNewlines(stripped, "");
    CollapseNoDouble(stripped);
    StripCommentFree(s, true);
    CollapseCommentFree(stripped, true);
    CommentFreeLines(r, true);
    CodeKept(s);
    StripAgrees(s, true);
    Transform.CollapseKeepsCode(stripped, "");
    r
  }

  lemma CodeKept(s: string)
    ensures !Contains(s, "//") ==>
      DropSpace(Transform.CollapseNewlines(OldStrip(s, true), "")) == DropSpace(s)
  {
    if !Contains(s, "//") {
      StripKeepsCode(s, true);
      Transform.CollapseKeepsCode(OldStrip(s, true), "");
    }
  }
}

=== FILE: old_index.dfy ===
/** The directive loop of the superseded bundler (bundler_old.js:55-157).
    The index is split on `\n` only. A header opens on a line that starts
    with the comment opener and `AUAUST` and holds no terminator (checked on
    every line, before anything else) and closes on the next line holding a
    terminator. Inside it, lines of the form `* command args` are
    instructions, split on single spaces; the command is compared after
    lower-casing. Required names are collected per group without
    duplicates. */
module OldIndex {
  import opened JsText
  import opened JsSplit
  import Directives

  /** The three groups of required files, in the order they are reconciled. */
  datatype Group = Before | After | Globals

  /** `LOCALS.before.required`, `LOCALS.after.required`, `GLOBALS.required`. */
  datatype Required = Required(before: seq<string>, after: seq<string>, globals: seq<string>)

  const NoneRequired := Required([], [], [])

  function ListOf(req: Required, g: Group): seq<string> {
    match g
    case Before => req.before
    case After => req.after
    case Globals => req.globals
  }

  predicate NoDup<T(==)>(xs: seq<T>) {
    forall i, j :: 0 <= i < j < |xs| ==> xs[i] != xs[j]
  }

  /** The first occurrence of every element, in order of first occurrence. */
  function Dedup<T(==,!new)>(s: seq<T>): (r: seq<T>)
    ensures NoDup(r)
    ensures forall x :: x in r <==> x in s
  {
    if |s| == 0 then []
    else
      var d := Dedup(s[..|s| - 1]);
      assert s == s[..|s| - 1] + [s[|s| - 1]];
      if s[|s| - 1] in d then d else d + [s[|s| - 1]]
  }

  /** The `includes`/`push` loop: appends each of `ys` that is not there yet. */
  function AddAll<T(==)>(xs: seq<T>, ys: seq<T>): seq<T>
    decreases |ys|
  {
    if |ys| == 0 then xs
    else AddAll(if ys[0] in xs then xs else xs + [ys[0]], ys[1..])
  }

  lemma DedupSnoc<T(!new)>(a: seq<T>, x: T)
    ensures Dedup(a + [x]) == if x in Dedup(a) then Dedup(a) else Dedup(a) + [x]
  {
    assert (a + [x])[..|a + [x]| - 1] == a;
  }

  /** Adding the first name to a de-duplicated list is de-duplicating one
      more request. */
  lemma AddAllStep<T(!new)>(a: seq<T>, b: seq<T>)
    requires |b| > 0
    ensures AddAll(Dedup(a), b) == AddAll(Dedup(a + [b[0]]), b[1..])
  {
    DedupSnoc(a, b[0]);
  }

  lemma MoveHead<T>(a: seq<T>, b: seq<T>)
    requires |b| > 0
    ensures a + [b[0]] + b[1..] == a + b
  {
    assert b == [b[0]] + b[1..];
  }

  /** Adding names one by one without duplicates is de-duplicating the whole
      sequence of requests: first occurrences win and keep their order. */
  lemma {:induction false} AddAllDedup<T(!new)>(a: seq<T>, b: seq<T>)
    ensures AddAll(Dedup(a), b) == Dedup(a + b)
    decreases |b|
  {
    if |b| == 0 {
      assert a + b == a;
    } else {
      AddAllStep(a, b);
      AddAllDedup(a + [b[0]], b[1..]);
      MoveHead(a, b);
    }
  }

  /** A line starting with the comment opener, one space and `AUAUST`, with
      no comment terminator anywhere on it. */
  predicate IsHeaderStart(line: string) {
    StartsWith(line, "/* AUAUST") && !Contains(line, "*/")
  }

  /** The `instruction` group of `/^\s*[*]\s*(?<instruction>.*)/`: after optional
      whitespace and an asterisk, the rest of the line once the whitespace
      after the asterisk is skipped, up to the first line terminator. */
  function InstructionOf(line: string): (r: Directives.Option<string>)
    ensures r.Some? <==> LeadingSpace(line) < |line| && line[LeadingSpace(line)] == '*'
    ensures r.Some? ==> NoLineTerminator(r.value) && (|r.value| > 0 ==> !IsSpace(r.value[0]))
  {
    var q := LeadingSpace(line);
    if q < |line| && line[q] == '*' then
      var t := line[q + 1..];
      var k := LeadingSpace(t);
      var n := LineLength(t[k..]);
      assert t[k..][..n] == t[k..k + n];
      Directives.Some(t[k..k + n])
    else Directives.None
  }

  /** `toLowerCase` on the ASCII letters. */
  function AsciiLower(s: string): (r: string)
    ensures |r| == |s|
    ensures forall i :: 0 <= i < |s| ==> r[i] == if 'A' <= s[i] <= 'Z' then (s[i] - 'A' + 'a') as char else s[i]
  {
    if |s| == 0 then ""
    else [if 'A' <= s[0] <= 'Z' then (s[0] - 'A' + 'a') as char else s[0]] + AsciiLower(s[1..])
  }

  /** The first space-separated token of an instruction. */
  function Command(ins: string): string {
    SplitOnChars(ins, {' '})[0]
  }

  /** The remaining tokens; consecutive spaces give empty tokens. */
  function Args(ins: string): seq<string> {
    SplitOnChars(ins, {' '})[1..]
  }

  /** The names an instruction asks to add to group `g`, before de-duplication. */
  function Requested(ins: string, g: Group): (r: seq<string>)
    // `useglobal` requests every argument for the globals
    ensures AsciiLower(Command(ins)) == "useglobal" ==> (g == Globals ==> r == Args(ins))
    // `uselocal` requests every argument but the placement for the group it names
    ensures var args := Args(ins); var k := Directives.FirstAt(args);
      AsciiLower(Command(ins)) == "uselocal" && k >= 0 && args[k] == "@before" ==>
        (g == Before ==> r == args[..k] + args[k + 1..])
    ensures var args := Args(ins); var k := Directives.FirstAt(args);
      AsciiLower(Command(ins)) == "uselocal" && k >= 0 && args[k] == "@after" ==>
        (g == After ==> r == args[..k] + args[k + 1..])
    // and nothing else requests anything
    ensures r != [] && g == Globals ==> AsciiLower(Command(ins)) == "useglobal" && r == Args(ins)
    ensures r != [] && g != Globals ==>
      var args := Args(ins);
      var k := Directives.FirstAt(args);
      && AsciiLower(Command(ins)) == "uselocal"
      && k >= 0 && args[k] == (if g == Before then "@before" else "@after")
      && |r| == |args| - 1
      && multiset(r) == multiset(args) - multiset{args[k]}
  {
    var command := AsciiLower(Command(ins));
    var args := Args(ins);
    if command == "useglobal" then (if g == Globals then args else [])
    else if command == "uselocal" then
      var k := Directives.FirstAt(args);
      if k < 0 then []
      else
        var rest := args[..k] + args[k + 1..];
        assert args == args[..k] + [args[k]] + args[k + 1..];
        if args[k] == "@before" then (if g == Before then rest else [])
        else if args[k] == "@after" then (if g == After then rest else [])
        else []
    else []
  }

  /** An instruction feeds at most one group; a `uselocal` whose first
      `@`-argument is missing, or is anything but `@before` or `@after`
      (`@here` included), feeds none; `useglobal` keeps every argument,
      `@`-prefixed ones included. */
  lemma RequestedRouting(ins: string)
    ensures Requested(ins, Before) == [] || Requested(ins, After) == []
    ensures Requested(ins, Globals) == [] || (Requested(ins, Before) == [] && Requested(ins, After) == [])
    ensures var k := Directives.FirstAt(Args(ins));
      AsciiLower(Command(ins)) == "uselocal" && (k < 0 || Args(ins)[k] !in {"@before", "@after"}) ==>
        Requested(ins, Before) == [] && Requested(ins, After) == [] && Requested(ins, Globals) == []
    ensures AsciiLower(Command(ins)) == "useglobal" ==> Requested(ins, Globals) == Args(ins)
  {
  }

  /** The commands are matched whatever the case of their ASCII letters. */
  lemma CaseInsensitive(a: string, b: string, g: Group)
    requires Command(a) != "" && AsciiLower(Command(a)) == AsciiLower(Command(b)) && Args(a) == Args(b)
    ensures Requested(a, g) == Requested(b, g)
  {
  }

  datatype OldParse = OldParse(readingHeader: bool, required: Required)

  function Require(req: Required, ins: string): Required {
    Required(AddAll(req.before, Requested(ins, Before)),
             AddAll(req.after, Requested(ins, After)),
             AddAll(req.globals, Requested(ins, Globals)))
  }

  /** The body of the `for ... of` loop over the lines. */
  function OldStep(st: OldParse, line: string): OldParse {
    if IsHeaderStart(line) then st.(readingHeader := true)
    else if !st.readingHeader then st
    else if Contains(line, "*/") then st.(readingHeader := false)
    else
      match InstructionOf(line)
      case None => st
      case Some(ins) => st.(required := Require(st.required, ins))
  }

  function OldRun(lines: seq<string>): OldParse {
    if |lines| == 0 then OldParse(false, NoneRequired)
    else OldStep(OldRun(lines[..|lines| - 1]), lines[|lines| - 1])
  }

  /** The required lists that initIndex rebuilds from the index text: each
      holds no name twice and is the de-duplicated list of every request for
      its group, in order of first declaration. */
  function ParseIndex(raw: string): (r: Required)
    ensures var lines := SplitOnChars(raw, {'\n'});
      forall g :: NoDup(ListOf(r, g)) && ListOf(r, g) == Dedup(Requests(lines, g))
  {
    OldRunFacts(SplitOnChars(raw, {'\n'}));
    OldRun(SplitOnChars(raw, {'\n'})).required
  }

  /** Reference definition of the header mode, apart from the lists. */
  function HeaderAfter(lines: seq<string>): bool {
    if |lines| == 0 then false
    else
      var before := HeaderAfter(lines[..|lines| - 1]);
      var line := lines[|lines| - 1];
      if IsHeaderStart(line) then true
      else before && !Contains(line, "*/")
  }

  /** Whether `line`, read after `before`, is an instruction. */
  predicate IsInstructionLine(before: seq<string>, line: string) {
    HeaderAfter(before) && !IsHeaderStart(line) && !Contains(line, "*/") && InstructionOf(line).Some?
  }

  /** Every request of group `g` in the index, in order, duplicates kept. */
  function Requests(lines: seq<string>, g: Group): seq<string> {
    if |lines| == 0 then []
    else
      var before := lines[..|lines| - 1];
      var line := lines[|lines| - 1];
      Requests(before, g) + (if IsInstructionLine(before, line) then Requested(InstructionOf(line).value, g) else [])
  }

  /** Each required list is the de-duplicated list of every request for its
      group, in order of first declaration. */
  lemma {:induction false} OldRunFacts(lines: seq<string>)
    ensures OldRun(lines).readingHeader == HeaderAfter(lines)
    ensures forall g :: ListOf(OldRun(lines).required, g) == Dedup(Requests(lines, g))
    decreases |lines|
  {
    if |lines| > 0 {
      var before := lines[..|lines| - 1];
      var line := lines[|lines| - 1];
      OldRunFacts(before);
      var st := OldRun(before);
      forall g ensures ListOf(OldRun(lines).required, g) == Dedup(Requests(lines, g)) {
        if IsInstructionLine(before, line) {
          var ins := InstructionOf(line).value;
          assert OldRun(lines).required == Require(st.required, ins);
          assert ListOf(Require(st.required, ins), g) == AddAll(ListOf(st.required, g), Requested(ins, g));
          assert ListOf(st.required, g) == Dedup(Requests(before, g));
          assert Requests(lines, g) == Requests(before, g) + Requested(ins, g);
          AddAllDedup(Requests(before, g), Requested(ins, g));
        } else {
          assert OldRun(lines).required == st.required;
          assert ListOf(st.required, g) == Dedup(Requests(before, g));
          assert Requests(lines, g) == Requests(before, g) + [];
          assert Requests(before, g) + [] == Requests(before, g);
        }
      }
    }
  }
}

=== FILE: split.dfy ===
/** `String.prototype.split` for the three separators the bundler uses: a
    character class matching exactly one character (`/\n|\r/`, `"\n"`, `" "`)
    and a run of whitespace (`/\s+/`). JavaScript never returns an empty list
    here: splitting the empty string gives `[""]`. */
module JsSplit {
  import opened JsText

  predicate FreeOf(s: string, seps: set<char>) {
    forall i :: 0 <= i < |s| ==> s[i] !in seps
  }

  /** `s.split(sep)` where `sep` matches exactly one character of `seps`:
      every such character ends a piece, so adjacent separators give empty pieces. */
  function SplitOnChars(s: string, seps: set<char>): (r: seq<string>)
    ensures |r| >= 1
    ensures forall i :: 0 <= i < |r| ==> FreeOf(r[i], seps)
    decreases |s|
  {
    if |s| == 0 then [""]
    else if s[0] in seps then [""] + SplitOnChars(s[1..], seps)
    else
      var rest := SplitOnChars(s[1..], seps);
      [[s[0]] + rest[0]] + rest[1..]
  }

  /** `ls.join(sep)` for a one-character separator. */
  function JoinWith(ls: seq<string>, sep: char): string {
    if |ls| == 0 then ""
    else if |ls| == 1 then ls[0]
    else ls[0] + [sep] + JoinWith(ls[1..], sep)
  }

  /** `s` with every character of `seps` replaced by `c`. */
  function Normalize(s: string, seps: set<char>, c: char): (r: string)
    ensures |r| == |s|
  {
    if |s| == 0 then ""
    else [if s[0] in seps then c else s[0]] + Normalize(s[1..], seps, c)
  }

  lemma JoinPrepend(x: char, ls: seq<string>, sep: char)
    requires |ls| >= 1
    ensures JoinWith([[x] + ls[0]] + ls[1..], sep) == [x] + JoinWith(ls, sep)
  {
    var ms := [[x] + ls[0]] + ls[1..];
    if |ls| > 1 {
      assert ms[1..] == ls[1..];
    }
  }

  /** Joining the pieces back with `c` gives the input with every separator
      turned into `c`: no character is lost, reordered or invented. */
  lemma {:induction false} SplitThenJoin(s: string, seps: set<char>, c: char)
    ensures JoinWith(SplitOnChars(s, seps), c) == Normalize(s, seps, c)
    decreases |s|
  {
    if |s| == 0 {
    } else if s[0] in seps {
      var rest := SplitOnChars(s[1..], seps);
      SplitThenJoin(s[1..], seps, c);
      assert ([""] + rest)[1..] == rest;
    } else {
      var rest := SplitOnChars(s[1..], seps);
      SplitThenJoin(s[1..], seps, c);
      JoinPrepend(s[0], rest, c);
    }
  }

  lemma {:induction false} SplitPiece(w: string, c: char, t: string, seps: set<char>)
    requires FreeOf(w, seps) && c in seps
    ensures SplitOnChars(w + [c] + t, seps) == [w] + SplitOnChars(t, seps)
    decreases |w|
  {
    if |w| == 0 {
      assert w + [c] + t == [c] + t;
      assert ([c] + t)[1..] == t;
    } else {
      var s := w + [c] + t;
      assert s[1..] == w[1..] + [c] + t;
      SplitPiece(w[1..], c, t, seps);
      assert [w[0]] + w[1..] == w;
    }
  }

  lemma {:induction false} SplitSingle(w: string, seps: set<char>)
    requires FreeOf(w, seps)
    ensures SplitOnChars(w, seps) == [w]
    decreases |w|
  {
    if |w| > 0 {
      SplitSingle(w[1..], seps);
      assert [w[0]] + w[1..] == w;
    }
  }

  /** Splitting a join of separator-free pieces gives the pieces back. */
  lemma {:induction false} JoinThenSplit(ls: seq<string>, c: char, seps: set<char>)
    requires |ls| >= 1 && c in seps
    requires forall i :: 0 <= i < |ls| ==> FreeOf(ls[i], seps)
    ensures SplitOnChars(JoinWith(ls, c), seps) == ls
    decreases |ls|
  {
    if |ls| == 1 {
      SplitSingle(ls[0], seps);
    } else {
      JoinThenSplit(ls[1..], c, seps);
      SplitPiece(ls[0], c, JoinWith(ls[1..], c), seps);
      assert [ls[0]] + ls[1..] == ls;
    }
  }

  /** `s.split(/\s+/)`: pieces separated by maximal runs of whitespace. */
  function SplitSpace(s: string): (r: seq<string>)
    ensures |r| >= 1
    decreases |s|
  {
    if |s| == 0 then [""]
    else if IsSpace(s[0]) then [""] + SplitSpace(s[LeadingSpace(s)..])
    else
      var rest := SplitSpace(s[1..]);
      [[s[0]] + rest[0]] + rest[1..]
  }

  predicate HasSpace(s: string) {
    exists i :: 0 <= i < |s| && IsSpace(s[i])
  }

  /** The characters of `s` that are not whitespace, in order. */
  function DropSpace(s: string): (r: string)
    ensures |r| <= |s|
  {
    if |s| == 0 then "" else (if IsSpace(s[0]) then "" else [s[0]]) + DropSpace(s[1..])
  }

  lemma {:induction false} DropSpacePrefix(s: string, n: nat)
    requires n <= |s| && AllSpace(s[..n])
    ensures DropSpace(s) == DropSpace(s[n..])
    decreases n
  {
    if n > 0 {
      assert IsSpace(s[..n][0]);
      assert s[1..][..n - 1] == s[1..n];
      DropSpacePrefix(s[1..], n - 1);
      assert s[1..][n - 1..] == s[n..];
    }
  }

  /** No piece of `split(/\s+/)` holds whitespace. */
  lemma {:induction false} SplitSpaceNoSpace(s: string)
    ensures forall i :: 0 <= i < |SplitSpace(s)| ==> !HasSpace(SplitSpace(s)[i])
    decreases |s|
  {
    var r := SplitSpace(s);
    if |s| == 0 {
    } else if IsSpace(s[0]) {
      var rest := SplitSpace(s[LeadingSpace(s)..]);
      SplitSpaceNoSpace(s[LeadingSpace(s)..]);
      forall i | 0 <= i < |r|
        ensures !HasSpace(r[i])
      {
        if i > 0 {
          assert r[i] == rest[i - 1];
          assert !HasSpace(rest[i - 1]);
        }
      }
    } else {
      var rest := SplitSpace(s[1..]);
      SplitSpaceNoSpace(s[1..]);
      forall i | 0 <= i < |r|
        ensures !HasSpace(r[i])
      {
        if i > 0 {
          assert r[i] == rest[i];
          assert !HasSpace(rest[i]);
        }
      }
    }
  }

  /** The pieces of `split(/\s+/)`, concatenated, are exactly the
      non-whitespace characters of the input, in order. */
  lemma {:induction false} SplitSpaceConcat(s: string)
    ensures Concat(SplitSpace(s)) == DropSpace(s)
    decreases |s|
  {
    var r := SplitSpace(s);
    if |s| == 0 {
    } else if IsSpace(s[0]) {
      var n := LeadingSpace(s);
      SplitSpaceConcat(s[n..]);
      DropSpacePrefix(s, n);
    } else {
      var rest := SplitSpace(s[1..]);
      SplitSpaceConcat(s[1..]);
      assert r[1..] == rest[1..];
      assert Concat(rest) == rest[0] + Concat(rest[1..]);
    }
  }

  lemma HasSpaceTail(s: string)
    requires |s| > 0 && !IsSpace(s[0])
    ensures HasSpace(s) <==> HasSpace(s[1..])
  {
    if HasSpace(s) {
      var i :| 0 <= i < |s| && IsSpace(s[i]);
      assert s[1..][i - 1] == s[i];
    }
    if HasSpace(s[1..]) {
      var i :| 0 <= i < |s[1..]| && IsSpace(s[1..][i]);
      assert s[i + 1] == s[1..][i];
    }
  }

  /** Where the pieces `r` of `s` are empty. */
  predicate EmptyPiecesAt(s: string, r: seq<string>) {
    && |r| >= 1
    && (|r| == 1 <==> !HasSpace(s))
    && (r[0] == "" <==> |s| == 0 || IsSpace(s[0]))
    && (r[|r| - 1] == "" <==> |s| == 0 || IsSpace(s[|s| - 1]))
    && (forall i :: 0 < i < |r| - 1 ==> r[i] != "")
  }

  /** A text starting with whitespace ends with whitespace exactly when
      what follows its leading run is empty or ends with whitespace. */
  lemma SpaceRunLast(s: string)
    requires |s| > 0 && IsSpace(s[0])
    ensures var t := s[LeadingSpace(s)..];
      IsSpace(s[|s| - 1]) <==> |t| == 0 || IsSpace(t[|t| - 1])
  {
    var n := LeadingSpace(s);
    var t := s[n..];
    if |t| > 0 {
      assert t[|t| - 1] == s[|s| - 1];
    } else {
      assert s[..n][n - 1] == s[|s| - 1];
    }
  }

  /** An empty piece in front keeps the inner pieces non-empty. */
  lemma ConsEmpty(rest: seq<string>)
    requires |rest| >= 1 && (|rest| > 1 ==> rest[0] != "")
    requires forall i :: 0 < i < |rest| - 1 ==> rest[i] != ""
    ensures var r := [""] + rest;
      |r| >= 2 && r[0] == "" && r[|r| - 1] == rest[|rest| - 1] &&
      forall i :: 0 < i < |r| - 1 ==> r[i] != ""
  {
    var r := [""] + rest;
    forall i | 0 < i < |r| - 1
      ensures r[i] != ""
    {
      assert r[i] == rest[i - 1];
    }
  }

  /** A leading whitespace run becomes one empty first piece. */
  lemma EmptyPiecesSpace(s: string, rest: seq<string>)
    requires |s| > 0 && IsSpace(s[0]) && EmptyPiecesAt(s[LeadingSpace(s)..], rest)
    ensures EmptyPiecesAt(s, [""] + rest)
  {
    SpaceRunLast(s);
    assert HasSpace(s) by { assert IsSpace(s[0]); }
    ConsEmpty(rest);
  }

  /** Any other first character joins the first piece. */
  lemma EmptyPiecesWord(s: string, rest: seq<string>)
    requires |s| > 0 && !IsSpace(s[0]) && EmptyPiecesAt(s[1..], rest)
    ensures EmptyPiecesAt(s, [[s[0]] + rest[0]] + rest[1..])
  {
    var r := [[s[0]] + rest[0]] + rest[1..];
    HasSpaceTail(s);
    assert r[1..] == rest[1..];
    if |rest| > 1 {
      assert s[1..][|s[1..]| - 1] == s[|s| - 1];
    }
    forall i | 0 < i < |r| - 1
      ensures r[i] != ""
    {
      assert r[i] == rest[i];
    }
  }

  /** Where `split(/\s+/)` yields empty pieces: first exactly when the input is
      empty or starts with whitespace, last exactly when it is empty or ends
      with whitespace, nowhere else; a single piece exactly when the input has
      no whitespace at all. */
  lemma {:induction false} SplitSpaceEmptyPieces(s: string)
    ensures var r := SplitSpace(s);
      && (|r| == 1 <==> !HasSpace(s))
      && (r[0] == "" <==> |s| == 0 || IsSpace(s[0]))
      && (r[|r| - 1] == "" <==> |s| == 0 || IsSpace(s[|s| - 1]))
      && (forall i :: 0 < i < |r| - 1 ==> r[i] != "")
    decreases |s|
  {
    EmptyPiecesHold(s);
  }

  lemma {:induction false} EmptyPiecesHold(s: string)
    ensures EmptyPiecesAt(s, SplitSpace(s))
    decreases |s|
  {
    if |s| == 0 {
    } else if IsSpace(s[0]) {
      EmptyPiecesHold(s[LeadingSpace(s)..]);
      EmptyPiecesSpace(s, SplitSpace(s[LeadingSpace(s)..]));
    } else {
      EmptyPiecesHold(s[1..]);
      EmptyPiecesWord(s, SplitSpace(s[1..]));
    }
  }
}

=== FILE: store.dfy ===
/** The fragment cache and the assembler of the current bundler (bundler.js).
    Each fragment type (`LOCALS`, `GLOBALS`) has a directory, a cache of
    processed contents keyed by file name only, and the list of file names
    a watcher was registered for. The file system is a map from path to raw
    contents; a path that is not a key is a failed read. State is threaded
    explicitly: every operation returns its result together with the new state. */
module FragmentStore {
  import opened JsText
  import opened Directives
  import opened Transform

  type FileSystem = map<string, string>

  datatype Cache = Cache(dir: string, processed: map<string, string>, watchers: seq<string>)

  /** `FILES.LOCALS` and `FILES.GLOBALS`. */
  datatype Store = Store(locals: Cache, globals: Cache)

  /** What `getAndCacheContent` returns, and the state it leaves. */
  datatype Fetched = Fetched(content: string, store: Store)

  /** The text written to the bundle file, and the state after assembling it. */
  datatype Bundled = Bundled(text: string, store: Store)

  function CacheOf(st: Store, kind: FragmentType): Cache {
    match kind
    case Local => st.locals
    case Global => st.globals
  }

  function WithCache(st: Store, kind: FragmentType, c: Cache): (r: Store)
    ensures CacheOf(r, kind) == c
    ensures forall k :: k != kind ==> CacheOf(r, k) == CacheOf(st, k)
  {
    match kind
    case Local => st.(locals := c)
    case Global => st.(globals := c)
  }

  function PathOf(c: Cache, name: string): string {
    c.dir + name + ".js"
  }

  function EmptyNote(path: string): string {
    "/* File " + path + " is empty. */\n"
  }

  function MissingNote(path: string): string {
    "/* File " + path + " wasn't found. */\n"
  }

  /** `/^(\s|\n|\r)+$/` without the multiline flag: non-empty and all whitespace. */
  predicate Blank(s: string) {
    |s| > 0 && AllSpace(s)
  }

  predicate NoDup(xs: seq<string>) {
    forall i, j :: 0 <= i < j < |xs| ==> xs[i] != xs[j]
  }

  /** A cache entry that `getAndCacheContent` answers from without reading:
      one that is non-empty (a whitespace-only entry is answered with the
      empty-file note). An empty entry is falsy and is read again. */
  predicate Hit(c: Cache, name: string) {
    name in c.processed && c.processed[name] != ""
  }

  /** The cache entry of `name`, if any. */
  function Entry(st: Store, kind: FragmentType, name: string): Option<string> {
    var c := CacheOf(st, kind);
    if name in c.processed then Some(c.processed[name]) else None
  }

  /** What the cache shows for `name`, without processing anything. */
  function View(st: Store, fs: FileSystem, kind: FragmentType, name: string): string {
    var c := CacheOf(st, kind);
    var path := PathOf(c, name);
    if Hit(c, name) && Blank(c.processed[name]) then EmptyNote(path)
    else if Hit(c, name) then c.processed[name]
    else if path !in fs then MissingNote(path)
    else ""
  }

  /** A fragment for which `getAndCacheContent` changes nothing, whatever the
      offset: it is a cache hit, its file is missing, or it is cached empty,
      watched, and its file still processes to nothing. */
  predicate Stable(st: Store, fs: FileSystem, kind: FragmentType, name: string) {
    var c := CacheOf(st, kind);
    var path := PathOf(c, name);
    || Hit(c, name)
    || path !in fs
    || (name in c.processed && name in c.watchers && StripComments(fs[path], true) == "")
  }

  /** getAndCacheContent. */
  function Get(st: Store, fs: FileSystem, kind: FragmentType, name: string, leftOffset: nat): (r: Fetched)
    // only the entry and watcher of `name`, in the cache of `kind`, can change
    ensures forall k :: k != kind ==> CacheOf(r.store, k) == CacheOf(st, k)
    ensures CacheOf(r.store, kind).dir == CacheOf(st, kind).dir
    ensures CacheOf(r.store, kind).processed - {name} == CacheOf(st, kind).processed - {name}
    ensures var w := CacheOf(st, kind).watchers; var w' := CacheOf(r.store, kind).watchers;
      w' == w || (name !in w && w' == w + [name])
    // a hit is answered from the cache alone
    ensures Hit(CacheOf(st, kind), name) ==> r.store == st
    // a failed read leaves the state alone and says so
    ensures !Hit(CacheOf(st, kind), name) && PathOf(CacheOf(st, kind), name) !in fs ==>
      r == Fetched(MissingNote(PathOf(CacheOf(st, kind), name)), st)
    // otherwise the file is processed at this offset, cached and watched
    ensures var c := CacheOf(st, kind); var path := PathOf(c, name);
      !Hit(c, name) && path in fs ==>
        var c' := CacheOf(r.store, kind);
        name in c'.processed && c'.processed[name] == Process(fs[path], leftOffset) && name in c'.watchers
    // whitespace-only content is never handed out
    ensures !Blank(r.content)
    // the answer is what the new state shows, and asking again changes nothing
    ensures r.content == View(r.store, fs, kind, name)
    ensures Stable(r.store, fs, kind, name)
  {
    var c := CacheOf(st, kind);
    var path := PathOf(c, name);
    NotesNotBlank(path);
    if Hit(c, name) && Blank(c.processed[name]) then Fetched(EmptyNote(path), st)
    else if Hit(c, name) then Fetched(c.processed[name], st)
    else if path !in fs then Fetched(MissingNote(path), st)
    else ReadAndCache(st, fs, kind, name, leftOffset)
  }

  /** The branch of getAndCacheContent that reads the file: it is processed
      at `leftOffset`, stored, and watched once. */
  function ReadAndCache(st: Store, fs: FileSystem, kind: FragmentType, name: string, leftOffset: nat): (r: Fetched)
    requires !Hit(CacheOf(st, kind), name) && PathOf(CacheOf(st, kind), name) in fs
    ensures forall k :: k != kind ==> CacheOf(r.store, k) == CacheOf(st, k)
    ensures var c := CacheOf(st, kind); var c' := CacheOf(r.store, kind);
      && c'.dir == c.dir
      && c'.processed == c.processed[name := Process(fs[PathOf(c, name)], leftOffset)]
      && c'.watchers == if name in c.watchers then c.watchers else c.watchers + [name]
    ensures !Blank(r.content)
    ensures r.content == View(r.store, fs, kind, name)
    ensures Stable(r.store, fs, kind, name)
  {
    var c := CacheOf(st, kind);
    var path := PathOf(c, name);
    NotesNotBlank(path);
    var p := Process(fs[path], leftOffset);
    var c' := c.(processed := c.processed[name := p],
                 watchers := if name in c.watchers then c.watchers else c.watchers + [name]);

    assert p == "" <==> StripComments(fs[path], true) == "";
    Fetched(if Blank(p) then EmptyNote(path) else p, WithCache(st, kind, c'))
  }

  lemma NotesNotBlank(path: string)
    ensures !Blank(EmptyNote(path)) && !Blank(MissingNote(path))
  {
    assert EmptyNote(path)[1] == '*';
    assert MissingNote(path)[1] == '*';
  }

  /** A cache hit depends neither on the disk nor on the offset asked for:
      the cache is keyed by file name only, so a fragment referenced at two
      columns is indented for the first one that processed it. */
  lemma HitIgnoresDiskAndOffset(st: Store, fs1: FileSystem, fs2: FileSystem, kind: FragmentType,
                                name: string, off1: nat, off2: nat)
    requires Hit(CacheOf(st, kind), name)
    ensures Get(st, fs1, kind, name, off1) == Get(st, fs2, kind, name, off2)
    ensures Get(st, fs1, kind, name, off1).store == st
  {
  }

  /** Once stable, a fragment is answered from the state alone, at any offset. */
  lemma {:induction false} StableGet(st: Store, fs: FileSystem, kind: FragmentType, name: string, leftOffset: nat)
    requires Stable(st, fs, kind, name)
    ensures Get(st, fs, kind, name, leftOffset) == Fetched(View(st, fs, kind, name), st)
  {
    var c := CacheOf(st, kind);
    var path := PathOf(c, name);
    if !Hit(c, name) && path in fs {

      assert c.processed[name := ""] == c.processed;
      assert c.(processed := c.processed[name := ""]) == c;
    }
  }

  /** Asking twice is asking once. */
  lemma GetIdempotent(st: Store, fs: FileSystem, kind: FragmentType, name: string, leftOffset: nat)
    ensures var r := Get(st, fs, kind, name, leftOffset);
      Get(r.store, fs, kind, name, leftOffset) == r
  {
    StableGet(Get(st, fs, kind, name, leftOffset).store, fs, kind, name, leftOffset);
  }

  /** Watchers are registered at most once per type and file name. */
  lemma GetKeepsWatchersUnique(st: Store, fs: FileSystem, kind: FragmentType, name: string, leftOffset: nat)
    requires NoDup(st.locals.watchers) && NoDup(st.globals.watchers)
    ensures var r := Get(st, fs, kind, name, leftOffset);
      NoDup(r.store.locals.watchers) && NoDup(r.store.globals.watchers)
  {
  }

  /** Getting another fragment, of either type, keeps a stable one stable and
      keeps what the cache shows for it. */
  lemma GetKeepsOthers(st: Store, fs: FileSystem, kind: FragmentType, name: string, leftOffset: nat,
                       k: FragmentType, n: string)
    requires Stable(st, fs, k, n)
    ensures var r := Get(st, fs, kind, name, leftOffset);
      && Stable(r.store, fs, k, n) && View(r.store, fs, k, n) == View(st, fs, k, n)
      && Entry(r.store, k, n) == Entry(st, k, n)
  {
    var r := Get(st, fs, kind, name, leftOffset);
    if k == kind && n == name {
      StableGet(st, fs, k, n, leftOffset);
    } else if k == kind {
      var c := CacheOf(st, kind);
      var c' := CacheOf(r.store, kind);
      assert n in c.processed <==> n in c.processed - {name};
      assert n in c'.processed <==> n in c'.processed - {name};
      if n in c.processed {
        assert c'.processed[n] == (c'.processed - {name})[n];
        assert c.processed[n] == (c.processed - {name})[n];
      }
    }
  }

  /** A segment's contribution to the bundle. */
  function Fetch(st: Store, fs: FileSystem, seg: Segment): Fetched {
    match seg
    case Text(content) => Fetched(content, st)
    case Ref(kind, fileName, leftOffset) => Get(st, fs, kind, fileName, leftOffset)
  }

  /** The inner `forEach` of updateBundle over a list of segments. */
  function Assemble(st: Store, fs: FileSystem, segs: seq<Segment>): Bundled
    decreases |segs|
  {
    if |segs| == 0 then Bundled("", st)
    else
      var f := Fetch(st, fs, segs[0]);
      var rest := Assemble(f.store, fs, segs[1..]);
      Bundled(f.content + rest.text, rest.store)
  }

  /** updateBundle: the four segment lists in order; the returned text is what
      is written to the bundle file. It is the four lists rendered one after
      the other from the final state, in which every referenced fragment is
      stable. */
  function UpdateBundle(st: Store, fs: FileSystem, pc: ProcessedContent): (b: Bundled)
    ensures AllStable(b.store, fs, Segments(pc))
    ensures b.text == Render(b.store, fs, pc.topOfFile) + Render(b.store, fs, pc.beforeIndex)
                      + Render(b.store, fs, pc.indexContent) + Render(b.store, fs, pc.afterIndex)
  {
    var b := Assemble(st, fs, Segments(pc));
    AssembleRenders(st, fs, Segments(pc));
    RenderAppend(b.store, fs, pc.topOfFile + pc.beforeIndex + pc.indexContent, pc.afterIndex);
    RenderAppend(b.store, fs, pc.topOfFile + pc.beforeIndex, pc.indexContent);
    RenderAppend(b.store, fs, pc.topOfFile, pc.beforeIndex);
    b
  }

  /** The four segment lists in bundle order. */
  function Segments(pc: ProcessedContent): seq<Segment> {
    pc.topOfFile + pc.beforeIndex + pc.indexContent + pc.afterIndex
  }

  /** fileWatcher: the entry of the changed file is dropped, the file is
      fetched again at the offset its watcher captured, and the bundle is
      rebuilt from the current segment lists. The entry of the changed file
      is then exactly its new contents processed at that offset, or absent
      when the file can no longer be read, and rebuilding once more changes
      nothing. */
  function FileWatcher(st: Store, fs: FileSystem, kind: FragmentType, name: string, leftOffset: nat,
                       pc: ProcessedContent): (b: Bundled)
    ensures var c' := CacheOf(b.store, kind); var path := PathOf(CacheOf(st, kind), name);
      && (path in fs ==> name in c'.processed && c'.processed[name] == Process(fs[path], leftOffset))
      && (path !in fs ==> name !in c'.processed)
    ensures UpdateBundle(b.store, fs, pc) == b
  {
    var c := CacheOf(st, kind);
    var cleared := WithCache(st, kind, c.(processed := c.processed - {name}));
    var g := Get(cleared, fs, kind, name, leftOffset);
    var one := [Ref(kind, name, leftOffset)];
    assert AllStable(g.store, fs, one);
    AssembleKeeps(g.store, fs, Segments(pc), one);
    assert one[0].Ref?;
    UpdateBundleIdempotent(g.store, fs, pc);
    UpdateBundle(g.store, fs, pc)
  }

  /** The reference definition of a bundle: each segment shown as the
      state shows it, text verbatim. */
  function Render(st: Store, fs: FileSystem, segs: seq<Segment>): string
    decreases |segs|
  {
    if |segs| == 0 then ""
    else
      (match segs[0]
       case Text(content) => content
       case Ref(kind, fileName, _) => View(st, fs, kind, fileName))
      + Render(st, fs, segs[1..])
  }

  predicate AllStable(st: Store, fs: FileSystem, segs: seq<Segment>) {
    forall i :: 0 <= i < |segs| && segs[i].Ref? ==> Stable(st, fs, segs[i].kind, segs[i].fileName)
  }

  predicate SameEntries(st: Store, st': Store, segs: seq<Segment>) {
    forall i :: 0 <= i < |segs| && segs[i].Ref? ==>
      Entry(st', segs[i].kind, segs[i].fileName) == Entry(st, segs[i].kind, segs[i].fileName)
  }

  /** Every fetch keeps stable fragments stable and their views unchanged. */
  lemma FetchKeepsOthers(st: Store, fs: FileSystem, seg: Segment, segs: seq<Segment>)
    requires AllStable(st, fs, segs)
    ensures var f := Fetch(st, fs, seg);
      && AllStable(f.store, fs, segs) && Render(f.store, fs, segs) == Render(st, fs, segs)
      && SameEntries(st, f.store, segs)
    decreases |segs|
  {
    var f := Fetch(st, fs, seg);
    if seg.Ref? {
      forall i | 0 <= i < |segs| && segs[i].Ref?
        ensures Stable(f.store, fs, segs[i].kind, segs[i].fileName)
        ensures Entry(f.store, segs[i].kind, segs[i].fileName) == Entry(st, segs[i].kind, segs[i].fileName)
      {
        GetKeepsOthers(st, fs, seg.kind, seg.fileName, seg.leftOffset, segs[i].kind, segs[i].fileName);
      }
      if |segs| > 0 {
        FetchKeepsOthers(st, fs, seg, segs[1..]);
        if segs[0].Ref? {
          GetKeepsOthers(st, fs, seg.kind, seg.fileName, seg.leftOffset, segs[0].kind, segs[0].fileName);
        }
      }
    }
  }

  lemma AllStableJoin(st: Store, fs: FileSystem, a: seq<Segment>, b: seq<Segment>)
    requires AllStable(st, fs, a) && AllStable(st, fs, b)
    ensures AllStable(st, fs, a + b)
  {
    forall i | 0 <= i < |a + b| && (a + b)[i].Ref?
      ensures Stable(st, fs, (a + b)[i].kind, (a + b)[i].fileName)
    {
      if i >= |a| {
        assert (a + b)[i] == b[i - |a|];
      }
    }
  }

  /** Assembling leaves every referenced fragment stable, and the text it
      produced is the rendering of the final state. */
  lemma {:induction false} AssembleRenders(st: Store, fs: FileSystem, segs: seq<Segment>)
    ensures var b := Assemble(st, fs, segs);
      AllStable(b.store, fs, segs) && b.text == Render(b.store, fs, segs)
    decreases |segs|
  {
    if |segs| > 0 {
      var f := Fetch(st, fs, segs[0]);
      var rest := Assemble(f.store, fs, segs[1..]);
      AssembleRenders(f.store, fs, segs[1..]);
      var head := [segs[0]];
      assert head + segs[1..] == segs;
      assert AllStable(f.store, fs, head);
      assert Render(f.store, fs, head) == f.content;
      AssembleKeeps(f.store, fs, segs[1..], head);
      AllStableJoin(rest.store, fs, head, segs[1..]);
      RenderAppend(rest.store, fs, head, segs[1..]);
    }
  }

  /** Assembling keeps stable fragments stable and their views unchanged. */
  lemma {:induction false} AssembleKeeps(st: Store, fs: FileSystem, segs: seq<Segment>, others: seq<Segment>)
    requires AllStable(st, fs, others)
    ensures var b := Assemble(st, fs, segs);
      && AllStable(b.store, fs, others) && Render(b.store, fs, others) == Render(st, fs, others)
      && SameEntries(st, b.store, others)
    decreases |segs|
  {
    if |segs| > 0 {
      var f := Fetch(st, fs, segs[0]);
      FetchKeepsOthers(st, fs, segs[0], others);
      AssembleKeeps(f.store, fs, segs[1..], others);
    }
  }

  /** When every referenced fragment is stable, assembling reads nothing,
      changes nothing and yields the rendering of the state. */
  lemma {:induction false} AssembleStable(st: Store, fs: FileSystem, segs: seq<Segment>)
    requires AllStable(st, fs, segs)
    ensures Assemble(st, fs, segs) == Bundled(Render(st, fs, segs), st)
    decreases |segs|
  {
    if |segs| > 0 {
      if segs[0].Ref? {
        StableGet(st, fs, segs[0].kind, segs[0].fileName, segs[0].leftOffset);
      }
      assert AllStable(st, fs, segs[1..]) by {
        forall i | 0 <= i < |segs[1..]| && segs[1..][i].Ref?
          ensures Stable(st, fs, segs[1..][i].kind, segs[1..][i].fileName)
        {
          assert segs[1..][i] == segs[i + 1];
        }
      }
      AssembleStable(st, fs, segs[1..]);
    }
  }

  /** Rebuilding the bundle without a change on disk yields the same text
      and the same state. */
  lemma UpdateBundleIdempotent(st: Store, fs: FileSystem, pc: ProcessedContent)
    ensures var b := UpdateBundle(st, fs, pc);
      UpdateBundle(b.store, fs, pc) == b
  {
    AssembleRenders(st, fs, Segments(pc));
    AssembleStable(Assemble(st, fs, Segments(pc)).store, fs, Segments(pc));
  }

  lemma {:induction false} RenderAppend(st: Store, fs: FileSystem, a: seq<Segment>, b: seq<Segment>)
    ensures Render(st, fs, a + b) == Render(st, fs, a) + Render(st, fs, b)
    decreases |a|
  {
    if |a| == 0 {
      assert a + b == b;
    } else {
      assert (a + b)[1..] == a[1..] + b;
      RenderAppend(st, fs, a[1..], b);
    }
  }

  /** Text segments are copied into the bundle verbatim, with no read. */
  lemma {:induction false} TextOnlyVerbatim(st: Store, fs: FileSystem, segs: seq<Segment>)
    requires forall i :: 0 <= i < |segs| ==> segs[i].Text?
    ensures Assemble(st, fs, segs) == Bundled(Concat(seq(|segs|, i requires 0 <= i < |segs| => segs[i].content)), st)
    decreases |segs|
  {
    if |segs| > 0 {
      TextOnlyVerbatim(st, fs, segs[1..]);
      var all := seq(|segs|, i requires 0 <= i < |segs| => segs[i].content);
      assert all[1..] == seq(|segs[1..]|, i requires 0 <= i < |segs[1..]| => segs[1..][i].content);
    }
  }
}

=== FILE: text.dfy ===
/** Character classes of JavaScript regular expressions and the small string
    helpers that the hand-coded regular expressions of the bundler are built
    from. Strings are sequences of characters; JavaScript works on UTF-16 code
    units, and none of the classes below depends on the difference. */
module JsText {

  /** The `\s` class of a JavaScript regular expression. */
  predicate IsSpace(c: char) {
    || c == '\t' || c == '\n' || c == '\U{000B}' || c == '\U{000C}' || c == '\r' || c == ' '
    || c == '\U{00A0}' || c == '\U{1680}' || ('\U{2000}' <= c <= '\U{200A}')
    || c == '\U{2028}' || c == '\U{2029}' || c == '\U{202F}' || c == '\U{205F}'
    || c == '\U{3000}' || c == '\U{FEFF}'
  }

  /** Line terminators: the characters `.` does not match, and the ones that
      `^` and `$` stop at in multiline mode. Every one of them is whitespace. */
  predicate IsLineTerminator(c: char) {
    c == '\n' || c == '\r' || c == '\U{2028}' || c == '\U{2029}'
  }

  /** The `\w` class: ASCII letters, digits and the underscore. */
  predicate IsWordChar(c: char) {
    ('a' <= c <= 'z') || ('A' <= c <= 'Z') || ('0' <= c <= '9') || c == '_'
  }

  predicate AllSpace(s: string) {
    forall i :: 0 <= i < |s| ==> IsSpace(s[i])
  }

  predicate AllWord(s: string) {
    forall i :: 0 <= i < |s| ==> IsWordChar(s[i])
  }

  predicate NoLineTerminator(s: string) {
    forall i :: 0 <= i < |s| ==> !IsLineTerminator(s[i])
  }

  /** What a greedy `\s*` consumes at the start of `s`. */
  function LeadingSpace(s: string): (n: nat)
    ensures n <= |s|
    ensures AllSpace(s[..n])
    ensures n < |s| ==> !IsSpace(s[n])
  {
    if |s| == 0 || !IsSpace(s[0]) then 0
    else
      var m := LeadingSpace(s[1..]);
      assert s[..1 + m] == [s[0]] + s[1..][..m];
      1 + m
  }

  /** What a greedy `\w*` consumes at the start of `s`. */
  function LeadingWord(s: string): (n: nat)
    ensures n <= |s|
    ensures AllWord(s[..n])
    ensures n < |s| ==> !IsWordChar(s[n])
  {
    if |s| == 0 || !IsWordChar(s[0]) then 0
    else
      var m := LeadingWord(s[1..]);
      assert s[..1 + m] == [s[0]] + s[1..][..m];
      1 + m
  }

  /** What a greedy `.*` consumes at the start of `s`: everything up to the
      first line terminator. */
  function LineLength(s: string): (n: nat)
    ensures n <= |s|
    ensures NoLineTerminator(s[..n])
    ensures n < |s| ==> IsLineTerminator(s[n])
  {
    if |s| == 0 || IsLineTerminator(s[0]) then 0
    else
      var m := LineLength(s[1..]);
      assert s[..1 + m] == [s[0]] + s[1..][..m];
      1 + m
  }

  predicate StartsWith(s: string, prefix: string) {
    |prefix| <= |s| && s[..|prefix|] == prefix
  }

  /** `s.includes(t)`. */
  predicate Contains(s: string, t: string)
    decreases |s|
  {
    StartsWith(s, t) || (|s| > 0 && Contains(s[1..], t))
  }

  lemma {:induction false} ContainsAt(s: string, t: string, k: nat)
    requires k <= |s| && StartsWith(s[k..], t)
    ensures Contains(s, t)
    decreases k
  {
    if k > 0 {
      assert s[1..][k - 1..] == s[k..];
      ContainsAt(s[1..], t, k - 1);
    }
  }

  /** `s.indexOf(t)`: the first position at which `t` occurs, or -1. */
  function IndexOf(s: string, t: string): (k: int)
    ensures -1 <= k <= |s|
    ensures k >= 0 <==> Contains(s, t)
    ensures k >= 0 ==> StartsWith(s[k..], t)
    ensures k >= 0 ==> forall j :: 0 <= j < k ==> !StartsWith(s[j..], t)
    decreases |s|
  {
    if StartsWith(s, t) then 0
    else if |s| == 0 then -1
    else
      var k := IndexOf(s[1..], t);
      if k < 0 then -1
      else
        assert forall j :: 1 <= j <= k ==> s[j..] == s[1..][j - 1..];
        k + 1
  }

  /** The concatenation of a list of strings. */
  function Concat(ss: seq<string>): string {
    if |ss| == 0 then "" else ss[0] + Concat(ss[1..])
  }

  lemma {:induction false} ConcatAppend(a: seq<string>, b: seq<string>)
    ensures Concat(a + b) == Concat(a) + Concat(b)
    decreases |a|
  {
    if |a| == 0 {
      assert a + b == b;
    } else {
      assert (a + b)[1..] == a[1..] + b;
      ConcatAppend(a[1..], b);
    }
  }
}

=== FILE: transform.dfy ===
/** The three-step clean-up the current bundler applies to a fragment before
    caching it (bundler.js:139-145), each step written out as the scan its
    regular expression performs:
      1. `replace(/^\s*\/\/.*\/gm, "")` drops whole-line comments, together with
         any blank lines in front of them (`\s*` crosses line ends);
      2. `replace(/\n+/g, "\n" + indent)` collapses each run of newlines into
         one newline followed by the block's indentation;
      3. `replace(/\n(\s*)$/, "\n")` cuts the trailing whitespace back to a
         single newline. */
module Transform {
  import opened JsText
  import opened JsSplit

  /** Length of the match of `\s*\/\/.*` at the head of `s`, or 0 when there is
      none: the whitespace run must be followed by two slashes, and the match
      then runs to the end of that line. */
  function CommentMatch(s: string): (n: nat)
    ensures n <= |s|
    ensures n > 0 ==> n == |s| || IsLineTerminator(s[n])
  {
    var q := LeadingSpace(s);
    if StartsWith(s[q..], "//") then
      var n := q + 2 + LineLength(s[q + 2..]);
      assert n < |s| ==> s[n] == s[q + 2..][n - q - 2];
      n
    else 0
  }

  /** Step 1, scanning from the head of `s`; `atLineStart` says whether `^`
      holds there (the previous character was a line terminator, or there is
      none). After a match the scan resumes where it ended, which is never a
      line start. */
  function StripComments(s: string, atLineStart: bool): string
    decreases |s|
  {
    if |s| == 0 then ""
    else if atLineStart && CommentMatch(s) > 0 then StripComments(s[CommentMatch(s)..], false)
    else [s[0]] + StripComments(s[1..], IsLineTerminator(s[0]))
  }

  /** No position where `^` holds starts a comment match. */
  predicate CommentFree(s: string, atLineStart: bool)
    decreases |s|
  {
    |s| == 0 || (!(atLineStart && CommentMatch(s) > 0) && CommentFree(s[1..], IsLineTerminator(s[0])))
  }

  /** A leading whitespace character does not change whether a comment match starts. */
  lemma CommentMatchShift(c: char, x: string)
    requires IsSpace(c)
    ensures CommentMatch([c] + x) > 0 <==> CommentMatch(x) > 0
  {
    var s := [c] + x;
    assert s[1..] == x;
    var q := LeadingSpace(x);
    assert LeadingSpace(s) == 1 + q;
    assert s[1 + q..] == x[q..];
  }

  /** Stripping never creates a comment match at the head of a string that had none. */
  lemma {:induction false} NoMatchPreserved(t: string, b: bool)
    requires CommentMatch(t) == 0
    ensures CommentMatch(StripComments(t, b)) == 0
    decreases |t|
  {
    if |t| == 0 {
      return;
    }
    var x := StripComments(t[1..], IsLineTerminator(t[0]));
    assert StripComments(t, b) == [t[0]] + x;
    assert t == [t[0]] + t[1..];
    if IsSpace(t[0]) {
      CommentMatchShift(t[0], t[1..]);
      NoMatchPreserved(t[1..], IsLineTerminator(t[0]));
      CommentMatchShift(t[0], x);
    } else {
      var s := [t[0]] + x;
      assert LeadingSpace(s) == 0;
      assert s[0..] == s;
      if t[0] == '/' && |t| > 1 {
        assert !StartsWith(t, "//");
        assert x[0] == t[1];
      }
    }
  }

  /** The output of step 1 holds no whole-line comment left to strip. */
  lemma {:induction false} StripIsCommentFree(s: string, a: bool)
    ensures CommentFree(StripComments(s, a), a)
    decreases |s|
  {
    if |s| == 0 {
    } else if a && CommentMatch(s) > 0 {
      var u := s[CommentMatch(s)..];
      if |u| > 0 {
        var x := StripComments(u[1..], true);
        assert StripComments(u, false) == [u[0]] + x;
        StripIsCommentFree(u[1..], true);
        CommentMatchShift(u[0], x);
        assert ([u[0]] + x)[1..] == x;
      }
    } else {
      var x := StripComments(s[1..], IsLineTerminator(s[0]));
      StripIsCommentFree(s[1..], IsLineTerminator(s[0]));
      if a {
        assert StripComments(s, false) == [s[0]] + x;
        NoMatchPreserved(s, false);
      }
      assert ([s[0]] + x)[1..] == x;
    }
  }

  /** A comment-free string passes step 1 unchanged. */
  lemma {:induction false} StripFixesCommentFree(s: string, a: bool)
    requires CommentFree(s, a)
    ensures StripComments(s, a) == s
    decreases |s|
  {
    if |s| > 0 {
      StripFixesCommentFree(s[1..], IsLineTerminator(s[0]));
    }
  }

  /** Step 1 is idempotent: stripping twice strips nothing more. */
  lemma StripIdempotent(s: string)
    ensures StripComments(StripComments(s, true), true) == StripComments(s, true)
  {
    StripIsCommentFree(s, true);
    StripFixesCommentFree(StripComments(s, true), true);
  }

  /** A non-empty prefix without whitespace throughout keeps the leading whitespace count. */
  lemma {:induction false} LeadingSpaceAppend(line: string, rest: string)
    requires LeadingSpace(line) < |line|
    ensures LeadingSpace(line + rest) == LeadingSpace(line)
    decreases |line|
  {
    var s := line + rest;
    if IsSpace(line[0]) {
      assert s[1..] == line[1..] + rest;
      LeadingSpaceAppend(line[1..], rest);
    }
  }

  /** Inside a line, step 1 copies characters up to the line's end. */
  lemma {:induction false} StripWithinLine(line: string, rest: string)
    requires NoLineTerminator(line)
    ensures StripComments(line + rest, false) == line + StripComments(rest, false)
    decreases |line|
  {
    if |line| == 0 {
      assert line + rest == rest;
    } else {
      var s := line + rest;
      assert s[0] == line[0] && s[1..] == line[1..] + rest;
      StripWithinLine(line[1..], rest);
      assert [line[0]] + line[1..] == line;
    }
  }

  /** No comment match starts at the head of a line holding code. */
  lemma NoCommentAtCode(line: string, rest: string)
    requires NoLineTerminator(line) && LeadingSpace(line) < |line|
    requires !StartsWith(line[LeadingSpace(line)..], "//")
    requires |rest| == 0 || IsLineTerminator(rest[0])
    ensures CommentMatch(line + rest) == 0
  {
    var s := line + rest;
    var q := LeadingSpace(line);
    LeadingSpaceAppend(line, rest);
    assert LeadingSpace(s) == q;
    NotSlashes(line, rest, q);
  }

  lemma NotSlashes(line: string, rest: string, q: nat)
    requires q < |line| && !StartsWith(line[q..], "//")
    requires |rest| == 0 || IsLineTerminator(rest[0])
    ensures !StartsWith((line + rest)[q..], "//")
  {
    var s := line + rest;
    if q + 1 < |line| {
      assert line[q..][..2] == s[q..][..2];
    } else if |rest| > 0 {
      assert s[q..][1] == rest[0];
    }
  }

  /** When the scan reaches the start of a line holding code (a character
      that is not whitespace, and no `//` right after the leading
      whitespace), step 1 copies that line whole. */
  lemma StripKeepsCodeLine(line: string, rest: string)
    requires NoLineTerminator(line) && LeadingSpace(line) < |line|
    requires !StartsWith(line[LeadingSpace(line)..], "//")
    requires |rest| == 0 || IsLineTerminator(rest[0])
    ensures StripComments(line + rest, true) == line + StripComments(rest, false)
  {
    NoCommentAtCode(line, rest);
    StripLineHead(line, rest);
    StripWithinLine(line[1..], rest);
    ConsLine(line, StripComments(rest, false));
  }

  lemma StripLineHead(line: string, rest: string)
    requires |line| > 0 && !IsLineTerminator(line[0]) && CommentMatch(line + rest) == 0
    ensures StripComments(line + rest, true) == [line[0]] + StripComments(line[1..] + rest, false)
  {
    StripCopiesHead(line + rest, true);
    assert (line + rest)[1..] == line[1..] + rest;
  }

  lemma ConsLine(line: string, x: string)
    requires |line| > 0
    ensures [line[0]] + (line[1..] + x) == line + x
  {
    assert [line[0]] + line[1..] == line;
  }

  /** Where no comment match starts, step 1 copies the first character. */
  lemma StripCopiesHead(s: string, a: bool)
    requires |s| > 0 && !(a && CommentMatch(s) > 0)
    ensures StripComments(s, a) == [s[0]] + StripComments(s[1..], IsLineTerminator(s[0]))
  {
  }

  /** The non-whitespace characters of a concatenation. */
  lemma {:induction false} DropSpaceAppend(a: string, b: string)
    ensures DropSpace(a + b) == DropSpace(a) + DropSpace(b)
    decreases |a|
  {
    if |a| == 0 {
      assert a + b == b;
    } else {
      assert (a + b)[1..] == a[1..] + b;
      DropSpaceAppend(a[1..], b);
    }
  }

  lemma DropAllSpace(s: string)
    requires AllSpace(s)
    ensures DropSpace(s) == ""
  {
    DropSpacePrefix(s, |s|);
    assert s[..|s|] == s;
  }

  /** Number of newlines at the head of `s`: what a greedy `\n+` consumes. */
  function NewlineRun(s: string): (n: nat)
    ensures n <= |s|
    ensures n < |s| ==> s[n] != '\n'
    ensures forall i :: 0 <= i < n ==> s[i] == '\n'
  {
    if |s| == 0 || s[0] != '\n' then 0 else 1 + NewlineRun(s[1..])
  }

  function Spaces(n: nat): (r: string)
    ensures |r| == n
    ensures forall i :: 0 <= i < n ==> r[i] == ' '
  {
    if n == 0 then "" else " " + Spaces(n - 1)
  }

  /** Step 2: every run of newlines becomes one newline followed by `indent`. */
  function CollapseNewlines(s: string, indent: string): string
    decreases |s|
  {
    if |s| == 0 then ""
    else if s[0] == '\n' then "\n" + indent + CollapseNewlines(s[NewlineRun(s)..], indent)
    else [s[0]] + CollapseNewlines(s[1..], indent)
  }

  /** Every newline of `r` is followed by `k` spaces. */
  predicate Indented(r: string, k: nat) {
    forall i :: 0 <= i < |r| && r[i] == '\n' ==>
      i + k < |r| && forall j :: i < j <= i + k ==> r[j] == ' '
  }

  /** No newline of `r` has another newline right after its `k` spaces. */
  predicate NoBlankAfterIndent(r: string, k: nat) {
    forall i :: 0 <= i < |r| - k - 1 && r[i] == '\n' ==> r[i + k + 1] != '\n'
  }

  /** Putting a newline and the indentation in front of a text that does not
      start with a newline keeps both properties. */
  lemma IndentAfterNewline(x: string, k: nat)
    requires Indented(x, k) && NoBlankAfterIndent(x, k) && (|x| > 0 ==> x[0] != '\n')
    ensures Indented("\n" + Spaces(k) + x, k) && NoBlankAfterIndent("\n" + Spaces(k) + x, k)
  {
    var r := "\n" + Spaces(k) + x;
    forall i | 0 <= i < |r| && r[i] == '\n'
      ensures i + k < |r| && forall j :: i < j <= i + k ==> r[j] == ' '
    {
      if i > 0 {
        assert r[i] == x[i - k - 1];
        forall j | i < j <= i + k ensures r[j] == ' ' {
          assert r[j] == x[j - k - 1];
        }
      }
    }
    forall i | 0 <= i < |r| - k - 1 && r[i] == '\n'
      ensures r[i + k + 1] != '\n'
    {
      if i > 0 {
        assert r[i] == x[i - k - 1];
        assert r[i + k + 1] == x[i - k - 1 + k + 1];
      } else {
        assert r[k + 1] == x[0];
      }
    }
  }

  /** Putting any other character in front keeps both properties. */
  lemma IndentAfterChar(c: char, x: string, k: nat)
    requires c != '\n' && Indented(x, k) && NoBlankAfterIndent(x, k)
    ensures Indented([c] + x, k) && NoBlankAfterIndent([c] + x, k)
  {
    var r := [c] + x;
    forall i | 0 <= i < |r| && r[i] == '\n'
      ensures i + k < |r| && forall j :: i < j <= i + k ==> r[j] == ' '
    {
      assert x[i - 1] == '\n';
      forall j | i < j <= i + k ensures r[j] == ' ' {
        assert r[j] == x[j - 1];
      }
    }
    forall i | 0 <= i < |r| - k - 1 && r[i] == '\n'
      ensures r[i + k + 1] != '\n'
    {
      assert x[i - 1] == '\n';
      assert r[i + k + 1] == x[i - 1 + k + 1];
    }
  }

  /** After step 2 every newline is followed by the indentation, and the
      character after the indentation, if any, is not another newline. */
  lemma {:induction false} CollapseIndents(s: string, k: nat)
    ensures var r := CollapseNewlines(s, Spaces(k));
      && Indented(r, k)
      && (forall i :: 0 <= i < |r| - k - 1 && r[i] == '\n' ==> r[i + k + 1] != '\n')
      && (|r| > 0 <==> |s| > 0)
      && (|s| > 0 && s[0] != '\n' ==> r[0] == s[0])
    decreases |s|
  {
    var r := CollapseNewlines(s, Spaces(k));
    if |s| == 0 {
    } else if s[0] == '\n' {
      var t := s[NewlineRun(s)..];
      CollapseIndents(t, k);
      assert r == "\n" + Spaces(k) + CollapseNewlines(t, Spaces(k));
      IndentAfterNewline(CollapseNewlines(t, Spaces(k)), k);
    } else {
      CollapseIndents(s[1..], k);
      assert r == [s[0]] + CollapseNewlines(s[1..], Spaces(k));
      IndentAfterChar(s[0], CollapseNewlines(s[1..], Spaces(k)), k);
    }
  }

  /** Step 2 only replaces whitespace by whitespace: the code is unchanged. */
  lemma {:induction false} CollapseKeepsCode(s: string, indent: string)
    requires AllSpace(indent)
    ensures DropSpace(CollapseNewlines(s, indent)) == DropSpace(s)
    decreases |s|
  {
    if |s| > 0 {
      if s[0] == '\n' {
        var n := NewlineRun(s);
        assert AllSpace(s[..n]) by {
          forall i | 0 <= i < n ensures IsSpace(s[..n][i]) {
            assert s[..n][i] == s[i];
          }
        }
        DropSpacePrefix(s, n);
        CollapseKeepsCode(s[n..], indent);
        var rest := CollapseNewlines(s[n..], indent);
        var out := "\n" + indent + rest;
        var head := out[..1 + |indent|];
        assert AllSpace(head) by {
          forall i | 0 <= i < |head| ensures IsSpace(head[i]) {
            if i > 0 {
              assert head[i] == indent[i - 1];
            }
          }
        }
        DropSpacePrefix(out, 1 + |indent|);
        assert out[1 + |indent|..] == rest;
      } else {
        CollapseKeepsCode(s[1..], indent);
        var rest := CollapseNewlines(s[1..], indent);
        assert ([s[0]] + rest)[1..] == rest;
      }
    }
  }

  /** A newline followed by nothing but whitespace: where `\n(\s*)$` matches. */
  predicate TrailsOff(s: string, p: int) {
    0 <= p < |s| && s[p] == '\n' && AllSpace(s[p + 1..])
  }

  /** The leftmost position where `\n(\s*)$` matches, or -1. */
  function TrailingNewline(s: string): (p: int)
    ensures -1 <= p < |s|
    ensures p >= 0 ==> TrailsOff(s, p)
    ensures forall j :: 0 <= j < |s| && (p < 0 || j < p) ==> !TrailsOff(s, j)
  {
    if |s| == 0 then -1
    else if TrailsOff(s, 0) then 0
    else
      var p := TrailingNewline(s[1..]);
      assert forall j :: 1 <= j < |s| ==> (TrailsOff(s, j) <==> TrailsOff(s[1..], j - 1)) by {
        forall j | 1 <= j < |s| ensures TrailsOff(s, j) <==> TrailsOff(s[1..], j - 1) {
          assert s[j + 1..] == s[1..][j..];
        }
      }
      if p < 0 then -1 else p + 1
  }

  /** Step 3: the whitespace after the first newline of the trailing
      whitespace is dropped, keeping that newline. */
  function TrimTrailing(s: string): string {
    var p := TrailingNewline(s);
    if p < 0 then s else s[..p] + "\n"
  }


  /** Step 3 keeps the indentation after every newline but a final one. */
  lemma TrimKeepsIndent(s: string, k: nat)
    requires Indented(s, k)
    ensures var r := TrimTrailing(s);
      forall i :: 0 <= i < |r| - 1 && r[i] == '\n' ==>
        i + k < |r| && forall j :: i < j <= i + k ==> r[j] == ' '
  {
    var r := TrimTrailing(s);
    var p := TrailingNewline(s);
    if p >= 0 {
      forall i | 0 <= i < |r| - 1 && r[i] == '\n'
        ensures i + k < |r| && forall j :: i < j <= i + k ==> r[j] == ' '
      {
        assert s[i] == '\n';
        forall j | i < j <= i + k ensures r[j] == ' ' {
          assert r[j] == s[j];
        }
      }
    }
  }

  lemma TrimKeepsCode(s: string, p: nat)
    requires TrailsOff(s, p)
    ensures DropSpace(s[..p] + "\n") == DropSpace(s)
  {
    assert AllSpace(s[p..]) by {
      forall i | 0 <= i < |s[p..]| ensures IsSpace(s[p..][i]) {
        if i > 0 {
          assert s[p..][i] == s[p + 1..][i - 1];
        }
      }
    }
    assert s == s[..p] + s[p..];
    DropSpaceAppend(s[..p], s[p..]);
    DropSpaceAppend(s[..p], "\n");
    DropAllSpace(s[p..]);
    DropAllSpace("\n");
  }

  /** After step 3, a newline followed only by whitespace is the last
      character, and only whitespace has been cut. */
  lemma TrimEndsClean(s: string)
    ensures var r := TrimTrailing(s);
      forall i :: 0 <= i < |r| && r[i] == '\n' && AllSpace(r[i + 1..]) ==> i == |r| - 1
    ensures DropSpace(TrimTrailing(s)) == DropSpace(s)
  {
    var r := TrimTrailing(s);
    var p := TrailingNewline(s);
    if p >= 0 {
      TrimKeepsCode(s, p);
      forall i | 0 <= i < |r| && r[i] == '\n' && AllSpace(r[i + 1..])
        ensures i == |r| - 1
      {
        if i < p {
          assert s[i] == '\n';
          assert !TrailsOff(s, i);
          var u := s[i + 1..];
          forall j | 0 <= j < |u| ensures IsSpace(u[j]) {
            if j < p - i - 1 {
              assert u[j] == r[i + 1..][j];
            } else if j > p - i - 1 {
              assert u[j] == s[p + 1..][j - (p - i)];
            }
          }
          assert false;
        }
      }
    } else {
      assert forall i :: 0 <= i < |s| && s[i] == '\n' ==> !AllSpace(s[i + 1..]) by {
        forall i | 0 <= i < |s| && s[i] == '\n' ensures !AllSpace(s[i + 1..]) {
          assert !TrailsOff(s, i);
        }
      }
    }
  }

  /** The whole clean-up of a fragment read from disk, for a block at column
      `leftOffset`. Apart from whitespace, the result is the file without its
      whole-line comments; every newline except a final one is followed by at
      least `leftOffset` spaces; a newline followed only by whitespace is the
      last character; and the result is empty exactly when step 1 leaves
      nothing, whatever the offset. */
  function Process(raw: string, leftOffset: nat): (r: string)
    ensures DropSpace(r) == DropSpace(StripComments(raw, true))
    ensures forall i :: 0 <= i < |r| - 1 && r[i] == '\n' ==>
      i + leftOffset < |r| && forall j :: i < j <= i + leftOffset ==> r[j] == ' '
    ensures forall i :: 0 <= i < |r| && r[i] == '\n' && AllSpace(r[i + 1..]) ==> i == |r| - 1
    ensures r == "" <==> StripComments(raw, true) == ""
  {
    var stripped := StripComments(raw, true);
    var s := CollapseNewlines(stripped, Spaces(leftOffset));
    CollapseIndents(stripped, leftOffset);
    CollapseKeepsCode(stripped, Spaces(leftOffset));
    TrimKeepsIndent(s, leftOffset);
    TrimEndsClean(s);
    TrimTrailing(s)
  }
}
